=== FILE: README.md ===
# EeveeBot emote registry and access control, in Dafny

EeveeBot is a chat bot whose one stateful subsystem is an emote registry plus an access-control
ledger. This project models that subsystem in both of the generations the repository contains.

- **Current generation.** An Entity-Framework style store (`DatabaseContext`) holds the whitelist,
  the blacklist, the emotes and the per-user emote aliases. A runtime cache (`RuntimeDBCache`)
  reconciles itself against the store. A repository (`DatabaseRepository`) implements:
  - the ledger operations (whitelist and blacklist add and remove, change of owner);
  - the emote-table edits;
  - first-match name resolution against the cache.
- **Legacy generation.** A document store holds `Db_Emote`, `Db_EeveeEmote` and
  `Db_WhitelistUser` documents and their view objects. Two command modules work on it:
  - whitelist add and remove (`RestrictionCommands.cs`);
  - emote registration, the `send`/`info` lookup, nickname creation and deletion, and the
    paging of the emote list (`FunCommands.cs`).
- **Admission gate.** In front of every command sits a per-user cooldown map combined with the
  deny-list rule (`BotLogic.cs`).

## Layout

| module | file | models |
|---|---|---|
| `Wrappers` | wrappers.dfy | `Option`, for the source's `null` results |
| `Text` | text.dfy | the string helpers the source calls but does not define. ASCII lower-casing stands for `ToLower` and `EqualsCaseInsensitive`. Also `Between`, `Replace` of one character, decimal rendering, and `Length` counted in UTF-16 code units |
| `Sequences` | sequences.dfy | `Where`/`RemoveAll`, `FirstOrDefault`, and `OrderByDescending` on an integer key |
| `EmoteCommon` | emote_common.dfy | the `Emotes\{Id}.gif/.png` path and the `<a:Name:Id>` markup shared by every emote record |
| `EeveeEmotes` | eevee_emote.dfy | `EeveeEmote`, `EeveeEmoteAlias` and `TryAssociate` |
| `LegacyEeveeEmotes` | db_eevee_emote.dfy | `Db_EeveeEmote` and `Obj_EeveeEmote` |
| `LegacyEmotes` | db_emote.dfy | `Db_Emote`, `UserDefined` and `Obj_Emote` |
| `LegacyWhitelist` | db_whitelist_user.dfy | `Db_WhitelistUser` and `Obj_WhitelistUser` |
| `WhitelistUsers` | whitelist_user.dfy | `WhitelistUser`, a class, because `ToggleIsOwner` flips its field in place |
| `AccessControl` | access_control.dfy | the ledger as a value: a whitelist map from id to owner flag, plus a blacklist set |
| `Repository` | repository.dfy | the store, the runtime cache and the repository as classes, each proved against the pure functions of the same module |
| `RestrictionCommands` | restriction_commands.dfy | the whitelist commands over the `"whitelist"` collection |
| `LegacyEmoteCommands` | fun_commands.dfy | the emote commands over the `"emotes"` collection |
| `Gate` | bot_logic.dfy | `AllowExecution` and the cooldown-map updates of `HandleInputAsync` and `ResetValues` |

Collections are sequences in enumeration order. An entity whose fields the source changes in
place is a class:
- `WhitelistUser`;
- the store, the cache and the repository;
- the two legacy command modules;
- the gate.

Each of their methods is proved equal to a pure function of the old state. The properties are
proved about those functions.

A stored alias whose emote is neither cached nor stored makes `InitAsync` fault: the lookup of
its emote comes back null and the dereference ends the task part-way. The model reports this as
`faulted`.

Where the code is evidently wrong (see "## Findings"), the model has both versions. The classes
do what the code does, as written; the corrected definition sits beside it under its own name,
with the intended property proved about it.

## Model

| member | source | states |
|---|---|---|
| `Text.Utf16Length` | EeveeBot/Modules/FunCommands.cs:293 | `Length` in UTF-16 code units: at least the number of characters and at most twice it, equal to it iff every character lies in the Basic Multilingual Plane |
| `Text.Utf16LengthOfEmoji` | EeveeBot/Modules/FunCommands.cs:106 | U+1F600 is one character but two code units, so it meets the two-unit nickname minimum |
| `Text.Lower` | EeveeBot/Classes/Database/Db_EeveeEmote.cs:68-69 | lower-casing keeps the length, lowers each character in its place, and leaves no upper-case ASCII letter |
| `Text.Between` | EeveeBot/Classes/Database/EeveeEmote.cs:62-63 | with at least two `:`, the result is the text strictly between the first and second `:` and holds no `:` |
| `Text.Remove` | EeveeBot/Modules/FunCommands.cs:223 | exactly the characters other than the removed one are kept, in order (`Filter`); the length drops by its number of occurrences |
| `Text.ParseNatToString` | EeveeBot/Classes/Database/WhitelistUser.cs:20-21 | the decimal rendering of an id reads back as the id |
| `Sequences.FirstWhere` | EeveeBot/Classes/Database/DatabaseContext.cs:189 | `FirstOrDefault`: nothing iff no element matches; otherwise the earliest matching element |
| `Sequences.Filter` | EeveeBot/Classes/Database/DatabaseContext.cs:96 | `Where`, and `RemoveAll` with the test negated: keeps exactly the elements that pass, never grows, and changes nothing when every element passes |
| `Sequences.FirstWhereIsFirst` | EeveeBot/Modules/FunCommands.cs:371-372 | any element that matches with no match before it is the one `FirstOrDefault` returns |
| `Sequences.FilterKeepsOrder` | EeveeBot/Classes/Database/DatabaseContext.cs:211-218 | `Where` keeps the relative order of what it keeps: any relation between earlier and later elements survives the filter |
| `Sequences.FilterFilter` | EeveeBot/Modules/FunCommands.cs:223 | two filters in a row keep exactly what passes both, in order |
| `Sequences.SortDesc` | EeveeBot/Classes/Database/DatabaseContext.cs:208-209 | `OrderByDescending`: a permutation of the input whose keys never increase |
| `EmoteCommon.RelativePath` | EeveeBot/Classes/Database/EeveeEmote.cs:51 | the path is `Emotes\`, then the decimal id, then `.gif` or `.png` by the animated flag |
| `EmoteCommon.RelativePathRoundTrip` | EeveeBot/Classes/Database/Db_Emote.cs:51 | a path built from `(Id, IsAnimated)` parses back to exactly that pair |
| `EmoteCommon.RelativePathInjective` | EeveeBot/Classes/Database/Db_EeveeEmote.cs:38 | two emotes share a file only if they share id and animated flag |
| `EmoteCommon.Markup` | EeveeBot/Classes/Database/EeveeEmote.cs:57-58 | the markup opens with `<`, has `a` second iff animated, carries the name between the first two `:`, and closes with `:` + decimal id + `>` |
| `EmoteCommon.MarkupCarriesId` | EeveeBot/Classes/Database/Db_EeveeEmote.cs:46-47 | the digits closing the markup read back as the emote's id |
| `EmoteCommon.MarkupCarriesName` | EeveeBot/Classes/Database/EeveeEmote.cs:57-63 | for a name without `:`, the markup has exactly two `:` and the text between them is the name |
| `EeveeEmotes.Empty` | EeveeBot/Classes/Database/EeveeEmote.cs:38-41 | the parameterless constructor gives an empty alias list and a non-animated record |
| `EeveeEmotes.Create` | EeveeBot/Classes/Database/EeveeEmote.cs:43-52 | the six-argument constructor copies the six fields, and its path is the one derived from `(Id, IsAnimated)` and parses back to that pair |
| `EeveeEmotes.FromPlatform` | EeveeBot/Classes/Database/EeveeEmote.cs:54-55 | the guild-emote constructor takes id, name, animated flag and url from the emote, the adder and guild from its arguments, and derives the path |
| `EeveeEmotes.ToString` | EeveeBot/Classes/Database/EeveeEmote.cs:57-58 | the text opens with `<`, has `a` second iff the emote is animated, carries the name between the first two `:`, and closes with `:` + decimal id + `>` |
| `EeveeEmotes.NormalizeInput` | EeveeBot/Classes/Database/EeveeEmote.cs:62-63 | an input with exactly two `:` is cut down to the colon-free text that starts right after its first `:` and ends at the next; any other input is kept as it is |
| `EeveeEmotes.OwnedAliasMatchesIff` | EeveeBot/Classes/Database/EeveeEmote.cs:66 | the alias test holds iff some alias owned by the user equals the text, ignoring case |
| `EeveeEmotes.TryAssociate` | EeveeBot/Classes/Database/EeveeEmote.cs:60-67 | holds iff the name or an alias owned by the user equals the normalised input, ignoring case |
| `EeveeEmotes.MarkupResolves` | EeveeBot/Classes/Database/EeveeEmote.cs:57-66 | pasting an emote's own markup normalises to its name (when the name has no `:`) and so resolves to that emote |
| `EeveeEmotes.ForeignAliasesIgnored` | EeveeBot/Classes/Database/EeveeEmote.cs:66 | aliases of other users never change whether a user's input matches |
| `LegacyEeveeEmotes.Create` | EeveeBot/Classes/Database/Db_EeveeEmote.cs:33-41 | the constructor copies the fields, derives the path from `(Id, IsAnimated)`, and turns a missing alias list into an empty one |
| `LegacyEeveeEmotes.FromPlatform` | EeveeBot/Classes/Database/Db_EeveeEmote.cs:43-44 | the guild-emote constructor copies id, name, flag and url, derives the path from the id and the flag, and starts with no aliases |
| `LegacyEeveeEmotes.ToString` | EeveeBot/Classes/Database/Db_EeveeEmote.cs:46-47 | the text is enclosed in `<` and `>`, has `a` second iff the emote is animated, carries the name between the first two `:`, and ends with `:` + decimal id + `>` |
| `LegacyEeveeEmotes.OwnedAliasTexts` | EeveeBot/Classes/Database/Db_EeveeEmote.cs:64 | one text per alias owned by the user, in list order: the i-th text is that of the i-th owned alias |
| `LegacyEeveeEmotes.GetAllNames` | EeveeBot/Classes/Database/Db_EeveeEmote.cs:57-66 | the name comes first, followed by the texts of the user's aliases one for one, in list order |
| `LegacyEeveeEmotes.GetAllNamesLowered` | EeveeBot/Classes/Database/Db_EeveeEmote.cs:68-69 | the same names, position by position, lower-cased |
| `LegacyEeveeEmotes.TryAssociation` | EeveeBot/Classes/Database/Db_EeveeEmote.cs:54-55 | holds iff the name or one of the user's aliases equals the input, ignoring case |
| `LegacyEeveeEmotes.LoweredNamesContain` | EeveeBot/Classes/Database/Db_EeveeEmote.cs:54-69 | a lower-cased name is among the lowered names iff it matches the name or one of the user's alias texts, ignoring case |
| `LegacyEeveeEmotes.LoweredNameMatches` | EeveeBot/Classes/Database/Db_EeveeEmote.cs:57-69 | every lowered name is the lowered emote name or the lowered text of an alias the user owns |
| `LegacyEeveeEmotes.OwnedAliasLowered` | EeveeBot/Classes/Database/Db_EeveeEmote.cs:57-69 | every alias the user owns contributes its lowered text |
| `LegacyEeveeEmotes.ToObject` | EeveeBot/Classes/Database/Db_EeveeEmote.cs:107-115 | as written, the copy keeps id, name, url and aliases, and its path is exactly the one derived from the source's id and flag, but it is never animated |
| `LegacyEeveeEmotes.ToObjectLosesAnimation` | EeveeBot/Classes/Database/Db_EeveeEmote.cs:85-89 | the copy of an animated record says "not animated" while its path still names a `.gif` |
| `LegacyEeveeEmotes.ToObjectCorrected` | EeveeBot/Classes/Database/Db_EeveeEmote.cs:107-115 | the intended copy carries every field, including the animated flag, and the path derived from them |
| `LegacyEeveeEmotes.EncapsulateToDb` | EeveeBot/Classes/Database/Db_EeveeEmote.cs:122-125 | the view is returned unchanged as the document |
| `LegacyEeveeEmotes.ObjectRoundTrip` | EeveeBot/Classes/Database/Db_EeveeEmote.cs:107-125 | with the intended copy, record to view to record is the identity on constructor-built records |
| `LegacyEeveeEmotes.ObjectRoundTripAsWrittenFails` | EeveeBot/Classes/Database/Db_EeveeEmote.cs:85-89 | as written, that round trip changes every animated record |
| `LegacyEmotes.CreateObj` | EeveeBot/Classes/Database/Db_Emote.cs:46-54 | the `Obj_Emote` constructor copies the fields, derives the path from `(Id, IsAnimated)`, and turns a missing nickname list into an empty one |
| `LegacyEmotes.EncapsulateToDb` | EeveeBot/Classes/Database/Db_Emote.cs:56-67 | all six fields are copied unchanged |
| `LegacyEmotes.EncapsulateToObj` | EeveeBot/Classes/Database/Db_Emote.cs:23-26 | id, name, flag, url and nicknames are copied; the path is recomputed |
| `LegacyEmotes.DbObjDbRoundTrip` | EeveeBot/Classes/Database/Db_Emote.cs:23-67 | document to view to document keeps every field but the path, and is the identity iff the stored path is the derived one |
| `LegacyEmotes.ObjDbObjRoundTrip` | EeveeBot/Classes/Database/Db_Emote.cs:46-67 | view to document to view is the identity on constructor-built views |
| `LegacyWhitelist.CreateObj` | EeveeBot/Classes/Database/Db_WhitelistUser.cs:29-33 | the constructor stores the id; the owner flag defaults to false |
| `LegacyWhitelist.EncapsulateToObj` | EeveeBot/Classes/Database/Db_WhitelistUser.cs:17-20 | id and owner flag are preserved |
| `LegacyWhitelist.EncapsulateToDb` | EeveeBot/Classes/Database/Db_WhitelistUser.cs:35-42 | id and owner flag are preserved |
| `LegacyWhitelist.RoundTrips` | EeveeBot/Classes/Database/Db_WhitelistUser.cs:17-42 | both round trips give back an equal `(Id, IsOwner)` pair |
| `WhitelistUsers.WhitelistUser.Default` | EeveeBot/Classes/Database/WhitelistUser.cs:13 | the parameterless constructor is not the owner |
| `WhitelistUsers.WhitelistUser.constructor` | EeveeBot/Classes/Database/WhitelistUser.cs:14-18 | stores the id and the flag, which defaults to false |
| `WhitelistUsers.WhitelistUser.ToString` | EeveeBot/Classes/Database/WhitelistUser.cs:20-21 | a non-empty string of digits without leading zero that reads back as the id |
| `WhitelistUsers.WhitelistUser.ToggleIsOwner` | EeveeBot/Classes/Database/WhitelistUser.cs:23-26 | negates the owner flag in place and leaves the id alone |
| `WhitelistUsers.ToggleTwice` | EeveeBot/Classes/Database/WhitelistUser.cs:23-26 | toggling twice restores the flag |
| `AccessControl.IsWhitelisted` | EeveeBot/Classes/Database/DatabaseContext.cs:70-71 | holds iff some whitelist entry has the id, whatever its flag |
| `AccessControl.IsOwner` | EeveeBot/Classes/Database/DatabaseContext.cs:73-74 | holds iff the entry with the id carries the owner flag; an owner is whitelisted |
| `AccessControl.NoOwner` | EeveeBot/Classes/Database/DatabaseContext.cs:76-77 | holds iff no user is the owner; an empty whitelist has no owner |
| `AccessControl.CanChangeOwner` | EeveeBot/Classes/Database/DatabaseContext.cs:79-80 | with at most one owner, holds iff every owner is the user: the user is the owner or nobody is |
| `AccessControl.IsBlacklisted` | EeveeBot/Classes/Database/DatabaseContext.cs:82-83 | holds iff the id is on the blacklist; with disjoint lists a blacklisted id is not whitelisted |
| `AccessControl.CanChangeOwnerIsSoleOwner` | EeveeBot/Classes/Database/DatabaseContext.cs:73-80 | with at most one owner, anyone allowed to change the owner is the only possible owner |
| `AccessControl.WhitelistAdd` | EeveeBot/Classes/Database/DatabaseContext.cs:85-92 | the user ends whitelisted and not blacklisted. An existing entry is unchanged. A new entry is the owner iff the whitelist was empty. Nothing else changes |
| `AccessControl.WhitelistRemove` | EeveeBot/Classes/Database/DatabaseContext.cs:94-98 | the user's entry goes; every other entry and the blacklist stay |
| `AccessControl.BlacklistAdd` | EeveeBot/Classes/Database/DatabaseContext.cs:124-131 | the user ends blacklisted and not whitelisted; nothing else changes |
| `AccessControl.BlacklistRemove` | EeveeBot/Classes/Database/DatabaseContext.cs:133-137 | the user leaves the blacklist; the whitelist stays |
| `AccessControl.ListOperationsPreserveValid` | EeveeBot/Classes/Database/DatabaseContext.cs:85-137 | the four list operations keep "at most one owner" and "no id on both lists" |
| `AccessControl.ChangeOwner` | EeveeBot/Classes/Database/DatabaseContext.cs:103-122 | intended version. Faults iff the caller is not listed and the call is not a self-claim without an owner. A self-claim without an owner makes the claimant the owner; a self-claim with an owner changes nothing; otherwise the caller's flag and the target's flag (false when unlisted) are both negated. The blacklist stays, the target joins the whitelist, and the other entries keep their flags |
| `AccessControl.ChangeOwnerSelfClaim` | EeveeBot/Classes/Database/DatabaseContext.cs:105-110 | a self-claim with no owner leaves exactly the claimant as the owner |
| `AccessControl.ChangeOwnerTransfer` | EeveeBot/Classes/Database/DatabaseContext.cs:111-121 | a hand-over by the owner to someone else leaves exactly the target as the owner |
| `AccessControl.ChangeOwnerPreservesValid` | EeveeBot/Classes/Database/DatabaseContext.cs:103-122 | when the caller may change the owner (a self-claim if nobody owns the bot, otherwise the owner), the change succeeds and leaves at most one owner; the lists stay disjoint when the target is not blacklisted |
| `AccessControl.ChangeOwnerToBlacklisted` | EeveeBot/Classes/Database/DatabaseContext.cs:111-121 | handing ownership to a blacklisted user puts one id on both lists |
| `AccessControl.ChangeOwnerByNonOwner` | EeveeBot/Classes/Database/DatabaseContext.cs:111-121 | outside that precondition the two toggles can leave three owners |
| `AccessControl.ChangeOwnerSelfWhileOwned` | EeveeBot/Classes/Database/DatabaseContext.cs:113-120 | a self-claim while someone owns toggles one tracked entry twice and so changes nothing |
| `AccessControl.ChangeOwnerAsWritten` | EeveeBot/Classes/Database/DatabaseContext.cs:103-122 | as written, a self-claim by an already-listed user with no owner saves the entry unchanged; every other case is `ChangeOwner` |
| `AccessControl.SelfClaimAsWrittenLeavesNoOwner` | EeveeBot/Classes/Database/DatabaseContext.cs:105-109 | as written, such a claim leaves the bot without an owner; the intended version makes the claimant the owner |
| `Repository.DeleteEmote` | EeveeBot/Classes/Database/DatabaseContext.cs:149-155 | exactly the emotes with that id go, and with them exactly the aliases naming that id |
| `Repository.DeleteAlias` | EeveeBot/Classes/Database/DatabaseContext.cs:142-147 | exactly the aliases with that id go; the emotes stay |
| `Repository.DeleteEmoteKeepsIntegrity` | EeveeBot/Classes/Database/DatabaseContext.cs:149-155 | the cascade never leaves an alias without its emote |
| `Repository.AliasEditsKeepIntegrity` | EeveeBot/Classes/Database/DatabaseContext.cs:142-169 | deleting an alias, or adding one whose emote is stored, keeps every alias attached to a stored emote |
| `Repository.IndexOfEmote` | EeveeBot/Classes/Database/DatabaseContext.cs:43 | the position of the first cached emote with the id, or nothing iff none has it |
| `Repository.AddMissingEmotes` | EeveeBot/Classes/Database/DatabaseContext.cs:32-36 | the cache is extended at the end, gains exactly the missing stored ids, and keeps ids unique |
| `Repository.CacheAlias` | EeveeBot/Classes/Database/DatabaseContext.cs:40-41 | the alias is appended unless its id is cached; the cached ids become the old ones plus this one |
| `Repository.AttachOne` | EeveeBot/Classes/Database/DatabaseContext.cs:38-44 | faults iff no cached emote has the alias's emote id, leaving the emotes as they were; otherwise the alias is cached and exactly the first emote with that id gains it at the end of its list, every other emote unchanged |
| `Repository.AttachAliases` | EeveeBot/Classes/Database/DatabaseContext.cs:38-44 | the second pass only appends: emote alias lists grow and the alias cache is extended |
| `Repository.GrowsKeeps` | EeveeBot/Classes/Database/DatabaseContext.cs:38-44 | appending aliases keeps the emote ids and every earlier attachment |
| `Repository.AttachAliasesMeaning` | EeveeBot/Classes/Database/DatabaseContext.cs:38-44 | faults iff a stored alias names an uncached emote id; otherwise it caches every stored alias id and attaches every stored alias |
| `Repository.PruneEmotes` | EeveeBot/Classes/Database/DatabaseContext.cs:46 | exactly the cached emotes whose id is stored remain |
| `Repository.DetachFromEmotes` | EeveeBot/Classes/Database/DatabaseContext.cs:51-54 | each emote loses exactly the aliases with the given ids and keeps its other fields |
| `Repository.DetachStale` | EeveeBot/Classes/Database/DatabaseContext.cs:48-55 | intended last pass: exactly the stored alias ids stay cached, and every emote loses exactly the stale aliases |
| `Repository.DetachFirstStale` | EeveeBot/Classes/Database/DatabaseContext.cs:48-55 | as written: faults iff something is stale; then the first stale alias in cache order, and only its id, leaves `Aliases` and every emote's list |
| `Repository.ReconcileAsWritten` | EeveeBot/Classes/Database/DatabaseContext.cs:30-56 | `InitAsync` as written agrees with the intended version whenever an earlier pass faults |
| `Repository.Reconcile` | EeveeBot/Classes/Database/DatabaseContext.cs:30-56 | intended `InitAsync`: faults iff a stored alias names an emote neither cached nor stored |
| `Repository.ReconcileAsWrittenFaults` | EeveeBot/Classes/Database/DatabaseContext.cs:30-56 | `InitAsync` as written faults iff a stored alias names an emote neither cached nor stored, or the cache holds an alias the store lacks; when it does not fault it equals the intended run |
| `Repository.StaleAfterAttach` | EeveeBot/Classes/Database/DatabaseContext.cs:38-55 | the stale aliases after the second pass are those that were cached before it |
| `Repository.ReconcileAsWrittenWithoutStale` | EeveeBot/Classes/Database/DatabaseContext.cs:30-56 | with nothing stale the written and the intended `InitAsync` coincide |
| `Repository.DetachStaleKeeps` | EeveeBot/Classes/Database/DatabaseContext.cs:48-55 | the last pass keeps the emote ids, their uniqueness, and every attachment of a stored alias |
| `Repository.PruneKeepsAttached` | EeveeBot/Classes/Database/DatabaseContext.cs:46 | pruning keeps the attachment of an alias whose emote is stored |
| `Repository.ReconcileFaults` | EeveeBot/Classes/Database/DatabaseContext.cs:30-56 | intended `InitAsync`: faults iff a stored alias names an emote neither cached nor stored; unique cached ids stay unique |
| `Repository.ReconcileEmoteIds` | EeveeBot/Classes/Database/DatabaseContext.cs:32-46 | after an intended run that does not fault, the cache holds exactly the stored emote ids |
| `Repository.ReconcileAliasIds` | EeveeBot/Classes/Database/DatabaseContext.cs:38-55 | after an intended run that does not fault, the cache holds exactly the stored alias ids |
| `Repository.ReconcileAttachments` | EeveeBot/Classes/Database/DatabaseContext.cs:38-55 | after an intended run that does not fault, every stored alias is attached to its cached emote |
| `Repository.ReconcileCleanStore` | EeveeBot/Classes/Database/DatabaseContext.cs:38-44 | a store whose aliases all name stored emotes never faults the intended reconciliation |
| `Repository.StaleAliasSurvivesAsWritten` | EeveeBot/Classes/Database/DatabaseContext.cs:48-55 | with two stale aliases, the written loop keeps the second and faults; the intended one removes both |
| `Repository.ReconcileReattaches` | EeveeBot/Classes/Database/DatabaseContext.cs:38-44 | reconciling twice attaches a stored alias to its emote twice |
| `Repository.FirstAssociated` | EeveeBot/Classes/Database/DatabaseContext.cs:171-181 | nothing iff no cached emote accepts the input; otherwise the first one in cache order that does |
| `Repository.FirstOwnedAlias` | EeveeBot/Classes/Database/DatabaseContext.cs:186-192 | the first cached alias owned by the user whose text equals the input ignoring case, or nothing iff none |
| `Repository.EmoteExists` | EeveeBot/Classes/Database/DatabaseContext.cs:197-202 | true iff a cached emote has the id or accepts the input |
| `Repository.OwnedAliasCount` | EeveeBot/Classes/Database/DatabaseContext.cs:208 | the number of aliases the user owns (the length of their filter); zero iff the user owns none |
| `Repository.GetEmotes` | EeveeBot/Classes/Database/DatabaseContext.cs:204-210 | a permutation of the cache with every animated emote before every static one |
| `Repository.GetEmotesMatching` | EeveeBot/Classes/Database/DatabaseContext.cs:211-218 | exactly the cached emotes whose name or any alias (of any owner) contains the normalised input, in the order `GetEmotes` gives them, so animated ones first |
| `Repository.AssociatedEmotesAreListed` | EeveeBot/Classes/Database/DatabaseContext.cs:211-217 | every emote that resolution accepts also appears in the search result |
| `Repository.DatabaseContext.constructor` | EeveeBot/Classes/Database/DatabaseContext.cs:13-23 | the store holds the given lists and tables |
| `Repository.RuntimeCache.constructor` | EeveeBot/Classes/Database/DatabaseContext.cs:25-28 | the cache starts empty |
| `Repository.RuntimeCache.InitAsync` | EeveeBot/Classes/Database/DatabaseContext.cs:30-56 | the cache and the fault flag become what `ReconcileAsWritten` gives for the old cache and the store |
| `Repository.RuntimeCache.AddMissingEmotesFrom` | EeveeBot/Classes/Database/DatabaseContext.cs:32-36 | the first pass, in place, equals `AddMissingEmotes` |
| `Repository.RuntimeCache.AttachStoredAliases` | EeveeBot/Classes/Database/DatabaseContext.cs:38-44 | the second pass, in place, equals `AttachAliases` |
| `Repository.RuntimeCache.AttachStoredAlias` | EeveeBot/Classes/Database/DatabaseContext.cs:39-43 | one alias, in place, equals `AttachOne`: cached by id once, appended to the first emote with its `EmoteId`, a fault when there is none |
| `Repository.RuntimeCache.DropStale` | EeveeBot/Classes/Database/DatabaseContext.cs:46-55 | the third and fourth passes as written, in place: pruning, then the scan that detaches the first stale alias and faults; equals `DetachFirstStale` |
| `Repository.DetachEach` | EeveeBot/Classes/Database/DatabaseContext.cs:51-54 | the loop over the emotes gives each emote exactly its aliases minus the stale ids, other fields untouched |
| `Repository.DatabaseRepository.constructor` | EeveeBot/Classes/Database/DatabaseContext.cs:62-68 | constructing the repository reconciles the cache against the store as `InitAsync` is written, ignoring its fault |
| `Repository.DatabaseRepository.WhitelistAddAsync` | EeveeBot/Classes/Database/DatabaseContext.cs:85-92 | the ledger becomes `WhitelistAdd` of the old one; the tables stay |
| `Repository.DatabaseRepository.WhitelistRemoveAsync` | EeveeBot/Classes/Database/DatabaseContext.cs:94-98 | the ledger becomes `WhitelistRemove` of the old one |
| `Repository.DatabaseRepository.ChangeOwnerAsync` | EeveeBot/Classes/Database/DatabaseContext.cs:103-122 | faults iff `ChangeOwnerAsWritten` does, leaving the ledger unchanged; otherwise the ledger becomes its result |
| `Repository.DatabaseRepository.BlacklistAddAsync` | EeveeBot/Classes/Database/DatabaseContext.cs:124-131 | the ledger becomes `BlacklistAdd` of the old one |
| `Repository.DatabaseRepository.BlacklistRemoveAsync` | EeveeBot/Classes/Database/DatabaseContext.cs:133-137 | the ledger becomes `BlacklistRemove` of the old one |
| `Repository.DatabaseRepository.DeleteEmoteAliasAsync` | EeveeBot/Classes/Database/DatabaseContext.cs:142-147 | the tables become `DeleteAlias` of the old ones |
| `Repository.DatabaseRepository.DeleteEmoteAsync` | EeveeBot/Classes/Database/DatabaseContext.cs:149-155 | the tables become `DeleteEmote` of the old ones, cascading to the aliases |
| `Repository.DatabaseRepository.AddEmoteAsync` | EeveeBot/Classes/Database/DatabaseContext.cs:157-162 | the emote is appended to the store's emotes |
| `Repository.DatabaseRepository.AddAliasAsync` | EeveeBot/Classes/Database/DatabaseContext.cs:164-169 | the alias is appended to the store's aliases |
| `Repository.DatabaseRepository.AssociateEmoteAsync` | EeveeBot/Classes/Database/DatabaseContext.cs:171-181 | the scan returns `FirstAssociated` of the cache |
| `Repository.DatabaseRepository.IsEmoteAssociatedAsync` | EeveeBot/Classes/Database/DatabaseContext.cs:183-184 | true iff some cached emote accepts the input |
| `Repository.DatabaseRepository.AssociateMultipleEmotesAsync` | EeveeBot/Classes/Database/DatabaseContext.cs:194-195 | one first-match resolution per input, in input order |
| `RestrictionCommands.FindUser` | EeveeBot/Modules/RestrictionCommands.cs:53 | a listed entry with the id, or nothing iff none is listed |
| `RestrictionCommands.Whiten` | EeveeBot/Modules/RestrictionCommands.cs:41-71 | covers the bot-id refusal, the listed-caller-or-empty-list rule, no change for an already-listed target, and appending a new entry that is the owner iff the list was empty |
| `RestrictionCommands.DeWhiten` | EeveeBot/Modules/RestrictionCommands.cs:75-104 | an unlisted caller is refused. An unlisted target is a success with no change. With both listed, success iff the caller removes themself or is the owner. Entries go only on success: the list becomes the original filtered by `x.id != target`, in order. A refusal names another user |
| `RestrictionCommands.CommandsPreserveInvariant` | EeveeBot/Modules/RestrictionCommands.cs:41-104 | both commands keep ids unique and at most one owner |
| `RestrictionCommands.WhitenKeepsInvariant` | EeveeBot/Modules/RestrictionCommands.cs:41-71 | `add` keeps ids unique and at most one owner: a new entry has a fresh id and is the owner only on an empty list |
| `RestrictionCommands.DeWhitenKeepsInvariant` | EeveeBot/Modules/RestrictionCommands.cs:75-104 | `del` keeps ids unique and at most one owner, since removal keeps a subsequence |
| `RestrictionCommands.FirstAddBootstraps` | EeveeBot/Modules/RestrictionCommands.cs:55-62 | the first add to an empty list creates exactly one entry, the owner |
| `RestrictionCommands.ShowOrder` | EeveeBot/Modules/RestrictionCommands.cs:110 | the listing is a permutation with the owner first |
| `RestrictionCommands.WhitelistCommands.constructor` | EeveeBot/Modules/RestrictionCommands.cs:28-37 | the module holds the collection and the bot's id |
| `RestrictionCommands.WhitelistCommands.WhitenUserCommand` | EeveeBot/Modules/RestrictionCommands.cs:41-71 | reply and collection become what `Whiten` gives |
| `RestrictionCommands.WhitelistCommands.DeWhitenUserCommand` | EeveeBot/Modules/RestrictionCommands.cs:75-104 | reply and collection become what `DeWhiten` gives |
| `LegacyEmoteCommands.Definitions` | EeveeBot/Modules/FunCommands.cs:102 | exactly the nicknames the caller owns on any emote |
| `LegacyEmoteCommands.Update` | EeveeBot/Modules/FunCommands.cs:320 | the document with the new document's id is replaced; every other stays |
| `LegacyEmoteCommands.AddNickname` | EeveeBot/Modules/FunCommands.cs:313-318 | one nickname is appended, owned by the caller and naming the emote itself |
| `LegacyEmoteCommands.DropNickname` | EeveeBot/Modules/FunCommands.cs:377 | exactly the nicknames with that exact text go, whoever owns them |
| `LegacyEmoteCommands.UpdateKeepsWellFormed` | EeveeBot/Modules/FunCommands.cs:320 | replacing a document by one with its id whose nicknames name it keeps ids unique and nicknames at home |
| `LegacyEmoteCommands.AddEmote` | EeveeBot/Modules/FunCommands.cs:92-134 | a registered id is refused with no change. Otherwise exactly one document is appended, with the exact derived path, carrying the nickname iff it is given, not the caller's already (ignoring case) and at least 2 UTF-16 code units long. A too-short nickname still inserts the emote |
| `LegacyEmoteCommands.AddKeepsWellFormed` | EeveeBot/Modules/FunCommands.cs:92-134 | registration keeps ids unique and every nickname on the emote it names |
| `LegacyEmoteCommands.Clean` | EeveeBot/Modules/FunCommands.cs:223 | every character other than `:` and space is kept, in order, and nothing else |
| `LegacyEmoteCommands.CleanIdempotent` | EeveeBot/Modules/FunCommands.cs:249 | cleaning twice is cleaning once |
| `LegacyEmoteCommands.FindForDisplay` | EeveeBot/Modules/FunCommands.cs:223-228 | nothing iff no emote matches. Otherwise the first emote in order whose space-free name, or any space-free nickname of any owner, equals the cleaned input ignoring case |
| `LegacyEmoteCommands.DisplayIgnoresPunctuation` | EeveeBot/Modules/FunCommands.cs:249-254 | colons and spaces in the input never change what is found |
| `LegacyEmoteCommands.FindByName` | EeveeBot/Modules/FunCommands.cs:291 | the first emote in collection order whose name equals the input ignoring case, or nothing iff none does |
| `LegacyEmoteCommands.FindByOwnNickname` | EeveeBot/Modules/FunCommands.cs:328-329 | the first emote in collection order for which one of the caller's own nicknames equals the input ignoring case, or nothing iff none |
| `LegacyEmoteCommands.Attach` | EeveeBot/Modules/FunCommands.cs:302-324 | silent iff the nickname is an emote name or already the caller's. Refused past the limit. Otherwise the nickname is appended and the document updated |
| `LegacyEmoteCommands.Rename` | EeveeBot/Modules/FunCommands.cs:284-362 | a nickname shorter than 2 UTF-16 code units is refused first. The emote is missing iff neither lookup finds one. Only success changes the collection, and success needs a fresh nickname. Conversely, an emote found by name (else by the caller's own nickname) with a fresh nickname and the caller's count within the limit (2, else 3) gets the nickname |
| `LegacyEmoteCommands.RenameAttaches` | EeveeBot/Modules/FunCommands.cs:298-353 | once the nickname is long enough, the result is exactly `Attach` on the emote found by name with limit 2, else on the emote found through the caller's nickname with limit 3 |
| `LegacyEmoteCommands.RenameRefusals` | EeveeBot/Modules/FunCommands.cs:302-341 | past the limit on the emote found (2 by name, 3 by nickname) the reply is the capacity refusal and nothing is written; a nickname that is an emote name or already the caller's ends silently with no write |
| `LegacyEmoteCommands.RenameCapacity` | EeveeBot/Modules/FunCommands.cs:305-353 | a success updates exactly the emote found. Found by name, the caller ends with at most 3 nicknames on it; otherwise the emote is the one `FindByOwnNickname` found, and the caller ends with at most 4 |
| `LegacyEmoteCommands.RenamedIsDisplayed` | EeveeBot/Modules/FunCommands.cs:313-320 | after a successful rename, `send` with the new nickname finds an emote |
| `LegacyEmoteCommands.RenameKeepsWellFormed` | EeveeBot/Modules/FunCommands.cs:284-362 | renaming keeps ids unique and nicknames at home |
| `LegacyEmoteCommands.RenameTarget` | EeveeBot/Modules/FunCommands.cs:302-324 | a successful rename appends the nickname to an emote of the collection |
| `LegacyEmoteCommands.DeleteNickname` | EeveeBot/Modules/FunCommands.cs:366-382 | silent iff the caller has no nickname equal to the input without ':' ignoring case. Only success changes the collection |
| `LegacyEmoteCommands.DeletePicksFirst` | EeveeBot/Modules/FunCommands.cs:371-379 | a success works on the caller's first matching nickname in `SelectMany` order and on the first emote with its id, dropping that nickname's exact text from it |
| `LegacyEmoteCommands.DeleteFaultsIff` | EeveeBot/Modules/FunCommands.cs:374-377 | faults iff the caller's first matching nickname names an id no emote has (the null emote of the source) |
| `LegacyEmoteCommands.FirstNickname` | EeveeBot/Modules/FunCommands.cs:371-372 | nothing iff the caller has no matching nickname; otherwise the nickname at the first matching index |
| `LegacyEmoteCommands.FirstNicknameIndex` | EeveeBot/Modules/FunCommands.cs:371-372 | the nickname found sits at a first matching index |
| `LegacyEmoteCommands.EmoteWithId` | EeveeBot/Modules/FunCommands.cs:376 | nothing iff no emote has the id; otherwise the first emote with it |
| `LegacyEmoteCommands.EmoteWithIdIndex` | EeveeBot/Modules/FunCommands.cs:376 | the emote found sits at the first index with the id |
| `LegacyEmoteCommands.DeleteNeverFaults` | EeveeBot/Modules/FunCommands.cs:376-377 | with nicknames at home, the emote lookup never comes back empty |
| `LegacyEmoteCommands.DeleteRemovesEveryOwner` | EeveeBot/Modules/FunCommands.cs:377 | deleting one's nickname also removes another user's identical nickname on that emote |
| `LegacyEmoteCommands.DeleteKeepsWellFormed` | EeveeBot/Modules/FunCommands.cs:366-382 | deletion keeps ids unique and nicknames at home |
| `LegacyEmoteCommands.ListOrder` | EeveeBot/Modules/FunCommands.cs:389-390 | a permutation with every animated emote before every static one |
| `LegacyEmoteCommands.NumOfPagesAsWritten` | EeveeBot/Modules/FunCommands.cs:392 | the written page count is never below the needed one |
| `LegacyEmoteCommands.NumOfPages` | EeveeBot/Modules/FunCommands.cs:392 | the fewest pages of nine that hold all emotes |
| `LegacyEmoteCommands.NormalizePage` | EeveeBot/Modules/FunCommands.cs:395-399 | a page outside 1..count becomes 1; any other page is kept |
| `LegacyEmoteCommands.PageOf` | EeveeBot/Modules/FunCommands.cs:405 | at most nine consecutive emotes starting at `(page - 1) * 9`, short only at the end of the list |
| `LegacyEmoteCommands.EmoteList` | EeveeBot/Modules/FunCommands.cs:386-405 | the listing uses the page count as written, the normalised page and that page of the ordered list |
| `LegacyEmoteCommands.EmoteListReachesAll` | EeveeBot/Modules/FunCommands.cs:386-405 | every emote is listed: the i-th in list order is shown at place `i % 9` of page `i / 9 + 1`, which the listing accepts |
| `LegacyEmoteCommands.PagesCoverList` | EeveeBot/Modules/FunCommands.cs:392-405 | with the intended count, every accepted page is non-empty and every emote is on an accepted page at its place |
| `LegacyEmoteCommands.PageCountAgreement` | EeveeBot/Modules/FunCommands.cs:392 | the written and the intended counts agree iff `n % 9` is 0 or 1 |
| `LegacyEmoteCommands.AsWrittenEmptyPage` | EeveeBot/Modules/FunCommands.cs:392-405 | with eight emotes the written count offers 8 pages, and page 2 is accepted and empty |
| `LegacyEmoteCommands.EmoteCommands.constructor` | EeveeBot/Modules/FunCommands.cs:79-90 | the module holds the collection |
| `LegacyEmoteCommands.EmoteCommands.AddEmoteToDatabase` | EeveeBot/Modules/FunCommands.cs:92-134 | reply and collection become what `AddEmote` gives |
| `LegacyEmoteCommands.EmoteCommands.RenameEmoteCommand` | EeveeBot/Modules/FunCommands.cs:284-362 | reply and collection become what `Rename` gives |
| `LegacyEmoteCommands.EmoteCommands.DeleteEmoteNicknameCommand` | EeveeBot/Modules/FunCommands.cs:366-382 | reply and collection become what `DeleteNickname` gives |
| `Gate.DenyListWithDisjointLists` | EeveeBot/BotLogic.cs:104 | while no id is on both lists, a user passes the deny list iff not blacklisted or nobody owns the bot |
| `Gate.AllowExecution` | EeveeBot/BotLogic.cs:99-109 | bots never pass; a user passes only once their cooldown has run out; a blacklisted, non-whitelisted user is refused while the bot has an owner; a user with no cooldown and no blacklisting passes |
| `Gate.Commit` | EeveeBot/BotLogic.cs:144-151 | success records the finishing time for the user, failure forgets the user, and no other entry moves |
| `Gate.Handle` | EeveeBot/BotLogic.cs:111-153 | non-user and own messages are ignored. A user not admitted is blocked. Only an admitted command changes the map, and it changes it by `Commit` |
| `Gate.CooldownAfterCommand` | EeveeBot/BotLogic.cs:101-102 | after a success the user is refused for exactly one window; after a failure they are not held back |
| `Gate.OneSecondCooldown` | EeveeBot/BotLogic.cs:99-109 | with a one-second window: admitted, then refused right after a success, then admitted a second later. A failure admits at once |
| `Gate.BotLogic.constructor` | EeveeBot/BotLogic.cs:31 | the cooldown map starts empty |
| `Gate.BotLogic.HandleInputAsync` | EeveeBot/BotLogic.cs:111-153 | outcome and cooldown map become what `Handle` gives |
| `Gate.BotLogic.ResetValues` | EeveeBot/BotLogic.cs:157-169 | every cooldown is forgotten |

## Left out

- `null` is not modelled: a missing optional argument is an `Option`, and a null dereference is
  a `faulted` flag or a `Faulted` reply. The six-argument `EeveeEmote` constructor leaves
  `Aliases` null. `EeveeEmotes.Create` gives an empty list instead, so an alias appended to
  such an emote is modelled as appended rather than as a null dereference.
- The stability of `OrderByDescending` is not proved. `GetEmotes`, `ListOrder` and `ShowOrder`
  state the permutation and the final key order, not how ties keep the order of the first key.
- Entity Framework mechanics are abstracted to plain collections. This covers change tracking,
  identity resolution, relationship fix-up, `SaveChanges` in `Dispose`, and the `Detached` state
  at DatabaseContext.cs:109. `UpdateOrInsert`, `RemoveAll`, `Exists` and `IsEmpty` on a
  `DbSet` are not shown; they are taken to insert-or-replace by id, remove matches, test
  membership and test emptiness.
- Concurrency is not modelled. `Task.WhenAll` in `AssociateMultipleEmotesAsync`, the
  `ConcurrentDictionary` of cooldowns and the asynchronous command mode are modelled as
  sequential steps. The constructor's `GetAwaiter()` is modelled as a completed `InitAsync`.
- I/O is not modelled: file downloads, image resizing, Urban Dictionary requests, and the
  replies and embeds. The `send` and `info` commands are modelled up to the emote they find.
- `GetWhitelistAsync` and `GetBlacklistAsync` are not modelled: they only read a table into a
  list. `GetWhitelistAsync` puts the owner first (DatabaseContext.cs:100-101);
  `GetBlacklistAsync` (DatabaseContext.cs:139-140) keeps the table's order. The ledger of
  `AccessControl` is a map and a set, which have no order.
- The document store's `_id` index order for `FindAll` is not modelled. The collection is kept
  in insertion order, and `Insert` appends.
- Ids are unbounded naturals, not 64-bit `ulong`. No operation of the core does arithmetic on
  them.
- Times are whole seconds. `TotalSeconds` is a fractional value in the source.
  `COMMANDS_COOLDOWN_SECONDS` is not part of this model, so the window is a parameter of
  `Gate.BotLogic`. The command executed behind the gate is an input: its success and its
  finishing time.
- The inline-emote lookup in `HandleInputAsync` (BotLogic.cs:126-138) is not modelled. It only
  reads the cache through `AssociateMultipleEmotesAsync`, which is modelled.
- `Emote.TryParse` and the guild-emote search behind the two `add` overloads
  (FunCommands.cs:136-172) are not modelled. `AddEmote` receives the emote they find.
- `DeWhitenUserCommand` deletes through the `Db_EeveeEmote` document type. The model assumes
  that type's `Id` maps to the same document key, so the target's whitelist documents are the
  ones removed.
- The document store's `DatabaseContext` (`GetAll`, `AddEntity`, `DeleteEntity`) is not part of
  this model. Each legacy command module holds its collection as a sequence.
- Sharing of list references is not modelled. `Obj_EeveeEmote` shares the alias list of its
  source, and the `Obj_Emote` conversions share the nickname list. Datatype values are
  immutable, so a later in-place change to a shared list has no counterpart here.
- The case-insensitive comparisons use ASCII lower-casing. Culture-dependent case mappings
  outside ASCII are not modelled.

## Findings

| source | as written | input that shows it | evidently intended | confidence | as-written member | corrected member |
|---|---|---|---|---|---|---|
| EeveeBot/Classes/Database/DatabaseContext.cs:48-55 | the loop enumerates a filter over `Aliases` while `RemoveAll` changes `Aliases`, so the enumerator throws after the first removal | a cache with two stale aliases: the second stays cached and attached, and `InitAsync` faults | every stale alias leaves the cache and every emote's alias list | high, not executed | `Repository.StaleAliasSurvivesAsWritten` | `Repository.DetachStale` |
| EeveeBot/Classes/Database/Db_EeveeEmote.cs:85-89 | the `IsAnimated` setter assigns the property to itself, so the copy constructor never carries the flag | an animated `Db_EeveeEmote` with id 7: its copy is not animated while its path ends in `.gif` | the copy takes `b.IsAnimated` | high, not executed | `LegacyEeveeEmotes.ToObjectLosesAnimation` | `LegacyEeveeEmotes.ObjectRoundTrip` |
| EeveeBot/Classes/Database/DatabaseContext.cs:105-109 | a self-claim with no owner re-saves an existing whitelist entry unchanged; only a missing entry is created as the owner | whitelist `{5: not owner}`, user 5 claims ownership: the bot still has no owner | the claimant becomes the owner | medium, not executed | `AccessControl.SelfClaimAsWrittenLeavesNoOwner` | `AccessControl.ChangeOwnerSelfClaim` |
| EeveeBot/Modules/FunCommands.cs:392 | the page count is `n / 9 + n % 9` | eight emotes: 8 pages are offered, and pages 2 to 8 are accepted but empty | `(n + 8) / 9` pages, each non-empty | high, not executed | `LegacyEmoteCommands.AsWrittenEmptyPage` | `LegacyEmoteCommands.PagesCoverList` |

=== FILE: access_control.dfy ===
/** The access-control half of the repository (DatabaseContext.cs): the whitelist, which marks
    at most one entry as the owner, and the blacklist. An entry is an id, and a whitelist entry
    carries its `IsOwner` flag, so the whitelist is a map from id to flag. */
module AccessControl {
  import opened Wrappers

  datatype Ledger = Ledger(whitelist: map<nat, bool>, blacklist: set<nat>)

  /** Some whitelist entry has the id, whatever its owner flag. */
  predicate IsWhitelisted(l: Ledger, u: nat): (b: bool)
    ensures b <==> exists f :: (u, f) in l.whitelist.Items
  {
    EntryOfKey(l.whitelist, u);
    u in l.whitelist
  }

  /** An id is a key of the map exactly when some entry carries it. */
  lemma EntryOfKey(m: map<nat, bool>, u: nat)
    ensures u in m <==> exists f :: (u, f) in m.Items
  {
    if u in m {
      assert (u, m[u]) in m.Items;
    }
    if exists f :: (u, f) in m.Items {
      var f :| (u, f) in m.Items;
      assert (u, f).0 in m.Keys;
    }
  }

  /** The entry with the id carries the owner flag; an owner is always whitelisted. */
  predicate IsOwner(l: Ledger, u: nat): (b: bool)
    ensures b <==> (u, true) in l.whitelist.Items
    ensures b ==> IsWhitelisted(l, u)
  {
    u in l.whitelist && l.whitelist[u]
  }

  /** No whitelist entry carries the owner flag: nobody is the owner. */
  predicate NoOwner(l: Ledger): (b: bool)
    ensures b <==> forall u :: !IsOwner(l, u)
    ensures l.whitelist == map[] ==> b
  {
    assert forall u :: IsOwner(l, u) <==> u in l.whitelist && l.whitelist[u];
    forall u :: u in l.whitelist ==> !l.whitelist[u]
  }

  /** Only the owner may hand ownership on, or anyone while there is no owner: with at most one
      owner, exactly the users every owner is equal to. */
  predicate CanChangeOwner(l: Ledger, u: nat): (b: bool)
    ensures AtMostOneOwner(l) ==> (b <==> forall v :: IsOwner(l, v) ==> v == u)
  {
    IsOwner(l, u) || NoOwner(l)
  }

  /** The id is on the blacklist; in a ledger whose lists are disjoint it is then not whitelisted. */
  predicate IsBlacklisted(l: Ledger, u: nat): (b: bool)
    ensures Disjoint(l) && b ==> !IsWhitelisted(l, u)
  {
    u in l.blacklist
  }

  predicate AtMostOneOwner(l: Ledger) {
    forall a, b :: a in l.whitelist && b in l.whitelist && l.whitelist[a] && l.whitelist[b] ==> a == b
  }

  /** No id is on both lists. */
  predicate Disjoint(l: Ledger) {
    forall u :: u in l.whitelist ==> u !in l.blacklist
  }

  predicate Valid(l: Ledger) {
    AtMostOneOwner(l) && Disjoint(l)
  }

  /** Whoever may change the owner in a ledger with at most one owner is the only possible owner. */
  lemma CanChangeOwnerIsSoleOwner(l: Ledger, u: nat, v: nat)
    requires AtMostOneOwner(l) && CanChangeOwner(l, u) && IsOwner(l, v)
    ensures v == u
  {
  }

  /** `WhitelistAddAsync(u)`: a new entry is the owner exactly when the whitelist was empty, an
      existing entry is kept as it is, and `u` leaves the blacklist either way. */
  function WhitelistAdd(l: Ledger, u: nat): (r: Ledger)
    ensures IsWhitelisted(r, u) && !IsBlacklisted(r, u)
    ensures r.whitelist.Keys == l.whitelist.Keys + {u}
    ensures forall v :: v in l.whitelist ==> r.whitelist[v] == l.whitelist[v]
    ensures u !in l.whitelist ==> (IsOwner(r, u) <==> l.whitelist == map[])
    ensures r.blacklist == l.blacklist - {u}
  {
    var wl := if u in l.whitelist then l.whitelist else l.whitelist[u := |l.whitelist| == 0];
    Ledger(wl, l.blacklist - {u})
  }

  /** `WhitelistRemoveAsync(u)`: the entry of `u`, if any, is dropped; nothing else changes. */
  function WhitelistRemove(l: Ledger, u: nat): (r: Ledger)
    ensures !IsWhitelisted(r, u)
    ensures r.whitelist.Keys == l.whitelist.Keys - {u}
    ensures forall v :: v in r.whitelist ==> r.whitelist[v] == l.whitelist[v]
    ensures r.blacklist == l.blacklist
  {
    Ledger(l.whitelist - {u}, l.blacklist)
  }

  /** `BlacklistAddAsync(u)`: `u` is blacklisted and loses any whitelist entry. */
  function BlacklistAdd(l: Ledger, u: nat): (r: Ledger)
    ensures IsBlacklisted(r, u) && !IsWhitelisted(r, u)
    ensures r.blacklist == l.blacklist + {u}
    ensures r.whitelist.Keys == l.whitelist.Keys - {u}
    ensures forall v :: v in r.whitelist ==> r.whitelist[v] == l.whitelist[v]
  {
    Ledger(l.whitelist - {u}, l.blacklist + {u})
  }

  /** `BlacklistRemoveAsync(u)`: `u` is no longer blacklisted; the whitelist is untouched. */
  function BlacklistRemove(l: Ledger, u: nat): (r: Ledger)
    ensures !IsBlacklisted(r, u)
    ensures r.blacklist == l.blacklist - {u}
    ensures r.whitelist == l.whitelist
  {
    Ledger(l.whitelist, l.blacklist - {u})
  }

  /** Each of the four list operations keeps "at most one owner" and "no id on both lists". */
  lemma ListOperationsPreserveValid(l: Ledger, u: nat)
    requires Valid(l)
    ensures Valid(WhitelistAdd(l, u)) && Valid(WhitelistRemove(l, u))
    ensures Valid(BlacklistAdd(l, u)) && Valid(BlacklistRemove(l, u))
  {
    var r := WhitelistAdd(l, u);
    if u !in l.whitelist && l.whitelist == map[] {
      assert r.whitelist == map[u := true];
    } else {
      forall a | IsOwner(r, a)
        ensures IsOwner(l, a)
      {
      }
    }
  }

  /** `ChangeOwnerAsync(targetId, callerId)` as evidently intended. A self-claim while there is no
      owner makes the target the owner. Otherwise the caller's and the target's flags are toggled
      in that order (a missing target starts as a non-owner); when the caller has no entry the
      call fails (`None`) before anything changes. */
  function ChangeOwner(l: Ledger, target: nat, caller: nat): (r: Option<Ledger>)
    ensures r.None? <==> !(target == caller && NoOwner(l)) && caller !in l.whitelist
    ensures r.Some? ==> r.value.blacklist == l.blacklist
    ensures r.Some? ==> r.value.whitelist.Keys == l.whitelist.Keys + {target}
    ensures forall v :: r.Some? && v in l.whitelist && v != target && v != caller ==> r.value.whitelist[v] == l.whitelist[v]
    ensures target == caller && NoOwner(l) ==> r.Some? && IsOwner(r.value, target)
    ensures target != caller && r.Some? ==>
              && r.value.whitelist[caller] == !l.whitelist[caller]
              && r.value.whitelist[target] == !(target in l.whitelist && l.whitelist[target])
    ensures target == caller && !NoOwner(l) && r.Some? ==> r.value == l
  {
    if target == caller && NoOwner(l) then
      Some(l.(whitelist := l.whitelist[target := true]))
    else if caller !in l.whitelist then
      None
    else
      var w := l.whitelist[caller := !l.whitelist[caller]];
      var t := if target in w then w[target] else false;
      assert target == caller ==> w[target := !t] == l.whitelist;
      Some(l.(whitelist := w[target := !t]))
  }

  /** A self-claim while there is no owner leaves exactly the claimant as the owner. */
  lemma ChangeOwnerSelfClaim(l: Ledger, u: nat)
    requires NoOwner(l)
    ensures ChangeOwner(l, u, u).Some?
    ensures forall v :: IsOwner(ChangeOwner(l, u, u).value, v) <==> v == u
  {
  }

  /** A transfer by the owner to someone else leaves exactly the target as the owner. */
  lemma ChangeOwnerTransfer(l: Ledger, target: nat, caller: nat)
    requires AtMostOneOwner(l) && IsOwner(l, caller) && target != caller
    ensures ChangeOwner(l, target, caller).Some?
    ensures forall v :: IsOwner(ChangeOwner(l, target, caller).value, v) <==> v == target
  {
  }

  /** Under the precondition the callers check (`CanChangeOwner(caller)`, and a self-claim only
      while there is no owner), the ledger keeps at most one owner. It stays valid as a whole when
      the target is not blacklisted: the call never touches the blacklist. */
  lemma ChangeOwnerPreservesValid(l: Ledger, target: nat, caller: nat)
    requires Valid(l) && CanChangeOwner(l, caller)
    requires NoOwner(l) ==> target == caller
    ensures ChangeOwner(l, target, caller).Some?
    ensures AtMostOneOwner(ChangeOwner(l, target, caller).value)
    ensures target !in l.blacklist ==> Valid(ChangeOwner(l, target, caller).value)
  {
    if NoOwner(l) {
      ChangeOwnerSelfClaim(l, caller);
    } else if target == caller {
      ChangeOwnerSelfWhileOwned(l, caller);
    } else {
      ChangeOwnerTransfer(l, target, caller);
    }
  }

  /** Ownership handed to a blacklisted user leaves that user on both lists. */
  lemma ChangeOwnerToBlacklisted()
    ensures var l := Ledger(map[1 := true], {2});
            var r := ChangeOwner(l, 2, 1).value;
            Valid(l) && IsOwner(r, 2) && IsBlacklisted(r, 2) && !Disjoint(r)
  {
  }

  /** Outside that precondition the toggles can multiply owners: a non-owner handing "ownership"
      to a newcomer while someone else owns leaves three owners. */
  lemma ChangeOwnerByNonOwner()
    ensures var l := Ledger(map[1 := true, 2 := false], {});
            var r := ChangeOwner(l, 3, 2).value;
            IsOwner(r, 1) && IsOwner(r, 2) && IsOwner(r, 3)
  {
  }

  /** A self-claim while someone owns toggles one tracked entry twice and so changes nothing. */
  lemma ChangeOwnerSelfWhileOwned(l: Ledger, u: nat)
    requires !NoOwner(l) && u in l.whitelist
    ensures ChangeOwner(l, u, u) == Some(l)
  {
    assert l.whitelist[u := !l.whitelist[u]][u := l.whitelist[u]] == l.whitelist;
  }

  /** `ChangeOwnerAsync` AS WRITTEN: on a self-claim the existing entry, if there is one, is
      saved back unchanged, and only a missing one is created as the owner. */
  function ChangeOwnerAsWritten(l: Ledger, target: nat, caller: nat): (r: Option<Ledger>)
    ensures !(target == caller && NoOwner(l) && target in l.whitelist) ==> r == ChangeOwner(l, target, caller)
    ensures target == caller && NoOwner(l) && target in l.whitelist ==> r == Some(l)
  {
    if target == caller && NoOwner(l) && target in l.whitelist then Some(l)
    else ChangeOwner(l, target, caller)
  }

  /** As written, a whitelisted non-owner claiming ownership while there is none stays a
      non-owner, and the bot still has no owner afterwards. */
  lemma SelfClaimAsWrittenLeavesNoOwner()
    ensures var l := Ledger(map[5 := false], {});
            && ChangeOwnerAsWritten(l, 5, 5) == Some(l)
            && NoOwner(ChangeOwnerAsWritten(l, 5, 5).value)
            && IsOwner(ChangeOwner(l, 5, 5).value, 5)
  {
  }
}

=== FILE: bot_logic.dfy ===
/** The admission gate in front of command execution (BotLogic.cs): a per-user cooldown map
    from user id to the time of the last successful command, combined with the deny-list rule of
    the repository's ledger. Times are whole seconds; the cooldown window is a parameter. */
module Gate {
  import opened AccessControl

  /** What the gate reads from an incoming message. */
  datatype Message = Message(
    authorId: nat,
    isUserMessage: bool,    // a `SocketUserMessage`, not a system message
    authorIsBot: bool,
    isCommand: bool)        // it starts with a configured prefix or mentions the bot

  datatype Outcome =
    | Ignored               // not a user message, or the bot's own
    | Blocked               // refused by `AllowExecution`
    | Passed                // admitted, but no command to run
    | Executed(success: bool)

  /** The user has no entry, or at least `window` seconds have gone by since it. */
  predicate CooldownPassed(cooldowns: map<nat, int>, window: int, user: nat, now: int) {
    user !in cooldowns || now - cooldowns[user] >= window
  }

  /** Not blacklisted, or nobody owns the bot yet, or whitelisted after all. */
  predicate DenyListPassed(l: Ledger, user: nat) {
    !IsBlacklisted(l, user) || NoOwner(l) || IsWhitelisted(l, user)
  }

  /** `AllowExecution`: bots never pass; anyone else passes once their cooldown has run out,
      unless they are blacklisted while the bot has an owner and they are not whitelisted. */
  predicate AllowExecution(cooldowns: map<nat, int>, window: int, l: Ledger, user: nat, isBot: bool, now: int)
    ensures AllowExecution(cooldowns, window, l, user, isBot, now) ==> !isBot
    ensures AllowExecution(cooldowns, window, l, user, isBot, now) ==> user !in cooldowns || cooldowns[user] <= now - window
    ensures IsBlacklisted(l, user) && !NoOwner(l) && !IsWhitelisted(l, user) ==> !AllowExecution(cooldowns, window, l, user, isBot, now)
    ensures !isBot && user !in cooldowns && user !in l.blacklist ==> AllowExecution(cooldowns, window, l, user, isBot, now)
  {
    CooldownPassed(cooldowns, window, user, now) && !isBot && DenyListPassed(l, user)
  }

  /** While no id is on both lists, the whitelist clause of the deny-list rule never decides
      anything: a blacklisted user passes exactly when nobody owns the bot. */
  lemma DenyListWithDisjointLists(l: Ledger, user: nat)
    requires Disjoint(l)
    ensures DenyListPassed(l, user) <==> !IsBlacklisted(l, user) || NoOwner(l)
  {
  }

  /** The cooldown update after a command has run: success records the time it finished,
      failure forgets the user; nobody else's entry moves. */
  function Commit(cooldowns: map<nat, int>, user: nat, success: bool, at: int): (r: map<nat, int>)
    ensures user in r <==> success
    ensures success ==> r[user] == at
    ensures forall v :: v != user ==> (v in r <==> v in cooldowns)
    ensures forall v :: v != user && v in r ==> r[v] == cooldowns[v]
  {
    if success then cooldowns[user := at] else cooldowns - {user}
  }

  /** `HandleInputAsync` as far as the gate goes: what happens to a message received at `now`
      whose command, if it has one, ends with `success` at `finishedAt`. */
  function Handle(cooldowns: map<nat, int>, window: int, clientId: nat, l: Ledger, msg: Message,
                  now: int, success: bool, finishedAt: int): (r: (Outcome, map<nat, int>))
    ensures r.0 == Ignored <==> !msg.isUserMessage || msg.authorId == clientId
    ensures r.0 == Blocked <==> msg.isUserMessage && msg.authorId != clientId
                                && !AllowExecution(cooldowns, window, l, msg.authorId, msg.authorIsBot, now)
    ensures r.0.Executed? <==> r.0 != Ignored && r.0 != Blocked && msg.isCommand
    ensures r.0.Executed? ==> r == (Executed(success), Commit(cooldowns, msg.authorId, success, finishedAt))
    ensures !r.0.Executed? ==> r.1 == cooldowns
  {
    if !msg.isUserMessage || msg.authorId == clientId then (Ignored, cooldowns)
    else if !AllowExecution(cooldowns, window, l, msg.authorId, msg.authorIsBot, now) then (Blocked, cooldowns)
    else if msg.isCommand then (Executed(success), Commit(cooldowns, msg.authorId, success, finishedAt))
    else (Passed, cooldowns)
  }

  /** A successful command locks its author out for a whole window after it finished, and only
      for that long; a failed one leaves no lock at all. */
  lemma CooldownAfterCommand(cooldowns: map<nat, int>, window: int, l: Ledger, user: nat, success: bool, at: int, t: int)
    ensures var c := Commit(cooldowns, user, success, at);
            && (success && at <= t < at + window ==> !AllowExecution(c, window, l, user, false, t))
            && (success && t >= at + window ==> CooldownPassed(c, window, user, t))
            && (!success ==> CooldownPassed(c, window, user, t))
  {
  }

  /** The one-second example: a first command is admitted; right after it succeeds the user is
      refused; once the window has gone by the user is admitted again; had the command failed,
      the user would have been admitted straight away. */
  lemma OneSecondCooldown(l: Ledger, u: nat, t: int)
    requires DenyListPassed(l, u)
    ensures AllowExecution(map[], 1, l, u, false, t)
    ensures !AllowExecution(Commit(map[], u, true, t), 1, l, u, false, t)
    ensures AllowExecution(Commit(map[], u, true, t), 1, l, u, false, t + 1)
    ensures AllowExecution(Commit(map[], u, false, t), 1, l, u, false, t)
  {
  }

  /** The part of `BotLogic` the gate needs: the cooldown map, the window and the bot's id. */
  class BotLogic {
    var cooldowns: map<nat, int>
    const window: int
    const clientId: nat

    constructor (window: int, clientId: nat)
      ensures cooldowns == map[] && this.window == window && this.clientId == clientId
    {
      cooldowns := map[];
      this.window := window;
      this.clientId := clientId;
    }

    /** `HandleInputAsync`: drops foreign and own messages, stops blocked users, and after a
        command updates the author's cooldown entry as `Handle` says. */
    method HandleInputAsync(l: Ledger, msg: Message, now: int, success: bool, finishedAt: int) returns (outcome: Outcome)
      modifies this
      ensures (outcome, cooldowns) == Handle(old(cooldowns), window, clientId, l, msg, now, success, finishedAt)
    {
      if !msg.isUserMessage || msg.authorId == clientId {
        return Ignored;
      }
      if !AllowExecution(cooldowns, window, l, msg.authorId, msg.authorIsBot, now) {
        return Blocked;
      }
      if msg.isCommand {
        if !success {
          cooldowns := cooldowns - {msg.authorId};
        } else {
          cooldowns := cooldowns[msg.authorId := finishedAt];
        }
        outcome := Executed(success);
      } else {
        outcome := Passed;
      }
    }

    /** `ResetValues`, as far as the gate goes: every cooldown is forgotten. */
    method ResetValues()
      modifies this
      ensures cooldowns == map[]
    {
      cooldowns := map[];
    }
  }
}

=== FILE: db_eevee_emote.dfy ===
/** The legacy (document-store) emote record `Db_EeveeEmote`, its alias, and the
    `Obj_EeveeEmote` view built from it (Db_EeveeEmote.cs). `Obj_EeveeEmote` is a subclass
    with the same fields, so both are values of one datatype here. */
module LegacyEeveeEmotes {
  import opened Wrappers
  import opened Text
  import opened EmoteCommon
  import opened Sequences

  /** The legacy alias: no id of its own, a back-reference to its emote, its text and its owner. */
  datatype LegacyAlias = LegacyAlias(associatedEmoteId: nat, alias: string, ownerId: nat)

  datatype DbEeveeEmote = DbEeveeEmote(
    id: nat,
    name: string,
    isAnimated: bool,
    aliases: seq<LegacyAlias>,
    relativePath: string,
    url: string)

  /** The five-argument constructor (shared by `Obj_EeveeEmote`'s): a missing alias list becomes empty. */
  function Create(id: nat, n: string, isAnimated: bool, url: string, names: Option<seq<LegacyAlias>> := None): (e: DbEeveeEmote)
    ensures e.id == id && e.name == n && e.isAnimated == isAnimated && e.url == url
    ensures e.relativePath == RelativePath(id, isAnimated)
    ensures ParseRelativePath(e.relativePath) == Some((id, isAnimated))
    ensures names.None? ==> e.aliases == []
    ensures names.Some? ==> e.aliases == names.value
  {
    RelativePathRoundTrip(id, isAnimated);
    DbEeveeEmote(id, n, isAnimated, names.GetOr([]), RelativePath(id, isAnimated), url)
  }

  /** The constructor from a guild emote: no aliases yet. */
  function FromPlatform(em: PlatformEmote): (e: DbEeveeEmote)
    ensures e.id == em.id && e.name == em.name && e.isAnimated == em.animated && e.url == em.url
    ensures e.relativePath == RelativePath(em.id, em.animated)
    ensures e.aliases == []
  {
    Create(em.id, em.name, em.animated, em.url)
  }

  /** `ToString`: `<a:Name:Id>` or `<:Name:Id>`. */
  function ToString(e: DbEeveeEmote): (r: string)
    ensures |r| >= 4 && r[0] == '<' && r[|r| - 1] == '>'
    ensures r[1] == 'a' <==> e.isAnimated
    ensures var k := if e.isAnimated then 3 else 2;
            |r| > k + |e.name| && r[k - 1] == ':' && r[k..k + |e.name|] == e.name && r[k + |e.name|] == ':'
    ensures var d := NatToString(e.id); |r| >= |d| + 3 && r[|r| - |d| - 2..] == [':'] + d + ['>']
  {
    Markup(e.name, e.id, e.isAnimated)
  }

  /** The filter `x => x.OwnerId == ownerId`. */
  function OwnedBy(ownerId: nat): LegacyAlias -> bool {
    (a: LegacyAlias) => a.ownerId == ownerId
  }

  /** `Aliases.Where(x => x.OwnerId == ownerId).Select(x => x.Alias)`: the texts of the owned
      aliases, one for one and in list order. */
  function OwnedAliasTexts(aliases: seq<LegacyAlias>, ownerId: nat): (r: seq<string>)
    ensures var owned := Filter(aliases, OwnedBy(ownerId));
            |r| == |owned| && forall i :: 0 <= i < |r| ==> r[i] == owned[i].alias
    ensures forall t :: t in r <==> exists a :: a in aliases && a.ownerId == ownerId && a.alias == t
  {
    if aliases == [] then []
    else
      var rest := OwnedAliasTexts(aliases[1..], ownerId);
      assert forall a :: a in aliases <==> a == aliases[0] || a in aliases[1..];
      if aliases[0].ownerId == ownerId then [aliases[0].alias] + rest else rest
  }

  /** `GetAllNames(ownerId)`: the name first, then the texts of the aliases owned by `ownerId`,
      in list order. */
  function GetAllNames(e: DbEeveeEmote, ownerId: nat): (r: seq<string>)
    ensures |r| >= 1 && r[0] == e.name
    ensures var owned := Filter(e.aliases, OwnedBy(ownerId));
            |r| == 1 + |owned| && forall i :: 0 <= i < |owned| ==> r[i + 1] == owned[i].alias
    ensures forall t :: t in r[1..] <==> exists a :: a in e.aliases && a.ownerId == ownerId && a.alias == t
  {
    var r := [e.name] + OwnedAliasTexts(e.aliases, ownerId);
    assert r[1..] == OwnedAliasTexts(e.aliases, ownerId);
    r
  }

  /** `GetAllNamesLowered(ownerId)`: the same names, lower-cased, in the same order. */
  function GetAllNamesLowered(e: DbEeveeEmote, ownerId: nat): (r: seq<string>)
    ensures |r| == |GetAllNames(e, ownerId)|
    ensures forall i :: 0 <= i < |r| ==> r[i] == Lower(GetAllNames(e, ownerId)[i])
  {
    var names := GetAllNames(e, ownerId);
    seq(|names|, i requires 0 <= i < |names| => Lower(names[i]))
  }

  /** `TryAssociation(name, ownerId)`: the lower-cased name is among the lowered names, that is,
      it equals the emote's name or the text of an alias owned by `ownerId` case-insensitively. */
  predicate TryAssociation(e: DbEeveeEmote, name: string, ownerId: nat)
    ensures TryAssociation(e, name, ownerId) <==>
            || EqualsCaseInsensitive(e.name, name)
            || exists a :: a in e.aliases && a.ownerId == ownerId && EqualsCaseInsensitive(a.alias, name)
  {
    LoweredNamesContain(e, name, ownerId);
    Lower(name) in GetAllNamesLowered(e, ownerId)
  }

  /** The lowered names contain a lowered name exactly when it matches the emote's name or the
      text of an alias owned by `ownerId`. */
  lemma LoweredNamesContain(e: DbEeveeEmote, name: string, ownerId: nat)
    ensures Lower(name) in GetAllNamesLowered(e, ownerId) <==>
            || EqualsCaseInsensitive(e.name, name)
            || exists a :: a in e.aliases && a.ownerId == ownerId && EqualsCaseInsensitive(a.alias, name)
  {
    var lowered := GetAllNamesLowered(e, ownerId);
    if Lower(name) in lowered {
      var i :| 0 <= i < |lowered| && lowered[i] == Lower(name);
      LoweredNameMatches(e, ownerId, i);
    }
    if exists a :: a in e.aliases && a.ownerId == ownerId && EqualsCaseInsensitive(a.alias, name) {
      var a :| a in e.aliases && a.ownerId == ownerId && EqualsCaseInsensitive(a.alias, name);
      OwnedAliasLowered(e, ownerId, a);
    }
    if EqualsCaseInsensitive(e.name, name) {
      assert lowered[0] == Lower(name);
    }
  }

  /** Each lowered name comes from the emote's name or from an alias owned by `ownerId`. */
  lemma LoweredNameMatches(e: DbEeveeEmote, ownerId: nat, i: nat)
    requires i < |GetAllNamesLowered(e, ownerId)|
    ensures var t := GetAllNamesLowered(e, ownerId)[i];
            || t == Lower(e.name)
            || exists a :: a in e.aliases && a.ownerId == ownerId && t == Lower(a.alias)
  {
    var names := GetAllNames(e, ownerId);
    if i > 0 {
      assert names[i] in names[1..];
      var a :| a in e.aliases && a.ownerId == ownerId && a.alias == names[i];
    }
  }

  /** Each alias owned by `ownerId` contributes its lowered text to the lowered names. */
  lemma OwnedAliasLowered(e: DbEeveeEmote, ownerId: nat, a: LegacyAlias)
    requires a in e.aliases && a.ownerId == ownerId
    ensures Lower(a.alias) in GetAllNamesLowered(e, ownerId)
  {
    var names := GetAllNames(e, ownerId);
    assert a.alias in names[1..];
    var k :| 0 <= k < |names[1..]| && names[1..][k] == a.alias;
    assert GetAllNamesLowered(e, ownerId)[k + 1] == Lower(a.alias);
  }

  /** The `Obj_EeveeEmote(Db_EeveeEmote b)` copy constructor AS WRITTEN: id, name, url and the
      alias list are copied and the path is recomputed from `b`, but the `IsAnimated` setter
      assigns the property to itself, so the copy keeps the default `false`. */
  function ToObject(b: DbEeveeEmote): (o: DbEeveeEmote)
    ensures o.id == b.id && o.name == b.name && o.url == b.url && o.aliases == b.aliases
    ensures !o.isAnimated
    ensures o.relativePath == RelativePath(b.id, b.isAnimated)
    ensures ParseRelativePath(o.relativePath) == Some((b.id, b.isAnimated))
  {
    RelativePathRoundTrip(b.id, b.isAnimated);
    DbEeveeEmote(b.id, b.name, false, b.aliases, RelativePath(b.id, b.isAnimated), b.url)
  }

  /** An animated record's copy says "not animated" while its path still names a `.gif`. */
  lemma ToObjectLosesAnimation()
    ensures var o := ToObject(Create(7, "pog", true, "u"));
            !o.isAnimated && ParseRelativePath(o.relativePath) == Some((7, true))
  {
  }

  /** The copy constructor as evidently intended: `IsAnimated` is carried over too. */
  function ToObjectCorrected(b: DbEeveeEmote): (o: DbEeveeEmote)
    ensures o.id == b.id && o.name == b.name && o.url == b.url && o.aliases == b.aliases
    ensures o.isAnimated == b.isAnimated
    ensures o.relativePath == RelativePath(b.id, b.isAnimated)
    ensures ParseRelativePath(o.relativePath) == Some((o.id, o.isAnimated))
  {
    RelativePathRoundTrip(b.id, b.isAnimated);
    DbEeveeEmote(b.id, b.name, b.isAnimated, b.aliases, RelativePath(b.id, b.isAnimated), b.url)
  }

  /** `Obj_EeveeEmote.EncapsulateToDb`: the view is returned as it is. */
  function EncapsulateToDb(o: DbEeveeEmote): (d: DbEeveeEmote)
    ensures d.id == o.id && d.name == o.name && d.isAnimated == o.isAnimated
    ensures d.aliases == o.aliases && d.relativePath == o.relativePath && d.url == o.url
  {
    o
  }

  /** With the corrected copy, a record whose path was built by the constructor survives the
      round trip record -> view -> record unchanged. */
  lemma ObjectRoundTrip(b: DbEeveeEmote)
    requires b.relativePath == RelativePath(b.id, b.isAnimated)
    ensures EncapsulateToDb(ToObjectCorrected(b)) == b
  {
  }

  /** As written, the same round trip fails for every animated record. */
  lemma ObjectRoundTripAsWrittenFails(b: DbEeveeEmote)
    requires b.isAnimated
    ensures EncapsulateToDb(ToObject(b)) != b
  {
  }
}

=== FILE: db_emote.dfy ===
/** The legacy emote document `Db_Emote`, its nickname `UserDefined`, and the read-only
    `Obj_Emote` view, with the conversions between them (Db_Emote.cs). */
module LegacyEmotes {
  import opened Wrappers
  import opened EmoteCommon

  /** A nickname: its text, its owner, and the id of the emote it names. */
  datatype UserDefined = UserDefined(associatedEmoteId: nat, nickname: string, ownerId: nat)

  datatype DbEmote = DbEmote(
    id: nat,
    name: string,
    isAnimated: bool,
    nicknames: seq<UserDefined>,
    relativePath: string,
    url: string)

  datatype ObjEmote = ObjEmote(
    id: nat,
    name: string,
    isAnimated: bool,
    nicknames: seq<UserDefined>,
    relativePath: string,
    url: string)

  /** The `Obj_Emote` constructor: the path is derived from `(id, isAnimated)` and a missing
      nickname list becomes an empty one. */
  function CreateObj(id: nat, n: string, isAnimated: bool, url: string, names: Option<seq<UserDefined>> := None): (o: ObjEmote)
    ensures o.id == id && o.name == n && o.isAnimated == isAnimated && o.url == url
    ensures o.relativePath == RelativePath(id, isAnimated)
    ensures ParseRelativePath(o.relativePath) == Some((id, isAnimated))
    ensures names.None? ==> o.nicknames == []
    ensures names.Some? ==> o.nicknames == names.value
  {
    RelativePathRoundTrip(id, isAnimated);
    ObjEmote(id, n, isAnimated, names.GetOr([]), RelativePath(id, isAnimated), url)
  }

  /** `Obj_Emote.EncapsulateToDb`: a new document with all six fields copied. */
  function EncapsulateToDb(o: ObjEmote): (d: DbEmote)
    ensures d.id == o.id && d.name == o.name && d.isAnimated == o.isAnimated
    ensures d.nicknames == o.nicknames && d.relativePath == o.relativePath && d.url == o.url
  {
    DbEmote(o.id, o.name, o.isAnimated, o.nicknames, o.relativePath, o.url)
  }

  /** `Db_Emote.EncapsulateToObj`: rebuilt through the constructor, so the path is recomputed
      from `(Id, IsAnimated)` rather than copied. */
  function EncapsulateToObj(d: DbEmote): (o: ObjEmote)
    ensures o.id == d.id && o.name == d.name && o.isAnimated == d.isAnimated && o.url == d.url
    ensures o.nicknames == d.nicknames
    ensures o.relativePath == RelativePath(d.id, d.isAnimated)
  {
    CreateObj(d.id, d.name, d.isAnimated, d.url, Some(d.nicknames))
  }

  /** Document -> view -> document keeps id, name, flag, url and nicknames; the result equals
      the original exactly when the stored path is the derived one. */
  lemma DbObjDbRoundTrip(d: DbEmote)
    ensures var r := EncapsulateToDb(EncapsulateToObj(d));
            && r.id == d.id && r.name == d.name && r.isAnimated == d.isAnimated
            && r.url == d.url && r.nicknames == d.nicknames
            && (r == d <==> d.relativePath == RelativePath(d.id, d.isAnimated))
  {
  }

  /** Every view built by the constructor survives view -> document -> view unchanged. */
  lemma ObjDbObjRoundTrip(id: nat, n: string, isAnimated: bool, url: string, names: Option<seq<UserDefined>>)
    ensures var o := CreateObj(id, n, isAnimated, url, names);
            EncapsulateToObj(EncapsulateToDb(o)) == o
  {
  }
}

=== FILE: db_whitelist_user.dfy ===
/** The legacy whitelist entry `Db_WhitelistUser` and its view `Obj_WhitelistUser`
    (Db_WhitelistUser.cs). */
module LegacyWhitelist {

  datatype DbWhitelistUser = DbWhitelistUser(id: nat, isOwner: bool)

  datatype ObjWhitelistUser = ObjWhitelistUser(id: nat, isOwner: bool)

  /** The `Obj_WhitelistUser` constructor: `isOwner` defaults to false. */
  function CreateObj(id: nat, isOwner: bool := false): (o: ObjWhitelistUser)
    ensures o.id == id && o.isOwner == isOwner
  {
    ObjWhitelistUser(id, isOwner)
  }

  /** `Db_WhitelistUser.EncapsulateToObj`. */
  function EncapsulateToObj(d: DbWhitelistUser): (o: ObjWhitelistUser)
    ensures o.id == d.id && o.isOwner == d.isOwner
  {
    CreateObj(d.id, d.isOwner)
  }

  /** `Obj_WhitelistUser.EncapsulateToDb`. */
  function EncapsulateToDb(o: ObjWhitelistUser): (d: DbWhitelistUser)
    ensures d.id == o.id && d.isOwner == o.isOwner
  {
    DbWhitelistUser(o.id, o.isOwner)
  }

  /** Document -> view -> document gives back an equal `(Id, IsOwner)` pair, and so does the
      other direction. */
  lemma RoundTrips(d: DbWhitelistUser, o: ObjWhitelistUser)
    ensures EncapsulateToDb(EncapsulateToObj(d)) == d
    ensures EncapsulateToObj(EncapsulateToDb(o)) == o
  {
  }
}

=== FILE: eevee_emote.dfy ===
/** The current generation's emote record and its per-user alias (EeveeEmote.cs),
    with the name matching that the repository's resolution is built on. */
module EeveeEmotes {
  import opened Wrappers
  import opened Text
  import opened EmoteCommon

  /** A private nickname: only `ownerId` may resolve the emote `emoteId` through `alias`. */
  datatype EmoteAlias = EmoteAlias(id: nat, emoteId: nat, ownerId: nat, alias: string)

  datatype EeveeEmote = EeveeEmote(
    id: nat,
    adderId: nat,
    guildId: nat,
    name: string,
    isAnimated: bool,
    relativePath: string,
    url: string,
    aliases: seq<EmoteAlias>)

  /** The parameterless constructor: zero ids, not animated, an empty alias list
      (the unset strings are empty texts here). */
  function Empty(): (e: EeveeEmote)
    ensures e.aliases == [] && !e.isAnimated
    ensures e.id == 0 && e.adderId == 0 && e.guildId == 0
  {
    EeveeEmote(0, 0, 0, "", false, "", "", [])
  }

  /** The six-argument constructor: copies the fields and derives the path from `(id, isAnimated)`. */
  function Create(id: nat, adderId: nat, guildId: nat, n: string, isAnimated: bool, url: string): (e: EeveeEmote)
    ensures e.id == id && e.adderId == adderId && e.guildId == guildId
    ensures e.name == n && e.isAnimated == isAnimated && e.url == url
    ensures e.relativePath == RelativePath(id, isAnimated)
    ensures ParseRelativePath(e.relativePath) == Some((id, isAnimated))
    ensures e.aliases == []
  {
    RelativePathRoundTrip(id, isAnimated);
    EeveeEmote(id, adderId, guildId, n, isAnimated, RelativePath(id, isAnimated), url, [])
  }

  /** The constructor from a guild emote, registered by `adderId` in `guildId`. */
  function FromPlatform(em: PlatformEmote, guildId: nat, adderId: nat): (e: EeveeEmote)
    ensures e.id == em.id && e.name == em.name && e.isAnimated == em.animated && e.url == em.url
    ensures e.adderId == adderId && e.guildId == guildId
    ensures e.relativePath == RelativePath(em.id, em.animated)
    ensures ParseRelativePath(e.relativePath) == Some((em.id, em.animated))
  {
    Create(em.id, adderId, guildId, em.name, em.animated, em.url)
  }

  /** `ToString`: `<a:Name:Id>` for an animated emote, `<:Name:Id>` otherwise. */
  function ToString(e: EeveeEmote): (r: string)
    ensures |r| >= 4 && r[0] == '<' && r[|r| - 1] == '>'
    ensures r[1] == 'a' <==> e.isAnimated
    ensures var k := if e.isAnimated then 3 else 2;
            |r| > k + |e.name| && r[k - 1] == ':' && r[k..k + |e.name|] == e.name && r[k + |e.name|] == ':'
    ensures var d := NatToString(e.id); |r| >= |d| + 3 && r[|r| - |d| - 2..] == [':'] + d + ['>']
  {
    Markup(e.name, e.id, e.isAnimated)
  }

  /** An input with exactly two ':' is reduced to the text between them (`:name:` -> `name`):
      the colon-free text that starts right after the first ':' and ends at the next one. */
  function NormalizeInput(input: string): (r: string)
    ensures CountChar(input, ':') == 2 ==>
              && ':' !in r
              && var i := IndexOf(input, ':').value;
                 && i + 1 + |r| < |input| && input[i] == ':' && ':' !in input[..i]
                 && input[i + 1..i + 1 + |r|] == r && input[i + 1 + |r|] == ':'
    ensures CountChar(input, ':') != 2 ==> r == input
  {
    if CountChar(input, ':') == 2 then Between(input, ':') else input
  }

  /** `Aliases.Exists(x => x.OwnerId == userId && x.Alias.EqualsCaseInsensitive(text))`. */
  predicate OwnedAliasMatches(aliases: seq<EmoteAlias>, userId: nat, text: string) {
    aliases != [] &&
    ((aliases[0].ownerId == userId && EqualsCaseInsensitive(aliases[0].alias, text))
     || OwnedAliasMatches(aliases[1..], userId, text))
  }

  lemma {:induction false} OwnedAliasMatchesIff(aliases: seq<EmoteAlias>, userId: nat, text: string)
    ensures OwnedAliasMatches(aliases, userId, text) <==>
            exists a :: a in aliases && a.ownerId == userId && EqualsCaseInsensitive(a.alias, text)
  {
    if aliases != [] {
      OwnedAliasMatchesIff(aliases[1..], userId, text);
      assert forall a :: a in aliases <==> a == aliases[0] || a in aliases[1..];
    }
  }

  /** `TryAssociate(userId, input)`: the emote's own name, or one of the caller's aliases,
      equals the normalised input case-insensitively. It reads the record and changes nothing. */
  predicate TryAssociate(e: EeveeEmote, userId: nat, input: string)
    ensures TryAssociate(e, userId, input) <==>
            || EqualsCaseInsensitive(e.name, NormalizeInput(input))
            || exists a :: a in e.aliases && a.ownerId == userId && EqualsCaseInsensitive(a.alias, NormalizeInput(input))
  {
    var text := NormalizeInput(input);
    OwnedAliasMatchesIff(e.aliases, userId, text);
    EqualsCaseInsensitive(e.name, text) || OwnedAliasMatches(e.aliases, userId, text)
  }

  /** Pasting an emote's own markup resolves to it: the markup normalises to the emote's name
      whenever that name has no ':'. */
  lemma MarkupResolves(e: EeveeEmote, userId: nat)
    requires ':' !in e.name
    ensures NormalizeInput(ToString(e)) == e.name
    ensures TryAssociate(e, userId, ToString(e))
  {
    MarkupCarriesName(e.name, e.id, e.isAnimated);
  }

  /** Aliases owned by other users never decide a match: two records with the same name and the
      same aliases of `userId` match the same inputs for `userId`. */
  lemma ForeignAliasesIgnored(e1: EeveeEmote, e2: EeveeEmote, userId: nat, input: string)
    requires e1.name == e2.name
    requires forall a: EmoteAlias :: a.ownerId == userId ==> (a in e1.aliases <==> a in e2.aliases)
    ensures TryAssociate(e1, userId, input) <==> TryAssociate(e2, userId, input)
  {
  }
}

=== FILE: emote_common.dfy ===
/** What both generations of emote records share: the fields copied from a platform emote,
    the on-disk path derived from `(Id, IsAnimated)` and the `<a:Name:Id>` markup. */
module EmoteCommon {
  import opened Wrappers
  import opened Text

  /** The fields the registry reads from a platform emote (`Emote` / `GuildEmote`). */
  datatype PlatformEmote = PlatformEmote(id: nat, name: string, animated: bool, url: string)

  const PathPrefix: string := "Emotes\\"

  function Extension(isAnimated: bool): string {
    if isAnimated then ".gif" else ".png"
  }

  /** `$@"Emotes\{Id}{(IsAnimated ? ".gif" : ".png")}"`. */
  function RelativePath(id: nat, isAnimated: bool): (p: string)
    ensures PathPrefix <= p && |p| >= |PathPrefix| + 5
    ensures p[|p| - 4..] == Extension(isAnimated)
    ensures p[|PathPrefix|..|p| - 4] == NatToString(id)
  {
    PathPrefix + NatToString(id) + Extension(isAnimated)
  }

  /** Reads `(Id, IsAnimated)` back from a relative path; `None` for a text of another shape. */
  function ParseRelativePath(p: string): Option<(nat, bool)> {
    if |p| < |PathPrefix| + 5 || p[..|PathPrefix|] != PathPrefix then None
    else
      var ext := p[|p| - 4..];
      var digits := p[|PathPrefix|..|p| - 4];
      if (ext == ".gif" || ext == ".png") && AllDigits(digits)
      then Some((ParseDecimal(digits), ext == ".gif"))
      else None
  }

  /** The path determines the id and the animation flag it was built from. */
  lemma RelativePathRoundTrip(id: nat, isAnimated: bool)
    ensures ParseRelativePath(RelativePath(id, isAnimated)) == Some((id, isAnimated))
  {
    var p := RelativePath(id, isAnimated);
    assert p[..|PathPrefix|] == PathPrefix;
    ParseNatToString(id);
  }

  /** Two emotes share a file only if they share both id and animation flag. */
  lemma RelativePathInjective(id1: nat, a1: bool, id2: nat, a2: bool)
    requires RelativePath(id1, a1) == RelativePath(id2, a2)
    ensures id1 == id2 && a1 == a2
  {
    RelativePathRoundTrip(id1, a1);
    RelativePathRoundTrip(id2, a2);
  }

  /** `$"<{(IsAnimated ? "a" : string.Empty)}:{Name}:{Id}>"`: the chat markup of an emote. */
  function Markup(name: string, id: nat, isAnimated: bool): (r: string)
    ensures |r| >= 4 && r[0] == '<' && r[|r| - 1] == '>'
    ensures r[1] == (if isAnimated then 'a' else ':')
    ensures var k := if isAnimated then 3 else 2;
            |r| > k + |name| && r[k - 1] == ':' && r[k..k + |name|] == name && r[k + |name|] == ':'
    ensures var d := NatToString(id); |r| >= |d| + 3 && r[|r| - |d| - 2..] == [':'] + d + ['>']
  {
    "<" + (if isAnimated then "a" else "") + ":" + name + ":" + NatToString(id) + ">"
  }

  /** A markup whose name has no ':' holds exactly two ':'. */
  lemma MarkupColonCount(name: string, id: nat, isAnimated: bool)
    requires ':' !in name
    ensures CountChar(Markup(name, id, isAnimated), ':') == 2
  {
    var p := MarkupOpening(isAnimated);
    var d := NatToString(id);
    MarkupShape(name, id, isAnimated);
    assert forall j :: 0 <= j < |d| ==> d[j] != ':';
    ColonsOfParts(p, name, d);
  }

  function MarkupOpening(isAnimated: bool): (p: string)
    ensures CountChar(p, ':') == 1
  {
    var p := if isAnimated then "<a:" else "<:";
    assert p[1..][1..] == if isAnimated then ":" else [];
    p
  }

  lemma MarkupShape(name: string, id: nat, isAnimated: bool)
    ensures Markup(name, id, isAnimated) == MarkupOpening(isAnimated) + name + ([':'] + NatToString(id) + ['>'])
  {
  }

  lemma ColonsOfParts(p: string, name: string, d: string)
    requires CountChar(p, ':') == 1 && ':' !in name && ':' !in d
    ensures CountChar(p + name + ([':'] + d + ['>']), ':') == 2
  {
    var q := [':'] + d + ['>'];
    assert q[1..] == d + ['>'];
    CountCharConcat(d, ['>'], ':');
    CountCharConcat(p, name, ':');
    CountCharConcat(p + name, q, ':');
  }

  /** A name without ':' is read back from the markup as the text between its first two ':',
      and those are the only two. */
  lemma MarkupCarriesName(name: string, id: nat, isAnimated: bool)
    requires ':' !in name
    ensures var r := Markup(name, id, isAnimated);
            CountChar(r, ':') == 2 && Between(r, ':') == name
  {
    MarkupColonCount(name, id, isAnimated);
    MarkupShape(name, id, isAnimated);
    var p := MarkupOpening(isAnimated);
    assert p[..|p| - 1] == if isAnimated then "<a" else "<";
    BetweenOfParts(p, name, [':'] + NatToString(id) + ['>']);
  }

  lemma BetweenOfParts(p: string, name: string, rest: string)
    requires |p| > 0 && p[|p| - 1] == ':' && ':' !in p[..|p| - 1] && ':' !in name
    requires |rest| > 0 && rest[0] == ':'
    requires CountChar(p + name + rest, ':') >= 2
    ensures Between(p + name + rest, ':') == name
  {
    var r := p + name + rest;
    var k := |p|;
    assert r[..k - 1] == p[..k - 1];
    IndexOfAt(r, ':', k - 1);
    var b := Between(r, ':');
    var t := r[k..];
    assert t == name + rest;
    assert t[..|b|] == r[k..k + |b|];
    assert t[..|name|] == name;
    SamePrefixBeforeSeparator(t, b, name, ':');
  }

  /** The id is read back from the digits that close the markup. */
  lemma MarkupCarriesId(name: string, id: nat, isAnimated: bool)
    ensures var r := Markup(name, id, isAnimated);
            ParseDecimal(r[|r| - |NatToString(id)| - 1..|r| - 1]) == id
  {
    var r := Markup(name, id, isAnimated);
    var d := NatToString(id);
    assert r[|r| - |d| - 1..|r| - 1] == (r[|r| - |d| - 2..])[1..|d| + 1];
    assert ([':'] + d + ['>'])[1..|d| + 1] == d;
    ParseNatToString(id);
  }
}

=== FILE: fun_commands.dfy ===
/** The legacy emote commands (FunCommands.cs, class `EmoteCommands`): registering an emote,
    the lookup behind `send`/`info`, nickname creation (`rename`) and deletion (`delnick`), and
    the paging of `list`. The "emotes" collection is the sequence of its documents in the order a
    full scan returns them; `Insert` appends and `Update` replaces the document with the same id. */
module LegacyEmoteCommands {
  import opened Wrappers
  import opened Text
  import opened Sequences
  import opened EmoteCommon
  import opened LegacyEmotes

  const NicknameCountMax: nat := 2
  const NicknameLengthMin: nat := 2
  const MaxEmotesPerPage: nat := 9

  /** `UserDefined` has no `ToString` of its own, so `string.Join("", Nicknames)` renders every
      nickname as the type's full name. */
  const UserDefinedTypeName: string := "EeveeBot.Classes.Database.UserDefined"

  datatype EmoteReply =
    | AlreadyRegistered                // "The emote is already registered!"
    | Added(nicknameTooShort: bool)    // the emote embed, preceded by the length error when set
    | NicknameTooShort                 // "A nickname must be at least 2 chars long!"
    | CapacityExceeded                 // "You have exceeded the Nicknames capacity limit ..."
    | EmoteMissing                     // "The emote doesn't exist!"
    | Success
    | Silent                           // the command ends without replying or writing
    | Faulted                          // a null dereference ends the command

  /** A command's reply together with the collection it leaves. */
  datatype Response = Response(reply: EmoteReply, emotes: seq<DbEmote>)

  predicate Registered(emotes: seq<DbEmote>, id: nat) {
    exists e :: e in emotes && e.id == id
  }

  /** No two documents share an id (LiteDB's `_id`). */
  predicate UniqueIds(emotes: seq<DbEmote>) {
    forall i, j :: 0 <= i < j < |emotes| ==> emotes[i].id != emotes[j].id
  }

  /** Every nickname names the emote it is stored on. */
  predicate NicknamesAtHome(emotes: seq<DbEmote>) {
    forall e, d :: e in emotes && d in e.nicknames ==> d.associatedEmoteId == e.id
  }

  predicate WellFormed(emotes: seq<DbEmote>) {
    UniqueIds(emotes) && NicknamesAtHome(emotes)
  }

  /** `names.Where(x => x.OwnerId == caller)`. */
  function OwnedBy(names: seq<UserDefined>, caller: nat): (r: seq<UserDefined>)
    ensures forall d :: d in r <==> d in names && d.ownerId == caller
  {
    Filter(names, (d: UserDefined) => d.ownerId == caller)
  }

  /** `emotes.SelectMany(x => x.Nicknames).Where(x => x.OwnerId == caller)`: the caller's
      nicknames, emote by emote. */
  function Definitions(emotes: seq<DbEmote>, caller: nat): (r: seq<UserDefined>)
    ensures forall d :: d in r <==> d.ownerId == caller && exists e :: e in emotes && d in e.nicknames
  {
    if emotes == [] then []
    else
      assert forall e :: e in emotes <==> e == emotes[0] || e in emotes[1..];
      OwnedBy(emotes[0].nicknames, caller) + Definitions(emotes[1..], caller)
  }

  /** `defs.Select(x => x.Nickname.ToLower()).Contains(nick.ToLower())`. */
  predicate HasNicknameCI(defs: seq<UserDefined>, nick: string) {
    exists d :: d in defs && EqualsCaseInsensitive(d.nickname, nick)
  }

  /** Some emote's name equals `nick` case-insensitively. */
  predicate NameTaken(emotes: seq<DbEmote>, nick: string) {
    exists e :: e in emotes && EqualsCaseInsensitive(e.name, nick)
  }

  /** LiteDB `Update(d)`: the document with `d`'s id is replaced by `d`. */
  function Update(s: seq<DbEmote>, d: DbEmote): (r: seq<DbEmote>)
    ensures |r| == |s|
    ensures forall i :: 0 <= i < |s| ==> r[i] == (if s[i].id == d.id then d else s[i])
  {
    seq(|s|, i requires 0 <= i < |s| => if s[i].id == d.id then d else s[i])
  }

  /** `e.Nicknames.Add(new UserDefined { AssociatedEmoteId = e.Id, ... })`. */
  function AddNickname(e: DbEmote, nick: string, caller: nat): (r: DbEmote)
    ensures r == e.(nicknames := r.nicknames)
    ensures |r.nicknames| == |e.nicknames| + 1 && r.nicknames[..|e.nicknames|] == e.nicknames
    ensures r.nicknames[|e.nicknames|] == UserDefined(e.id, nick, caller)
  {
    e.(nicknames := e.nicknames + [UserDefined(e.id, nick, caller)])
  }

  /** `e.Nicknames.RemoveAll(x => x.Nickname == text)`. */
  function DropNickname(e: DbEmote, text: string): (r: DbEmote)
    ensures r == e.(nicknames := r.nicknames)
    ensures forall y :: y in r.nicknames <==> y in e.nicknames && y.nickname != text
  {
    e.(nicknames := Filter(e.nicknames, (y: UserDefined) => y.nickname != text))
  }

  lemma UpdateKeepsIds(s: seq<DbEmote>, d: DbEmote)
    requires Registered(s, d.id)
    ensures forall i :: 0 <= i < |s| ==> Update(s, d)[i].id == s[i].id
    ensures UniqueIds(s) ==> UniqueIds(Update(s, d))
  {
  }

  /** Replacing a document by one with the same id whose nicknames still name it keeps the
      collection well formed. */
  lemma UpdateKeepsWellFormed(s: seq<DbEmote>, d: DbEmote)
    requires WellFormed(s) && Registered(s, d.id)
    requires forall y :: y in d.nicknames ==> y.associatedEmoteId == d.id
    ensures WellFormed(Update(s, d))
  {
    var r := Update(s, d);
    UpdateKeepsIds(s, d);
    forall e, y | e in r && y in e.nicknames
      ensures y.associatedEmoteId == e.id
    {
      var i :| 0 <= i < |r| && r[i] == e;
    }
  }

  // ---------------------------------------------------------------- add

  /** `AddEmoteToDatabase(em, inNick)`: a registered id is refused; otherwise the emote is
      inserted, carrying the nickname exactly when one is given, it is not already one of the
      caller's nicknames (ignoring case) and it is long enough. A nickname that is too short
      only adds an error reply; the emote is inserted all the same. */
  function AddEmote(emotes: seq<DbEmote>, em: PlatformEmote, caller: nat, inNick: Option<string>): (r: Response)
    ensures Registered(emotes, em.id) ==> r == Response(AlreadyRegistered, emotes)
    ensures !Registered(emotes, em.id) ==>
      && |r.emotes| == |emotes| + 1 && r.emotes[..|emotes|] == emotes
      && var n := r.emotes[|emotes|];
         var offered := inNick.Some? && !HasNicknameCI(Definitions(emotes, caller), inNick.value);
         && n.id == em.id && n.name == em.name && n.isAnimated == em.animated && n.url == em.url
         && n.relativePath == RelativePath(em.id, em.animated)
         && ParseRelativePath(n.relativePath) == Some((em.id, em.animated))
         && (n.nicknames != [] <==> offered && Utf16Length(inNick.value) >= NicknameLengthMin)
         && (n.nicknames != [] ==> n.nicknames == [UserDefined(em.id, inNick.value, caller)])
         && r.reply == Added(offered && Utf16Length(inNick.value) < NicknameLengthMin)
  {
    if Registered(emotes, em.id) then Response(AlreadyRegistered, emotes)
    else
      var offered := inNick.Some? && !HasNicknameCI(Definitions(emotes, caller), inNick.value);
      var tooShort := offered && Utf16Length(inNick.value) < NicknameLengthMin;
      var names := if offered && !tooShort then [UserDefined(em.id, inNick.value, caller)] else [];
      var doc := EncapsulateToDb(CreateObj(em.id, em.name, em.animated, em.url, Some(names)));
      assert (emotes + [doc])[..|emotes|] == emotes;
      Response(Added(tooShort), emotes + [doc])
  }

  lemma AddKeepsWellFormed(emotes: seq<DbEmote>, em: PlatformEmote, caller: nat, inNick: Option<string>)
    requires WellFormed(emotes)
    ensures WellFormed(AddEmote(emotes, em, caller, inNick).emotes)
  {
    var r := AddEmote(emotes, em, caller, inNick).emotes;
    if !Registered(emotes, em.id) {
      assert r == emotes + [r[|emotes|]];
      AppendKeepsWellFormed(emotes, r[|emotes|]);
    }
  }

  /** Appending a document with a new id whose nicknames name it keeps the collection well formed. */
  lemma AppendKeepsWellFormed(emotes: seq<DbEmote>, d: DbEmote)
    requires WellFormed(emotes) && !Registered(emotes, d.id)
    requires forall y :: y in d.nicknames ==> y.associatedEmoteId == d.id
    ensures WellFormed(emotes + [d])
  {
    forall i | 0 <= i < |emotes|
      ensures emotes[i].id != d.id
    {
      assert emotes[i] in emotes;
    }
    assert forall e :: e in emotes + [d] <==> e in emotes || e == d;
  }

  // ---------------------------------------------------------------- send / info lookup

  /** The characters `Clean` keeps. */
  function NeitherColonNorSpace(): char -> bool {
    (x: char) => x != ':' && x != ' '
  }

  /** `name.Replace(":", "").Replace(" ", "")`: every character other than ':' and ' ' is kept,
      in order. */
  function Clean(n: string): (r: string)
    ensures ':' !in r && ' ' !in r
    ensures r == Filter(n, NeitherColonNorSpace())
    ensures forall x :: x in r <==> x in n && x != ':' && x != ' '
  {
    var a := Remove(n, ':');
    var r := Remove(a, ' ');
    FilterFilter(n, IsNot(':'), IsNot(' '), NeitherColonNorSpace());
    r
  }

  lemma CleanIdempotent(n: string)
    ensures Clean(Clean(n)) == Clean(n)
  {
    var c := Clean(n);
    RemoveAbsent(c, ':');
    RemoveAbsent(c, ' ');
  }

  /** The `send`/`info` filter for an already cleaned input: the emote's name without spaces, or
      any of its nicknames without spaces (whoever owns it), equals the input ignoring case. */
  predicate DisplayMatch(e: DbEmote, cleaned: string) {
    || EqualsCaseInsensitive(Remove(e.name, ' '), cleaned)
    || exists y :: y in e.nicknames && EqualsCaseInsensitive(Remove(y.nickname, ' '), cleaned)
  }

  /** The lookup of `send` and `info`: the first emote in collection order that matches the
      cleaned input, or nothing. */
  function FindForDisplay(emotes: seq<DbEmote>, input: string): (r: Option<DbEmote>)
    ensures r.None? <==> forall e :: e in emotes ==> !DisplayMatch(e, Clean(input))
    ensures r.Some? ==> exists i :: 0 <= i < |emotes| && emotes[i] == r.value && DisplayMatch(r.value, Clean(input))
                                   && forall j :: 0 <= j < i ==> !DisplayMatch(emotes[j], Clean(input))
  {
    FirstWhere(emotes, (e: DbEmote) => DisplayMatch(e, Clean(input)))
  }

  /** Colons and spaces in the input never change what is found. */
  lemma DisplayIgnoresPunctuation(emotes: seq<DbEmote>, input: string)
    ensures FindForDisplay(emotes, Clean(input)) == FindForDisplay(emotes, input)
  {
    CleanIdempotent(input);
  }

  // ---------------------------------------------------------------- rename

  /** `emotes.FirstOrDefault(x => x.Name.ToLower() == name.ToLower())`. */
  function FindByName(emotes: seq<DbEmote>, name: string): (r: Option<DbEmote>)
    ensures r.None? <==> !NameTaken(emotes, name)
    ensures r.Some? ==> r.value in emotes && EqualsCaseInsensitive(r.value.name, name)
    ensures r.Some? ==> exists i :: 0 <= i < |emotes| && emotes[i] == r.value
                          && forall j :: 0 <= j < i ==> !EqualsCaseInsensitive(emotes[j].name, name)
  {
    FirstWhere(emotes, (e: DbEmote) => EqualsCaseInsensitive(e.name, name))
  }

  /** One of `defs` names emote `id` and equals `name` ignoring case. */
  predicate NamedBy(defs: seq<UserDefined>, id: nat, name: string) {
    exists y :: y in defs && y.associatedEmoteId == id && EqualsCaseInsensitive(y.nickname, name)
  }

  /** The fallback of `rename`: the first emote one of the caller's own nicknames for it equals
      `name`. */
  function FindByOwnNickname(emotes: seq<DbEmote>, caller: nat, name: string): (r: Option<DbEmote>)
    ensures r.None? <==> forall e :: e in emotes ==> !NamedBy(Definitions(emotes, caller), e.id, name)
    ensures r.Some? ==> r.value in emotes && NamedBy(Definitions(emotes, caller), r.value.id, name)
    ensures r.Some? ==> exists i :: 0 <= i < |emotes| && emotes[i] == r.value
                          && forall j :: 0 <= j < i ==> !NamedBy(Definitions(emotes, caller), emotes[j].id, name)
  {
    var defs := Definitions(emotes, caller);
    FirstWhere(emotes, (e: DbEmote) => NamedBy(defs, e.id, name))
  }

  /** `|e.Nicknames.Where(x => x.OwnerId == caller)|`. */
  function OwnedCount(e: DbEmote, caller: nat): nat {
    |OwnedBy(e.nicknames, caller)|
  }

  /** The common tail of both `rename` paths: a nickname that is some emote's name or already one
      of the caller's is ignored; past `limit` of the caller's nicknames on the emote the request
      is refused; otherwise the nickname is appended to the emote and the document updated. */
  function Attach(emotes: seq<DbEmote>, e: DbEmote, caller: nat, nick: string, limit: nat): (r: Response)
    requires e in emotes
    ensures r.reply in {Silent, CapacityExceeded, Success}
    ensures r.reply != Success ==> r.emotes == emotes
    ensures r.reply == Silent <==> NameTaken(emotes, nick) || HasNicknameCI(Definitions(emotes, caller), nick)
    ensures r.reply == CapacityExceeded ==> OwnedCount(e, caller) > limit
    ensures r.reply == Success ==> OwnedCount(e, caller) <= limit && r.emotes == Update(emotes, AddNickname(e, nick, caller))
  {
    if !NameTaken(emotes, nick) && !HasNicknameCI(Definitions(emotes, caller), nick) then
      if OwnedCount(e, caller) > limit then Response(CapacityExceeded, emotes)
      else Response(Success, Update(emotes, AddNickname(e, nick, caller)))
    else Response(Silent, emotes)
  }

  /** `RenameEmoteCommand(name, nick)`: colons are dropped from both; a nickname shorter than
      two characters is refused before anything else; the emote is found by its name, else by
      one of the caller's nicknames for it; the limit is `NicknameCountMax` on the first path
      and 3 on the second. */
  function Rename(emotes: seq<DbEmote>, caller: nat, name: string, nick: string): (r: Response)
    ensures var nk := Remove(nick, ':');
      && (Utf16Length(nk) < NicknameLengthMin ==> r == Response(NicknameTooShort, emotes))
      && (r.reply != Success ==> r.emotes == emotes)
      && (r.reply == Success ==>
            && Utf16Length(nk) >= NicknameLengthMin
            && !NameTaken(emotes, nk) && !HasNicknameCI(Definitions(emotes, caller), nk)
            && exists i :: 0 <= i < |emotes| && OwnedCount(emotes[i], caller) <= 3
                           && r.emotes == Update(emotes, AddNickname(emotes[i], nk, caller)))
    ensures var nk := Remove(nick, ':');
            var nm := Remove(name, ':');
            var unused := !NameTaken(emotes, nk) && !HasNicknameCI(Definitions(emotes, caller), nk);
      && (r.reply == EmoteMissing <==>
            Utf16Length(nk) >= NicknameLengthMin && FindByName(emotes, nm).None? && FindByOwnNickname(emotes, caller, nm).None?)
      && (Utf16Length(nk) >= NicknameLengthMin && FindByName(emotes, nm).Some? && unused
          && OwnedCount(FindByName(emotes, nm).value, caller) <= NicknameCountMax ==>
            r == Response(Success, Update(emotes, AddNickname(FindByName(emotes, nm).value, nk, caller))))
      && (Utf16Length(nk) >= NicknameLengthMin && FindByName(emotes, nm).None? && FindByOwnNickname(emotes, caller, nm).Some? && unused
          && OwnedCount(FindByOwnNickname(emotes, caller, nm).value, caller) <= 3 ==>
            r == Response(Success, Update(emotes, AddNickname(FindByOwnNickname(emotes, caller, nm).value, nk, caller))))
  {
    var nk := Remove(nick, ':');
    var nm := Remove(name, ':');
    if Utf16Length(nk) < NicknameLengthMin then Response(NicknameTooShort, emotes)
    else
      match FindByName(emotes, nm)
      case Some(e) =>
        AttachAtIndex(emotes, e, caller, nk, NicknameCountMax);
        Attach(emotes, e, caller, nk, NicknameCountMax)
      case None =>
        match FindByOwnNickname(emotes, caller, nm)
        case None => Response(EmoteMissing, emotes)
        case Some(e) =>
          AttachAtIndex(emotes, e, caller, nk, 3);
          Attach(emotes, e, caller, nk, 3)
  }

  /** A successful `Attach` with a limit of at most 3 updates an emote at some index. */
  lemma AttachAtIndex(emotes: seq<DbEmote>, e: DbEmote, caller: nat, nick: string, limit: nat)
    requires e in emotes && limit <= 3
    ensures var r := Attach(emotes, e, caller, nick, limit);
      r.reply == Success ==>
        exists i :: 0 <= i < |emotes| && OwnedCount(emotes[i], caller) <= 3
                    && r.emotes == Update(emotes, AddNickname(emotes[i], nick, caller))
  {
    var i :| 0 <= i < |emotes| && emotes[i] == e;
  }

  /** Once the nickname is long enough, the reply is the one `Attach` gives on the emote found:
      by name with limit `NicknameCountMax`, else through one of the caller's nicknames with
      limit 3. So a taken nickname is `Silent` and a full emote is `CapacityExceeded`, both
      without a write. */
  lemma RenameAttaches(emotes: seq<DbEmote>, caller: nat, name: string, nick: string)
    ensures var nk := Remove(nick, ':');
            var nm := Remove(name, ':');
            Utf16Length(nk) >= NicknameLengthMin && FindByName(emotes, nm).Some? ==>
              Rename(emotes, caller, name, nick) == Attach(emotes, FindByName(emotes, nm).value, caller, nk, NicknameCountMax)
    ensures var nk := Remove(nick, ':');
            var nm := Remove(name, ':');
            Utf16Length(nk) >= NicknameLengthMin && FindByName(emotes, nm).None? && FindByOwnNickname(emotes, caller, nm).Some? ==>
              Rename(emotes, caller, name, nick) == Attach(emotes, FindByOwnNickname(emotes, caller, nm).value, caller, nk, 3)
  {
  }

  /** The refusals spelled out: past the limit on the emote found, the request is refused with
      the capacity reply and nothing is written; a nickname already taken ends silently. */
  lemma RenameRefusals(emotes: seq<DbEmote>, caller: nat, name: string, nick: string)
    ensures var nk := Remove(nick, ':');
            var nm := Remove(name, ':');
            var unused := !NameTaken(emotes, nk) && !HasNicknameCI(Definitions(emotes, caller), nk);
            var r := Rename(emotes, caller, name, nick);
      && (Utf16Length(nk) >= NicknameLengthMin && FindByName(emotes, nm).Some? && unused
          && OwnedCount(FindByName(emotes, nm).value, caller) > NicknameCountMax ==>
            r == Response(CapacityExceeded, emotes))
      && (Utf16Length(nk) >= NicknameLengthMin && FindByName(emotes, nm).None? && FindByOwnNickname(emotes, caller, nm).Some?
          && unused && OwnedCount(FindByOwnNickname(emotes, caller, nm).value, caller) > 3 ==>
            r == Response(CapacityExceeded, emotes))
      && (Utf16Length(nk) >= NicknameLengthMin && (FindByName(emotes, nm).Some? || FindByOwnNickname(emotes, caller, nm).Some?)
          && !unused ==>
            r == Response(Silent, emotes))
  {
    RenameAttaches(emotes, caller, name, nick);
  }

  /** The two capacity limits: found by name, the caller may hold at most `NicknameCountMax` + 1
      nicknames on the emote after the rename; found through one of their nicknames, at most 4. */
  lemma RenameCapacity(emotes: seq<DbEmote>, caller: nat, name: string, nick: string)
    ensures var r := Rename(emotes, caller, name, nick);
            var nk := Remove(nick, ':');
            var byName := FindByName(emotes, Remove(name, ':'));
            r.reply == Success ==>
              && (byName.Some? ==> r.emotes == Update(emotes, AddNickname(byName.value, nk, caller))
                                   && OwnedCount(AddNickname(byName.value, nk, caller), caller) <= NicknameCountMax + 1)
              && (byName.None? ==>
                    && FindByOwnNickname(emotes, caller, Remove(name, ':')).Some?
                    && var e := FindByOwnNickname(emotes, caller, Remove(name, ':')).value;
                    r.emotes == Update(emotes, AddNickname(e, nk, caller)) && OwnedCount(AddNickname(e, nk, caller), caller) <= 4)
  {
    RenameByNameCapacity(emotes, caller, name, nick);
    RenameByNicknameCapacity(emotes, caller, name, nick);
  }

  lemma RenameByNameCapacity(emotes: seq<DbEmote>, caller: nat, name: string, nick: string)
    ensures var r := Rename(emotes, caller, name, nick);
            var nk := Remove(nick, ':');
            var byName := FindByName(emotes, Remove(name, ':'));
            r.reply == Success && byName.Some? ==>
              && r.emotes == Update(emotes, AddNickname(byName.value, nk, caller))
              && OwnedCount(AddNickname(byName.value, nk, caller), caller) <= NicknameCountMax + 1
  {
    var nk := Remove(nick, ':');
    var byName := FindByName(emotes, Remove(name, ':'));
    var r := Rename(emotes, caller, name, nick);
    if r.reply == Success && byName.Some? {
      var e := byName.value;
      assert r == Attach(emotes, e, caller, nk, NicknameCountMax);
      AddNicknameCount(e, nk, caller);
    }
  }

  lemma RenameByNicknameCapacity(emotes: seq<DbEmote>, caller: nat, name: string, nick: string)
    ensures var r := Rename(emotes, caller, name, nick);
            var nk := Remove(nick, ':');
            r.reply == Success && FindByName(emotes, Remove(name, ':')).None? ==>
              && FindByOwnNickname(emotes, caller, Remove(name, ':')).Some?
              && var e := FindByOwnNickname(emotes, caller, Remove(name, ':')).value;
              r.emotes == Update(emotes, AddNickname(e, nk, caller)) && OwnedCount(AddNickname(e, nk, caller), caller) <= 4
  {
    var nk := Remove(nick, ':');
    var r := Rename(emotes, caller, name, nick);
    if r.reply == Success && FindByName(emotes, Remove(name, ':')).None? {
      var e := FindByOwnNickname(emotes, caller, Remove(name, ':')).value;
      assert r == Attach(emotes, e, caller, nk, 3);
      AddNicknameCount(e, nk, caller);
    }
  }

  lemma AddNicknameCount(e: DbEmote, nick: string, caller: nat)
    ensures OwnedCount(AddNickname(e, nick, caller), caller) <= OwnedCount(e, caller) + 1
  {
    assert AddNickname(e, nick, caller).nicknames == e.nicknames + [UserDefined(e.id, nick, caller)];
    FilterAppend(e.nicknames, UserDefined(e.id, nick, caller), (d: UserDefined) => d.ownerId == caller);
  }

  lemma {:induction false} FilterAppend<T(!new)>(s: seq<T>, x: T, p: T -> bool)
    ensures |Filter(s + [x], p)| <= |Filter(s, p)| + 1
  {
    if s == [] {
    } else {
      assert (s + [x])[1..] == s[1..] + [x];
      FilterAppend(s[1..], x, p);
    }
  }

  /** A successful rename is visible to `send`: the new nickname finds an emote. */
  lemma RenamedIsDisplayed(emotes: seq<DbEmote>, caller: nat, name: string, nick: string)
    requires Rename(emotes, caller, name, nick).reply == Success
    ensures FindForDisplay(Rename(emotes, caller, name, nick).emotes, nick).Some?
  {
    var r := Rename(emotes, caller, name, nick).emotes;
    var nk := Remove(nick, ':');
    var i :| 0 <= i < |emotes| && OwnedCount(emotes[i], caller) <= 3
             && r == Update(emotes, AddNickname(emotes[i], nk, caller));
    var a := AddNickname(emotes[i], nk, caller);
    var y := UserDefined(emotes[i].id, nk, caller);
    assert r[i] == a;
    assert y in a.nicknames;
    assert Remove(y.nickname, ' ') == Clean(nick);
    assert DisplayMatch(r[i], Clean(nick));
  }

  lemma RenameKeepsWellFormed(emotes: seq<DbEmote>, caller: nat, name: string, nick: string)
    requires WellFormed(emotes)
    ensures WellFormed(Rename(emotes, caller, name, nick).emotes)
  {
    if Rename(emotes, caller, name, nick).reply == Success {
      var e := RenameTarget(emotes, caller, name, nick);
      AddNicknameKeepsWellFormed(emotes, e, Remove(nick, ':'), caller);
    }
  }

  lemma AddNicknameKeepsWellFormed(emotes: seq<DbEmote>, e: DbEmote, nick: string, caller: nat)
    requires WellFormed(emotes) && e in emotes
    ensures WellFormed(Update(emotes, AddNickname(e, nick, caller)))
  {
    var d := AddNickname(e, nick, caller);
    assert d.nicknames == e.nicknames + [UserDefined(e.id, nick, caller)];
    assert Registered(emotes, d.id);
    UpdateKeepsWellFormed(emotes, d);
  }

  /** The emote a successful rename gave the nickname to. */
  lemma RenameTarget(emotes: seq<DbEmote>, caller: nat, name: string, nick: string) returns (e: DbEmote)
    requires Rename(emotes, caller, name, nick).reply == Success
    ensures e in emotes && Rename(emotes, caller, name, nick).emotes == Update(emotes, AddNickname(e, Remove(nick, ':'), caller))
  {
    var i :| 0 <= i < |emotes| && OwnedCount(emotes[i], caller) <= 3
             && Rename(emotes, caller, name, nick).emotes == Update(emotes, AddNickname(emotes[i], Remove(nick, ':'), caller));
    e := emotes[i];
  }

  // ---------------------------------------------------------------- delete nickname

  /** `DeleteEmoteNicknameCommand(nick)`: the caller's first nickname equal to the input
      (colons dropped, case ignored) picks the emote; every nickname on that emote with exactly
      that text goes, whoever owns it. No such nickname: nothing happens. No emote with the
      nickname's id: the command faults. */
  function DeleteNickname(emotes: seq<DbEmote>, caller: nat, nick: string): (r: Response)
    ensures r.reply in {Silent, Faulted, Success}
    ensures r.reply != Success ==> r.emotes == emotes
    ensures r.reply == Silent <==> !HasNicknameCI(Definitions(emotes, caller), Remove(nick, ':'))
  {
    var nk := Remove(nick, ':');
    var defs := Definitions(emotes, caller);
    match FirstNickname(defs, nk)
    case None => Response(Silent, emotes)
    case Some(d) =>
      match EmoteWithId(emotes, d.associatedEmoteId)
      case None => Response(Faulted, emotes)
      case Some(e) => Response(Success, Update(emotes, DropNickname(e, d.nickname)))
  }

  /** A successful delete works on the caller's FIRST nickname equal to the input ignoring case,
      in `SelectMany` order, and on the FIRST emote with that nickname's id. */
  lemma DeletePicksFirst(emotes: seq<DbEmote>, caller: nat, nick: string)
    ensures var r := DeleteNickname(emotes, caller, nick);
            var defs := Definitions(emotes, caller);
      r.reply == Success ==>
        exists k, i ::
          && FirstNicknameAt(defs, Remove(nick, ':'), k)
          && 0 <= i < |emotes| && emotes[i].id == defs[k].associatedEmoteId
          && (forall j :: 0 <= j < i ==> emotes[j].id != defs[k].associatedEmoteId)
          && r.emotes == Update(emotes, DropNickname(emotes[i], defs[k].nickname))
  {
    var nk := Remove(nick, ':');
    var defs := Definitions(emotes, caller);
    var f := FirstNickname(defs, nk);
    if f.Some? && EmoteWithId(emotes, f.value.associatedEmoteId).Some? {
      var k := FirstNicknameIndex(defs, nk);
      var i := EmoteWithIdIndex(emotes, defs[k].associatedEmoteId);
      DeleteFound(emotes, caller, nick, defs[k], emotes[i]);
    }
  }

  /** The delete faults exactly when the caller's first matching nickname names an id no emote
      has. */
  lemma DeleteFaultsIff(emotes: seq<DbEmote>, caller: nat, nick: string)
    ensures var defs := Definitions(emotes, caller);
      DeleteNickname(emotes, caller, nick).reply == Faulted <==>
        exists k :: FirstNicknameAt(defs, Remove(nick, ':'), k) && forall e :: e in emotes ==> e.id != defs[k].associatedEmoteId
  {
    var nk := Remove(nick, ':');
    var defs := Definitions(emotes, caller);
    if FirstNickname(defs, nk).Some? {
      var k := FirstNicknameIndex(defs, nk);
      FirstNicknameUnique(defs, nk, k);
    }
  }

  /** `DeleteNickname` once both lookups have found something. */
  lemma DeleteFound(emotes: seq<DbEmote>, caller: nat, nick: string, d: UserDefined, e: DbEmote)
    requires FirstNickname(Definitions(emotes, caller), Remove(nick, ':')) == Some(d)
    requires EmoteWithId(emotes, d.associatedEmoteId) == Some(e)
    ensures DeleteNickname(emotes, caller, nick) == Response(Success, Update(emotes, DropNickname(e, d.nickname)))
  {
  }

  /** The index of the nickname `FirstNickname` returns. */
  lemma FirstNicknameIndex(defs: seq<UserDefined>, nick: string) returns (k: int)
    requires FirstNickname(defs, nick).Some?
    ensures FirstNicknameAt(defs, nick, k) && defs[k] == FirstNickname(defs, nick).value
  {
    k :| FirstNicknameAt(defs, nick, k) && defs[k] == FirstNickname(defs, nick).value;
  }

  /** There is only one first match. */
  lemma FirstNicknameUnique(defs: seq<UserDefined>, nick: string, k: int)
    requires FirstNicknameAt(defs, nick, k)
    ensures forall k' :: FirstNicknameAt(defs, nick, k') ==> k' == k
  {
  }

  /** The index of the emote `EmoteWithId` returns. */
  lemma EmoteWithIdIndex(emotes: seq<DbEmote>, id: nat) returns (i: int)
    requires EmoteWithId(emotes, id).Some?
    ensures 0 <= i < |emotes| && emotes[i] == EmoteWithId(emotes, id).value && emotes[i].id == id
    ensures forall j :: 0 <= j < i ==> emotes[j].id != id
  {
    i :| 0 <= i < |emotes| && emotes[i] == EmoteWithId(emotes, id).value && emotes[i].id == id
         && forall j :: 0 <= j < i ==> emotes[j].id != id;
  }

  predicate FirstNicknameAt(defs: seq<UserDefined>, nick: string, k: int) {
    && 0 <= k < |defs| && EqualsCaseInsensitive(defs[k].nickname, nick)
    && forall j :: 0 <= j < k ==> !EqualsCaseInsensitive(defs[j].nickname, nick)
  }

  /** `defs.FirstOrDefault(x => x.Nickname.ToLower() == nick.ToLower())`. */
  function FirstNickname(defs: seq<UserDefined>, nick: string): (r: Option<UserDefined>)
    ensures r.None? <==> !HasNicknameCI(defs, nick)
    ensures r.Some? ==> exists k :: FirstNicknameAt(defs, nick, k) && defs[k] == r.value
    ensures forall k :: FirstNicknameAt(defs, nick, k) ==> r == Some(defs[k])
  {
    var p := (x: UserDefined) => EqualsCaseInsensitive(x.nickname, nick);
    FirstWhereIsFirst(defs, p);
    FirstWhere(defs, p)
  }

  /** `emotes.FirstOrDefault(x => x.Id == id)`. */
  function EmoteWithId(emotes: seq<DbEmote>, id: nat): (r: Option<DbEmote>)
    ensures r.None? <==> forall e :: e in emotes ==> e.id != id
    ensures r.Some? ==> exists i :: 0 <= i < |emotes| && emotes[i] == r.value && emotes[i].id == id
                          && forall j :: 0 <= j < i ==> emotes[j].id != id
  {
    FirstWhere(emotes, (x: DbEmote) => x.id == id)
  }

  /** On a well-formed collection the nickname always leads to its emote, so the command never
      faults. */
  lemma DeleteNeverFaults(emotes: seq<DbEmote>, caller: nat, nick: string)
    requires NicknamesAtHome(emotes)
    ensures DeleteNickname(emotes, caller, nick).reply != Faulted
  {
    var nk := Remove(nick, ':');
    var defs := Definitions(emotes, caller);
    var f := FirstWhere(defs, (x: UserDefined) => EqualsCaseInsensitive(x.nickname, nk));
    if f.Some? {
      var d := f.value;
      assert d in defs;
      var e :| e in emotes && d in e.nicknames;
      var k :| 0 <= k < |emotes| && emotes[k] == e;
      assert emotes[k].id == d.associatedEmoteId;
    }
  }

  /** After a successful delete the caller no longer holds the nickname on that emote, and
      neither does anybody else who spelled it the same way. */
  lemma DeleteRemovesEveryOwner()
    ensures var e := DbEmote(1, "pika", false, [UserDefined(1, "hi", 10), UserDefined(1, "hi", 20)], "", "");
            DeleteNickname([e], 10, "HI") == Response(Success, [e.(nicknames := [])])
  {
    var e := DbEmote(1, "pika", false, [UserDefined(1, "hi", 10), UserDefined(1, "hi", 20)], "", "");
    var d := UserDefined(1, "hi", 10);
    assert Definitions([e], 10) == [d];
    assert Remove("HI", ':') == "HI";
    assert Lower("hi") == "hi" && Lower("HI") == "hi";
    var r := DropNickname(e, "hi");
    assert r.nicknames == [];
    assert Update([e], r) == [r];
  }

  lemma DeleteKeepsWellFormed(emotes: seq<DbEmote>, caller: nat, nick: string)
    requires WellFormed(emotes)
    ensures WellFormed(DeleteNickname(emotes, caller, nick).emotes)
  {
    var r := DeleteNickname(emotes, caller, nick);
    if r.reply == Success {
      var defs := Definitions(emotes, caller);
      var d := FirstNickname(defs, Remove(nick, ':')).value;
      var e := EmoteWithId(emotes, d.associatedEmoteId).value;
      assert r.emotes == Update(emotes, DropNickname(e, d.nickname));
      UpdateKeepsWellFormed(emotes, DropNickname(e, d.nickname));
    }
  }

  // ---------------------------------------------------------------- list paging

  /** The order of `list`: by the joined nicknames' length, then again by the animated flag. */
  function ListOrder(emotes: seq<DbEmote>): (r: seq<DbEmote>)
    ensures multiset(r) == multiset(emotes)
    ensures forall i, j :: 0 <= i < j < |r| && r[j].isAnimated ==> r[i].isAnimated
  {
    var byNicknames := SortDesc(emotes, (e: DbEmote) => |UserDefinedTypeName| * |e.nicknames|);
    var r := SortDesc(byNicknames, (e: DbEmote) => if e.isAnimated then 1 else 0);
    assert SortedDesc(r, (e: DbEmote) => if e.isAnimated then 1 else 0);
    r
  }

  /** The page count as written: `n / 9 + n % 9`. It never falls short of the pages needed, so
      every emote stays reachable; the surplus pages are empty. */
  function NumOfPagesAsWritten(n: nat): (p: nat)
    ensures p >= NumOfPages(n)
  {
    var q := n / MaxEmotesPerPage;
    var m := n % MaxEmotesPerPage;
    assert n == q * MaxEmotesPerPage + m;
    assert m > 0 ==> (n + MaxEmotesPerPage - 1) / MaxEmotesPerPage == q + 1;
    q + m
  }

  /** The page count meant: the fewest pages of nine that hold `n` emotes. */
  function NumOfPages(n: nat): (p: nat)
    ensures p * MaxEmotesPerPage >= n
    ensures p > 0 ==> (p - 1) * MaxEmotesPerPage < n
  {
    (n + MaxEmotesPerPage - 1) / MaxEmotesPerPage
  }

  /** A page below 1 or above the count falls back to the first. */
  function NormalizePage(page: int, pages: nat): (p: int)
    ensures p >= 1
    ensures 1 <= page <= pages ==> p == page
    ensures !(1 <= page <= pages) ==> p == 1
  {
    if page < 1 || page > pages then 1 else page
  }

  /** `s.Skip((page - 1) * 9).Take(9)`. */
  function PageOf<T>(s: seq<T>, page: int): (r: seq<T>)
    requires page >= 1
    ensures |r| <= MaxEmotesPerPage
    ensures forall k :: 0 <= k < |r| ==> (page - 1) * MaxEmotesPerPage + k < |s| && r[k] == s[(page - 1) * MaxEmotesPerPage + k]
    ensures |r| == MaxEmotesPerPage || (page - 1) * MaxEmotesPerPage + |r| >= |s|
  {
    var start := if (page - 1) * MaxEmotesPerPage < |s| then (page - 1) * MaxEmotesPerPage else |s|;
    var end := if start + MaxEmotesPerPage < |s| then start + MaxEmotesPerPage else |s|;
    s[start..end]
  }

  /** What `list page` shows: the page it settled on, the page count and the emotes. */
  datatype Listing = Listing(page: int, pages: nat, shown: seq<DbEmote>)

  /** `SendEmoteListCommand(page)`, with the page count as written. */
  function EmoteList(emotes: seq<DbEmote>, page: int): (r: Listing)
    ensures r.pages == NumOfPagesAsWritten(|emotes|)
    ensures r.page == NormalizePage(page, r.pages)
    ensures r.shown == PageOf(ListOrder(emotes), r.page)
  {
    var pages := NumOfPagesAsWritten(|emotes|);
    var p := NormalizePage(page, pages);
    Listing(p, pages, PageOf(ListOrder(emotes), p))
  }

  /** With the intended count, every page that is accepted shows something, and every emote is
      on an accepted page. */
  lemma PagesCoverList<T>(s: seq<T>)
    ensures forall p :: 1 <= p <= NumOfPages(|s|) ==> PageOf(s, p) != []
    ensures forall i :: 0 <= i < |s| ==>
              && 1 <= i / MaxEmotesPerPage + 1 <= NumOfPages(|s|)
              && i % MaxEmotesPerPage < |PageOf(s, i / MaxEmotesPerPage + 1)|
              && PageOf(s, i / MaxEmotesPerPage + 1)[i % MaxEmotesPerPage] == s[i]
  {
    forall p | 1 <= p <= NumOfPages(|s|)
      ensures PageOf(s, p) != []
    {
      assert (p - 1) * MaxEmotesPerPage < |s|;
    }
    forall i | 0 <= i < |s|
      ensures && 1 <= i / MaxEmotesPerPage + 1 <= NumOfPages(|s|)
              && i % MaxEmotesPerPage < |PageOf(s, i / MaxEmotesPerPage + 1)|
              && PageOf(s, i / MaxEmotesPerPage + 1)[i % MaxEmotesPerPage] == s[i]
    {
      var q := i / MaxEmotesPerPage;
      assert i == q * MaxEmotesPerPage + i % MaxEmotesPerPage;
      assert (q + 1 - 1) * MaxEmotesPerPage == q * MaxEmotesPerPage;
    }
  }

  /** The written count agrees with the intended one exactly when the last page holds at most
      one emote or the list fills its pages. */
  lemma PageCountAgreement(n: nat)
    ensures NumOfPagesAsWritten(n) == NumOfPages(n) <==> n % MaxEmotesPerPage <= 1
  {
    var q := n / MaxEmotesPerPage;
    var m := n % MaxEmotesPerPage;
    assert n == q * MaxEmotesPerPage + m;
    assert n + MaxEmotesPerPage - 1 == (q + 1) * MaxEmotesPerPage + (m - 1);
    if m == 0 {
      assert n + MaxEmotesPerPage - 1 == q * MaxEmotesPerPage + 8;
      assert NumOfPages(n) == q;
    } else {
      assert NumOfPages(n) == q + 1;
    }
  }

  /** Every emote is listed: the emote at place `i` of the list order is shown at place `i % 9`
      of page `i / 9 + 1`, which the listing accepts as it is. */
  lemma EmoteListReachesAll(emotes: seq<DbEmote>, i: nat)
    requires i < |emotes|
    ensures var r := EmoteList(emotes, i / MaxEmotesPerPage + 1);
            && r.page == i / MaxEmotesPerPage + 1
            && i % MaxEmotesPerPage < |r.shown| && r.shown[i % MaxEmotesPerPage] == ListOrder(emotes)[i]
  {
    var ordered := ListOrder(emotes);
    assert |ordered| == |multiset(ordered)| == |emotes|;
    PagesCoverList(ordered);
  }

  /** Eight emotes: the written count offers eight pages, and page 2 is accepted but empty. */
  lemma AsWrittenEmptyPage<T>(s: seq<T>)
    requires |s| == 8
    ensures NumOfPagesAsWritten(|s|) == 8 && NumOfPages(|s|) == 1
    ensures NormalizePage(2, NumOfPagesAsWritten(|s|)) == 2 && PageOf(s, 2) == []
  {
  }

  // ---------------------------------------------------------------- the command module

  /** The command module over the "emotes" collection. */
  class EmoteCommands {
    var emotes: seq<DbEmote>

    constructor (emotes: seq<DbEmote>)
      ensures this.emotes == emotes
    {
      this.emotes := emotes;
    }

    /** `AddEmoteToDatabase`: inserts the new document when `AddEmote` says so. */
    method AddEmoteToDatabase(em: PlatformEmote, caller: nat, inNick: Option<string>) returns (reply: EmoteReply)
      modifies this
      ensures Response(reply, emotes) == AddEmote(old(emotes), em, caller, inNick)
    {
      if Registered(emotes, em.id) {
        return AlreadyRegistered;
      }
      var offered := inNick.Some? && !HasNicknameCI(Definitions(emotes, caller), inNick.value);
      var tooShort := false;
      var names: seq<UserDefined> := [];
      if offered {
        if Utf16Length(inNick.value) < NicknameLengthMin {
          tooShort := true;
        } else {
          names := [UserDefined(em.id, inNick.value, caller)];
        }
      }
      var nEmote := CreateObj(em.id, em.name, em.animated, em.url, Some(names));
      emotes := emotes + [EncapsulateToDb(nEmote)];
      reply := Added(tooShort);
    }

    /** `RenameEmoteCommand`: updates the document when `Rename` says so. */
    method RenameEmoteCommand(caller: nat, name: string, nick: string) returns (reply: EmoteReply)
      modifies this
      ensures Response(reply, emotes) == Rename(old(emotes), caller, name, nick)
    {
      var nk := Remove(nick, ':');
      var nm := Remove(name, ':');
      if Utf16Length(nk) < NicknameLengthMin {
        return NicknameTooShort;
      }
      var emote := FindByName(emotes, nm);
      var limit := NicknameCountMax;
      if emote.None? {
        emote := FindByOwnNickname(emotes, caller, nm);
        limit := 3;
        if emote.None? {
          return EmoteMissing;
        }
      }
      var e := emote.value;
      if NameTaken(emotes, nk) || HasNicknameCI(Definitions(emotes, caller), nk) {
        return Silent;
      }
      if OwnedCount(e, caller) > limit {
        return CapacityExceeded;
      }
      emotes := Update(emotes, AddNickname(e, nk, caller));
      reply := Success;
    }

    /** `DeleteEmoteNicknameCommand`: updates the document when `DeleteNickname` says so. */
    method DeleteEmoteNicknameCommand(caller: nat, nick: string) returns (reply: EmoteReply)
      modifies this
      ensures Response(reply, emotes) == DeleteNickname(old(emotes), caller, nick)
    {
      var nk := Remove(nick, ':');
      var definition := FirstWhere(Definitions(emotes, caller), (x: UserDefined) => EqualsCaseInsensitive(x.nickname, nk));
      if definition.None? {
        return Silent;
      }
      var emote := FirstWhere(emotes, (x: DbEmote) => x.id == definition.value.associatedEmoteId);
      if emote.None? {
        return Faulted;
      }
      emotes := Update(emotes, DropNickname(emote.value, definition.value.nickname));
      reply := Success;
    }
  }
}

=== FILE: repository.dfy ===
/** The emote half of the repository (DatabaseContext.cs): the persistent store, the runtime cache
    that `InitAsync` reconciles with it, and the `DatabaseRepository` operations that edit the
    store and resolve user input against the cache. */
module Repository {
  import opened Wrappers
  import opened Text
  import opened Sequences
  import opened EeveeEmotes
  import opened AccessControl

  /** Two emote tables: the emotes and the aliases. The store and the runtime cache each hold one. */
  datatype Catalog = Catalog(emotes: seq<EeveeEmote>, aliases: seq<EmoteAlias>)

  /** What `InitAsync` leaves in the cache, and whether its task faulted part-way. */
  datatype Outcome = Outcome(catalog: Catalog, faulted: bool)

  function EmoteIds(s: seq<EeveeEmote>): set<nat> {
    set e | e in s :: e.id
  }

  function AliasIds(s: seq<EmoteAlias>): set<nat> {
    set a | a in s :: a.id
  }

  predicate UniqueIds(s: seq<EeveeEmote>) {
    forall i, j :: 0 <= i < j < |s| ==> s[i].id != s[j].id
  }

  /** Every alias names an emote of the same catalog. */
  predicate Integrity(c: Catalog) {
    forall a :: a in c.aliases ==> a.emoteId in EmoteIds(c.emotes)
  }

  /** Some emote of `es` with the alias's `EmoteId` carries the alias. */
  predicate Attached(es: seq<EeveeEmote>, a: EmoteAlias) {
    exists e :: e in es && e.id == a.emoteId && a in e.aliases
  }

  /** `after` is `before` with, at most, aliases appended to each emote's list. */
  predicate Grows(before: seq<EeveeEmote>, after: seq<EeveeEmote>) {
    && |after| == |before|
    && (forall i :: 0 <= i < |before| ==> after[i] == before[i].(aliases := after[i].aliases))
    && (forall i :: 0 <= i < |before| ==> before[i].aliases <= after[i].aliases)
  }

  function IdIsNot(id: nat): EeveeEmote -> bool {
    (e: EeveeEmote) => e.id != id
  }

  function IdIn(ids: set<nat>): EeveeEmote -> bool {
    (e: EeveeEmote) => e.id in ids
  }

  function AliasIdIsNot(id: nat): EmoteAlias -> bool {
    (a: EmoteAlias) => a.id != id
  }

  function AliasIdNotIn(ids: set<nat>): EmoteAlias -> bool {
    (a: EmoteAlias) => a.id !in ids
  }

  function EmoteIdIsNot(id: nat): EmoteAlias -> bool {
    (a: EmoteAlias) => a.emoteId != id
  }

  lemma EmoteIdsSplit(s: seq<EeveeEmote>)
    requires s != []
    ensures EmoteIds(s) == {s[0].id} + EmoteIds(s[1..])
  {
    assert forall e :: e in s <==> e == s[0] || e in s[1..];
  }

  lemma AliasIdsSplit(s: seq<EmoteAlias>)
    requires s != []
    ensures AliasIds(s) == {s[0].id} + AliasIds(s[1..])
  {
    assert forall a :: a in s <==> a == s[0] || a in s[1..];
  }

  // ---------------------------------------------------------------- store edits

  /** `DeleteEmoteAsync(emote)`: the emote with that id goes, and so does every alias that names
      it; every other emote and alias stays. */
  function DeleteEmote(c: Catalog, id: nat): (r: Catalog)
    ensures forall e :: e in r.emotes <==> e in c.emotes && e.id != id
    ensures forall a :: a in r.aliases <==> a in c.aliases && a.emoteId != id
    ensures id !in EmoteIds(r.emotes)
  {
    Catalog(Filter(c.emotes, IdIsNot(id)), Filter(c.aliases, EmoteIdIsNot(id)))
  }

  /** `DeleteEmoteAliasAsync(alias)`: every alias with that id goes; the emotes stay. */
  function DeleteAlias(c: Catalog, id: nat): (r: Catalog)
    ensures r.emotes == c.emotes
    ensures forall a :: a in r.aliases <==> a in c.aliases && a.id != id
    ensures id !in AliasIds(r.aliases)
  {
    Catalog(c.emotes, Filter(c.aliases, AliasIdIsNot(id)))
  }

  /** Deleting an emote together with its aliases never leaves an alias without its emote. */
  lemma DeleteEmoteKeepsIntegrity(c: Catalog, id: nat)
    requires Integrity(c)
    ensures Integrity(DeleteEmote(c, id))
  {
    var r := DeleteEmote(c, id);
    forall a | a in r.aliases
      ensures a.emoteId in EmoteIds(r.emotes)
    {
      var e :| e in c.emotes && e.id == a.emoteId;
      assert e in r.emotes;
    }
  }

  /** Deleting an alias, or adding one that names a stored emote, keeps the store consistent. */
  lemma AliasEditsKeepIntegrity(c: Catalog, id: nat, a: EmoteAlias)
    requires Integrity(c)
    ensures Integrity(DeleteAlias(c, id))
    ensures a.emoteId in EmoteIds(c.emotes) ==> Integrity(Catalog(c.emotes, c.aliases + [a]))
  {
  }

  // ---------------------------------------------------------------- reconciliation

  /** `Emotes.FirstOrDefault(em => em.Id == id)`, as a position. */
  function IndexOfEmote(s: seq<EeveeEmote>, id: nat): (r: Option<nat>)
    ensures r.None? <==> id !in EmoteIds(s)
    ensures r.Some? ==> r.value < |s| && s[r.value].id == id
    ensures r.Some? ==> forall j :: 0 <= j < r.value ==> s[j].id != id
  {
    if s == [] then None
    else
      EmoteIdsSplit(s);
      if s[0].id == id then Some(0)
      else
        match IndexOfEmote(s[1..], id)
        case None => None
        case Some(i) => Some(i + 1)
  }

  /** The first pass of `InitAsync`: each stored emote whose id is not cached yet is appended. */
  function AddMissingEmotes(cached: seq<EeveeEmote>, incoming: seq<EeveeEmote>): (r: seq<EeveeEmote>)
    ensures cached <= r
    ensures EmoteIds(r) == EmoteIds(cached) + EmoteIds(incoming)
    ensures UniqueIds(cached) ==> UniqueIds(r)
    decreases |incoming|
  {
    if incoming == [] then cached
    else
      var em := incoming[0];
      var next := if em.id in EmoteIds(cached) then cached else cached + [em];
      EmoteIdsSplit(incoming);
      assert EmoteIds(next) == EmoteIds(cached) + {em.id} by {
        assert forall e :: e in cached + [em] <==> e in cached || e == em;
      }
      assert UniqueIds(cached) ==> UniqueIds(next) by {
        if UniqueIds(cached) && next != cached {
          forall i | 0 <= i < |cached|
            ensures next[i].id != em.id
          {
            assert cached[i] in cached;
          }
        }
      }
      AddMissingEmotes(next, incoming[1..])
  }

  /** One step of the first pass. */
  lemma AddMissingStep(cached: seq<EeveeEmote>, incoming: seq<EeveeEmote>)
    requires incoming != []
    ensures var em := incoming[0];
            AddMissingEmotes(cached, incoming)
            == AddMissingEmotes(if em.id in EmoteIds(cached) then cached else cached + [em], incoming[1..])
  {
  }

  /** `Aliases.Add(al)` unless an alias with its id is cached already. */
  function CacheAlias(aliases: seq<EmoteAlias>, al: EmoteAlias): (r: seq<EmoteAlias>)
    ensures aliases <= r
    ensures AliasIds(r) == AliasIds(aliases) + {al.id}
  {
    if al.id in AliasIds(aliases) then aliases
    else
      assert forall a :: a in aliases + [al] <==> a in aliases || a == al;
      aliases + [al]
  }

  /** One step of the second pass: the alias is cached, then appended to the alias list of the
      first cached emote with its `EmoteId`, whether or not that list has it already. Without
      such an emote the dereference of the missing emote faults the task. */
  function AttachOne(c: Catalog, al: EmoteAlias): (r: Outcome)
    ensures r.faulted <==> al.emoteId !in EmoteIds(c.emotes)
    ensures r.catalog.aliases == CacheAlias(c.aliases, al)
    ensures Grows(c.emotes, r.catalog.emotes)
    ensures !r.faulted ==> Attached(r.catalog.emotes, al)
    ensures r.faulted ==> r.catalog.emotes == c.emotes
    ensures !r.faulted ==> exists i ::
              && 0 <= i < |c.emotes| && c.emotes[i].id == al.emoteId
              && (forall j :: 0 <= j < i ==> c.emotes[j].id != al.emoteId)
              && r.catalog.emotes == c.emotes[i := c.emotes[i].(aliases := c.emotes[i].aliases + [al])]
  {
    var aliases := CacheAlias(c.aliases, al);
    match IndexOfEmote(c.emotes, al.emoteId)
    case None => Outcome(Catalog(c.emotes, aliases), true)
    case Some(i) =>
      var es := c.emotes[i := c.emotes[i].(aliases := c.emotes[i].aliases + [al])];
      assert es[i] in es;
      Outcome(Catalog(es, aliases), false)
  }

  lemma AttachOneCases(c: Catalog, al: EmoteAlias)
    ensures var at := IndexOfEmote(c.emotes, al.emoteId);
            && (at.None? ==> AttachOne(c, al) == Outcome(Catalog(c.emotes, CacheAlias(c.aliases, al)), true))
            && (at.Some? ==> AttachOne(c, al) == Outcome(Catalog(c.emotes[at.value := c.emotes[at.value].(aliases := c.emotes[at.value].aliases + [al])], CacheAlias(c.aliases, al)), false))
  {
  }

  /** The second pass of `InitAsync`, stopping at the first fault. */
  function AttachAliases(c: Catalog, incoming: seq<EmoteAlias>): (r: Outcome)
    ensures Grows(c.emotes, r.catalog.emotes)
    ensures c.aliases <= r.catalog.aliases
    decreases |incoming|
  {
    if incoming == [] then Outcome(c, false)
    else
      var o := AttachOne(c, incoming[0]);
      if o.faulted then o else AttachAliases(o.catalog, incoming[1..])
  }

  lemma GrowsTransitive(a: seq<EeveeEmote>, b: seq<EeveeEmote>, c: seq<EeveeEmote>)
    requires Grows(a, b) && Grows(b, c)
    ensures Grows(a, c)
  {
  }

  /** Growing alias lists keeps the emote ids and every attachment. */
  lemma GrowsKeeps(before: seq<EeveeEmote>, after: seq<EeveeEmote>)
    requires Grows(before, after)
    ensures EmoteIds(after) == EmoteIds(before)
    ensures forall a :: Attached(before, a) ==> Attached(after, a)
  {
    forall x | x in EmoteIds(after)
      ensures x in EmoteIds(before)
    {
      var i :| 0 <= i < |after| && after[i].id == x;
      assert before[i] in before;
    }
    forall x | x in EmoteIds(before)
      ensures x in EmoteIds(after)
    {
      var i :| 0 <= i < |before| && before[i].id == x;
      assert after[i] in after;
    }
    forall a | Attached(before, a)
      ensures Attached(after, a)
    {
      var e :| e in before && e.id == a.emoteId && a in e.aliases;
      var i :| 0 <= i < |before| && before[i] == e;
      assert after[i] in after && a in after[i].aliases;
    }
  }

  /** The second pass faults exactly when some stored alias names an emote id the cache lacks;
      otherwise every stored alias is cached by id and attached to an emote with its `EmoteId`. */
  lemma AttachAliasesMeaning(c: Catalog, incoming: seq<EmoteAlias>)
    ensures var r := AttachAliases(c, incoming);
            && (r.faulted <==> exists a :: a in incoming && a.emoteId !in EmoteIds(c.emotes))
            && (!r.faulted ==> AliasIds(r.catalog.aliases) == AliasIds(c.aliases) + AliasIds(incoming))
            && (!r.faulted ==> forall a :: a in incoming ==> Attached(r.catalog.emotes, a))
  {
    AttachAliasesFaults(c, incoming);
    AttachAliasesCachesIds(c, incoming);
    AttachAliasesAttaches(c, incoming);
  }

  lemma {:induction false} AttachAliasesFaults(c: Catalog, incoming: seq<EmoteAlias>)
    ensures AttachAliases(c, incoming).faulted <==> exists a :: a in incoming && a.emoteId !in EmoteIds(c.emotes)
    decreases |incoming|
  {
    if incoming != [] {
      var o := AttachOne(c, incoming[0]);
      GrowsKeeps(c.emotes, o.catalog.emotes);
      assert forall a :: a in incoming <==> a == incoming[0] || a in incoming[1..];
      if !o.faulted {
        AttachAliasesFaults(o.catalog, incoming[1..]);
      }
    }
  }

  lemma {:induction false} AttachAliasesCachesIds(c: Catalog, incoming: seq<EmoteAlias>)
    ensures var r := AttachAliases(c, incoming);
            !r.faulted ==> AliasIds(r.catalog.aliases) == AliasIds(c.aliases) + AliasIds(incoming)
    decreases |incoming|
  {
    if incoming != [] {
      var o := AttachOne(c, incoming[0]);
      if !o.faulted {
        AttachAliasesCachesIds(o.catalog, incoming[1..]);
        AliasIdsSplit(incoming);
      }
    }
  }

  lemma {:induction false} AttachAliasesAttaches(c: Catalog, incoming: seq<EmoteAlias>)
    ensures var r := AttachAliases(c, incoming);
            !r.faulted ==> forall a :: a in incoming ==> Attached(r.catalog.emotes, a)
    decreases |incoming|
  {
    if incoming != [] {
      var o := AttachOne(c, incoming[0]);
      assert forall a :: a in incoming <==> a == incoming[0] || a in incoming[1..];
      if !o.faulted {
        AttachAliasesAttaches(o.catalog, incoming[1..]);
        var r := AttachAliases(o.catalog, incoming[1..]);
        GrowsKeeps(o.catalog.emotes, r.catalog.emotes);
      }
    }
  }

  /** The third pass: `Emotes.RemoveAll` of every cached emote whose id is not stored. */
  function PruneEmotes(cached: seq<EeveeEmote>, stored: seq<EeveeEmote>): (r: seq<EeveeEmote>)
    ensures forall e :: e in r <==> e in cached && e.id in EmoteIds(stored)
    ensures EmoteIds(r) == EmoteIds(cached) * EmoteIds(stored)
    ensures UniqueIds(cached) ==> UniqueIds(r)
  {
    var r := Filter(cached, IdIn(EmoteIds(stored)));
    FilterKeepsUniqueIds(cached, IdIn(EmoteIds(stored)));
    r
  }

  lemma {:induction false} FilterKeepsUniqueIds(s: seq<EeveeEmote>, p: EeveeEmote -> bool)
    ensures UniqueIds(s) ==> UniqueIds(Filter(s, p))
  {
    if s != [] && UniqueIds(s) {
      FilterKeepsUniqueIds(s[1..], p);
      var rest := Filter(s[1..], p);
      forall e | e in rest
        ensures e.id != s[0].id
      {
        var k :| 0 <= k < |s[1..]| && s[1..][k] == e;
        assert s[k + 1] == e;
      }
    }
  }

  /** `ForEach(x => x.Aliases.RemoveAll(y => ids.Contains(y.Id)))` over the emotes. */
  function DetachFromEmotes(es: seq<EeveeEmote>, ids: set<nat>): (r: seq<EeveeEmote>)
    ensures |r| == |es|
    ensures forall i :: 0 <= i < |es| ==> r[i] == es[i].(aliases := r[i].aliases)
    ensures forall i, a :: 0 <= i < |es| ==> (a in r[i].aliases <==> a in es[i].aliases && a.id !in ids)
  {
    seq(|es|, i requires 0 <= i < |es| => es[i].(aliases := Filter(es[i].aliases, AliasIdNotIn(ids))))
  }

  /** The ids of cached aliases that the store no longer has. */
  function StaleIds(cached: seq<EmoteAlias>, stored: seq<EmoteAlias>): set<nat> {
    AliasIds(cached) - AliasIds(stored)
  }

  /** The fourth pass as evidently intended: every stale alias leaves `Aliases` and every emote's
      list. */
  function DetachStale(c: Catalog, stored: seq<EmoteAlias>): (r: Catalog)
    ensures forall a :: a in r.aliases <==> a in c.aliases && a.id in AliasIds(stored)
    ensures AliasIds(r.aliases) == AliasIds(c.aliases) * AliasIds(stored)
    ensures |r.emotes| == |c.emotes|
    ensures forall i :: 0 <= i < |c.emotes| ==> r.emotes[i] == c.emotes[i].(aliases := r.emotes[i].aliases)
    ensures forall i, a :: 0 <= i < |c.emotes| ==>
              (a in r.emotes[i].aliases <==> a in c.emotes[i].aliases && a.id !in StaleIds(c.aliases, stored))
  {
    var stale := StaleIds(c.aliases, stored);
    var r := Catalog(DetachFromEmotes(c.emotes, stale), Filter(c.aliases, AliasIdNotIn(stale)));
    forall x | x in AliasIds(r.aliases)
      ensures x in AliasIds(c.aliases) * AliasIds(stored)
    {
      var a :| a in r.aliases && a.id == x;
    }
    forall x | x in AliasIds(c.aliases) * AliasIds(stored)
      ensures x in AliasIds(r.aliases)
    {
      var a :| a in c.aliases && a.id == x;
      assert a in r.aliases;
    }
    r
  }

  lemma DetachStaleUnfold(c: Catalog, stored: seq<EmoteAlias>)
    ensures var stale := StaleIds(c.aliases, stored);
            DetachStale(c, stored) == Catalog(DetachFromEmotes(c.emotes, stale), Filter(c.aliases, AliasIdNotIn(stale)))
  {
  }

  /** The fourth pass AS WRITTEN: the loop removes from `Aliases` while enumerating a filter over
      `Aliases`, so after the first stale alias, in list order, has left `Aliases` and every
      emote's list, the enumerator faults. */
  function DetachFirstStale(c: Catalog, stored: seq<EmoteAlias>): (r: Outcome)
    ensures r.faulted <==> StaleIds(c.aliases, stored) != {}
    ensures !r.faulted ==> r.catalog == c
    ensures r.faulted ==> exists k ::
              && 0 <= k < |c.aliases| && c.aliases[k].id in StaleIds(c.aliases, stored)
              && (forall j :: 0 <= j < k ==> c.aliases[j].id in AliasIds(stored))
              && r.catalog.aliases == Filter(c.aliases, AliasIdIsNot(c.aliases[k].id))
              && r.catalog.emotes == DetachFromEmotes(c.emotes, {c.aliases[k].id})
    ensures r.faulted ==> exists x :: (x in StaleIds(c.aliases, stored) &&
              forall a :: a in r.catalog.aliases <==> a in c.aliases && a.id != x)
  {
    match FirstWhere(c.aliases, AliasIdNotIn(AliasIds(stored)))
    case None =>
      assert StaleIds(c.aliases, stored) == {} by {
        forall x | x in AliasIds(c.aliases)
          ensures x in AliasIds(stored)
        {
          var a :| a in c.aliases && a.id == x;
          var k :| 0 <= k < |c.aliases| && c.aliases[k] == a;
          assert !AliasIdNotIn(AliasIds(stored))(c.aliases[k]);
        }
      }
      Outcome(c, false)
    case Some(al) =>
      var x := al.id;
      FirstStale(c.aliases, stored);
      var r := Catalog(DetachFromEmotes(c.emotes, {x}), Filter(c.aliases, AliasIdIsNot(x)));
      assert forall a :: a in r.aliases <==> a in c.aliases && a.id != x;
      Outcome(r, true)
  }

  /** The first alias the store lacks, in cache order, is stale and every alias before it is stored. */
  lemma FirstStale(cached: seq<EmoteAlias>, stored: seq<EmoteAlias>)
    requires FirstWhere(cached, AliasIdNotIn(AliasIds(stored))).Some?
    ensures var x := FirstWhere(cached, AliasIdNotIn(AliasIds(stored))).value.id;
            && x in StaleIds(cached, stored)
            && exists k :: 0 <= k < |cached| && cached[k].id == x && forall j :: 0 <= j < k ==> cached[j].id in AliasIds(stored)
  {
    var al := FirstWhere(cached, AliasIdNotIn(AliasIds(stored))).value;
    var k :| 0 <= k < |cached| && cached[k] == al && AliasIdNotIn(AliasIds(stored))(cached[k])
             && forall j :: 0 <= j < k ==> !AliasIdNotIn(AliasIds(stored))(cached[j]);
    assert al in cached;
  }

  /** `InitAsync` as evidently intended: add the missing emotes, attach every stored alias, drop
      the emotes the store lacks, then detach every stale alias. */
  function Reconcile(c: Catalog, store: Catalog): (r: Outcome)
    ensures r.faulted <==> exists a :: a in store.aliases && a.emoteId !in EmoteIds(c.emotes) + EmoteIds(store.emotes)
  {
    var first := Catalog(AddMissingEmotes(c.emotes, store.emotes), c.aliases);
    AttachAliasesMeaning(first, store.aliases);
    var second := AttachAliases(first, store.aliases);
    if second.faulted then second
    else
      var third := Catalog(PruneEmotes(second.catalog.emotes, store.emotes), second.catalog.aliases);
      Outcome(DetachStale(third, store.aliases), false)
  }

  /** `InitAsync` AS WRITTEN: as above, but the last pass detaches only the first stale alias. */
  function ReconcileAsWritten(c: Catalog, store: Catalog): (r: Outcome)
    ensures Reconcile(c, store).faulted ==> r == Reconcile(c, store)
  {
    var first := Catalog(AddMissingEmotes(c.emotes, store.emotes), c.aliases);
    var second := AttachAliases(first, store.aliases);
    if second.faulted then second
    else
      var third := Catalog(PruneEmotes(second.catalog.emotes, store.emotes), second.catalog.aliases);
      DetachFirstStale(third, store.aliases)
  }

  lemma DetachNothing(es: seq<EeveeEmote>)
    ensures DetachFromEmotes(es, {}) == es
  {
    var r := DetachFromEmotes(es, {});
    forall i | 0 <= i < |es|
      ensures r[i] == es[i]
    {
      assert r[i].aliases == Filter(es[i].aliases, AliasIdNotIn({}));
    }
  }

  /** The second pass adds exactly the stored alias ids, so the stale ids it leaves are those of
      the cache's own aliases that the store lacks. */
  lemma StaleAfterAttach(c: Catalog, store: Catalog)
    requires !AttachAliases(c, store.aliases).faulted
    ensures StaleIds(AttachAliases(c, store.aliases).catalog.aliases, store.aliases) == StaleIds(c.aliases, store.aliases)
  {
    AttachAliasesMeaning(c, store.aliases);
  }

  /** The two versions differ only when the cache holds stale aliases. */
  lemma ReconcileAsWrittenWithoutStale(c: Catalog, store: Catalog)
    requires StaleIds(c.aliases, store.aliases) == {}
    ensures ReconcileAsWritten(c, store) == Reconcile(c, store)
  {
    var first := Catalog(AddMissingEmotes(c.emotes, store.emotes), c.aliases);
    var second := AttachAliases(first, store.aliases);
    if !second.faulted {
      StaleAfterAttach(first, store);
      var third := Catalog(PruneEmotes(second.catalog.emotes, store.emotes), second.catalog.aliases);
      DetachNothing(third.emotes);
      assert Filter(third.aliases, AliasIdNotIn({})) == third.aliases;
    }
  }

  /** The run as written faults exactly when a stored alias names an emote that neither the cache
      nor the store has, or when the cache holds an alias the store lacks; when it does not
      fault it agrees with the intended run. */
  lemma ReconcileAsWrittenFaults(c: Catalog, store: Catalog)
    ensures var r := ReconcileAsWritten(c, store);
            && (r.faulted <==>
                || (exists a :: a in store.aliases && a.emoteId !in EmoteIds(c.emotes) + EmoteIds(store.emotes))
                || StaleIds(c.aliases, store.aliases) != {})
            && (!r.faulted ==> r == Reconcile(c, store))
  {
    var first := Catalog(AddMissingEmotes(c.emotes, store.emotes), c.aliases);
    var second := AttachAliases(first, store.aliases);
    if !second.faulted {
      StaleAfterAttach(first, store);
    }
    if StaleIds(c.aliases, store.aliases) == {} {
      ReconcileAsWrittenWithoutStale(c, store);
    }
  }

  /** Dropping stale aliases keeps the emotes (ids, uniqueness) and every attachment of a stored
      alias, and leaves no stale alias on any emote. */
  lemma DetachStaleKeeps(c: Catalog, stored: seq<EmoteAlias>)
    ensures var r := DetachStale(c, stored);
            && EmoteIds(r.emotes) == EmoteIds(c.emotes)
            && (UniqueIds(c.emotes) ==> UniqueIds(r.emotes))
            && (forall a :: Attached(c.emotes, a) && a.id in AliasIds(stored) ==> Attached(r.emotes, a))
            && (forall e, a :: e in r.emotes && a in e.aliases ==> a.id !in StaleIds(c.aliases, stored))
  {
    var r := DetachStale(c, stored);
    forall x | x in EmoteIds(r.emotes)
      ensures x in EmoteIds(c.emotes)
    {
      var i :| 0 <= i < |r.emotes| && r.emotes[i].id == x;
      assert c.emotes[i] in c.emotes;
    }
    forall x | x in EmoteIds(c.emotes)
      ensures x in EmoteIds(r.emotes)
    {
      var i :| 0 <= i < |c.emotes| && c.emotes[i].id == x;
      assert r.emotes[i] in r.emotes;
    }
    forall a | Attached(c.emotes, a) && a.id in AliasIds(stored)
      ensures Attached(r.emotes, a)
    {
      var e :| e in c.emotes && e.id == a.emoteId && a in e.aliases;
      var i :| 0 <= i < |c.emotes| && c.emotes[i] == e;
      assert a in r.emotes[i].aliases;
      assert r.emotes[i] in r.emotes;
    }
    forall e, a | e in r.emotes && a in e.aliases
      ensures a.id !in StaleIds(c.aliases, stored)
    {
      var i :| 0 <= i < |r.emotes| && r.emotes[i] == e;
    }
  }

  /** Pruning keeps the attachment of an alias whose emote is stored. */
  lemma PruneKeepsAttached(es: seq<EeveeEmote>, stored: seq<EeveeEmote>, a: EmoteAlias)
    requires Attached(es, a) && a.emoteId in EmoteIds(stored)
    ensures Attached(PruneEmotes(es, stored), a)
  {
    var e :| e in es && e.id == a.emoteId && a in e.aliases;
    assert e in PruneEmotes(es, stored);
  }

  /** The run faults exactly when a stored alias names an emote that neither the cache nor the
      store has, and it never gives two cached emotes the same id. */
  lemma ReconcileFaults(c: Catalog, store: Catalog)
    ensures var r := Reconcile(c, store);
            && (r.faulted <==> exists a :: a in store.aliases && a.emoteId !in EmoteIds(c.emotes) + EmoteIds(store.emotes))
            && (UniqueIds(c.emotes) ==> UniqueIds(r.catalog.emotes))
  {
    var first := Catalog(AddMissingEmotes(c.emotes, store.emotes), c.aliases);
    var second := AttachAliases(first, store.aliases);
    AttachAliasesMeaning(first, store.aliases);
    assert UniqueIds(c.emotes) ==> UniqueIds(second.catalog.emotes);
    if !second.faulted {
      var third := Catalog(PruneEmotes(second.catalog.emotes, store.emotes), second.catalog.aliases);
      DetachStaleKeeps(third, store.aliases);
    }
  }

  /** After a run that does not fault, the cache holds exactly the stored emote ids. */
  lemma ReconcileEmoteIds(c: Catalog, store: Catalog)
    requires !Reconcile(c, store).faulted
    ensures EmoteIds(Reconcile(c, store).catalog.emotes) == EmoteIds(store.emotes)
  {
    var first := Catalog(AddMissingEmotes(c.emotes, store.emotes), c.aliases);
    var second := AttachAliases(first, store.aliases);
    GrowsKeeps(first.emotes, second.catalog.emotes);
    var third := Catalog(PruneEmotes(second.catalog.emotes, store.emotes), second.catalog.aliases);
    DetachStaleKeeps(third, store.aliases);
  }

  /** After a run that does not fault, the cache holds exactly the stored alias ids. */
  lemma ReconcileAliasIds(c: Catalog, store: Catalog)
    requires !Reconcile(c, store).faulted
    ensures AliasIds(Reconcile(c, store).catalog.aliases) == AliasIds(store.aliases)
  {
    var first := Catalog(AddMissingEmotes(c.emotes, store.emotes), c.aliases);
    AttachAliasesMeaning(first, store.aliases);
  }

  /** After a run that does not fault, every stored alias of a stored emote is attached to it, and
      no emote carries an alias that the cache held before and the store has dropped. */
  lemma ReconcileAttachments(c: Catalog, store: Catalog)
    requires !Reconcile(c, store).faulted
    ensures var r := Reconcile(c, store).catalog;
            && (forall a :: a in store.aliases && a.emoteId in EmoteIds(store.emotes) ==> Attached(r.emotes, a))
            && (forall e, a :: e in r.emotes && a in e.aliases ==>
                  a.id in AliasIds(store.aliases) || a.id !in AliasIds(c.aliases))
  {
    var first := Catalog(AddMissingEmotes(c.emotes, store.emotes), c.aliases);
    var second := AttachAliases(first, store.aliases);
    AttachAliasesMeaning(first, store.aliases);
    StaleAfterAttach(first, store);
    var third := Catalog(PruneEmotes(second.catalog.emotes, store.emotes), second.catalog.aliases);
    DetachStaleKeeps(third, store.aliases);
    forall a | a in store.aliases && a.emoteId in EmoteIds(store.emotes)
      ensures Attached(third.emotes, a)
    {
      PruneKeepsAttached(second.catalog.emotes, store.emotes, a);
    }
  }

  /** A store in which every alias names a stored emote never faults the run. */
  lemma ReconcileCleanStore(c: Catalog, store: Catalog)
    requires Integrity(store)
    ensures !Reconcile(c, store).faulted
  {
    ReconcileFaults(c, store);
  }

  /** Finding: with two stale aliases in the cache, the run as written keeps the second one (and
      faults), while the intended run clears both. */
  lemma StaleAliasSurvivesAsWritten()
    ensures var a1 := EmoteAlias(1, 7, 42, "x");
            var a2 := EmoteAlias(2, 7, 42, "y");
            var c := Catalog([], [a1, a2]);
            var store := Catalog([], []);
            && ReconcileAsWritten(c, store) == Outcome(Catalog([], [a2]), true)
            && Reconcile(c, store) == Outcome(Catalog([], []), false)
  {
    var a1 := EmoteAlias(1, 7, 42, "x");
    var a2 := EmoteAlias(2, 7, 42, "y");
    var c := Catalog([], [a1, a2]);
    var store := Catalog([], []);
    assert AliasIds(store.aliases) == {};
    assert StaleIds(c.aliases, store.aliases) == {1, 2};
    assert Filter(c.aliases, AliasIdNotIn({})) == [a1, a2];
    assert Filter(c.aliases, AliasIdIsNot(1)) == [a2];
    assert Filter(c.aliases, AliasIdNotIn({1, 2})) == [];
  }

  /** With one cached emote, a store of one emote with the same id adds nothing and prunes nothing. */
  lemma SameSingleEmote(x: EeveeEmote, e: EeveeEmote)
    requires x.id == e.id
    ensures AddMissingEmotes([x], [e]) == [x]
    ensures PruneEmotes([x], [e]) == [x]
  {
    assert EmoteIds([x]) == {x.id} && EmoteIds([e]) == {e.id};
    assert AddMissingEmotes([x], []) == [x];
  }

  /** Attaching one alias to a one-emote cache whose emote it names. */
  lemma AttachSingle(x: EeveeEmote, al: seq<EmoteAlias>, a: EmoteAlias)
    requires x.id == a.emoteId
    ensures AttachAliases(Catalog([x], al), [a]) == Outcome(Catalog([x.(aliases := x.aliases + [a])], CacheAlias(al, a)), false)
  {
    var x1 := x.(aliases := x.aliases + [a]);
    assert IndexOfEmote([x], a.emoteId) == Some(0);
    assert [x][0 := x1] == [x1];
    assert AttachOne(Catalog([x], al), a) == Outcome(Catalog([x1], CacheAlias(al, a)), false);
    assert AttachAliases(Catalog([x1], CacheAlias(al, a)), []) == Outcome(Catalog([x1], CacheAlias(al, a)), false);
  }

  /** With no stale alias the last pass changes nothing. */
  lemma DetachStaleNone(c: Catalog, stored: seq<EmoteAlias>)
    requires AliasIds(c.aliases) <= AliasIds(stored)
    ensures DetachStale(c, stored) == c
  {
    assert StaleIds(c.aliases, stored) == {};
    DetachNothing(c.emotes);
    assert Filter(c.aliases, AliasIdNotIn({})) == c.aliases;
  }

  /** The first run over the one-emote, one-alias store of `ReconcileReattaches`. */
  lemma ReconcileFromEmpty(e: EeveeEmote, a: EmoteAlias)
    requires e.aliases == [] && a.emoteId == e.id
    ensures Reconcile(Catalog([], []), Catalog([e], [a])) == Outcome(Catalog([e.(aliases := [a])], [a]), false)
  {
    var e1 := e.(aliases := [a]);
    AddToEmpty(e);
    CacheSingle(a);
    AttachSingle(e, [], a);
    assert e.(aliases := e.aliases + [a]) == e1;
    ReconcileUnfold(Catalog([], []), Catalog([e], [a]), [e], Catalog([e1], [a]));
    SameSingleEmote(e1, e);
    DetachStaleNone(Catalog([e1], [a]), [a]);
  }

  lemma AddToEmpty(e: EeveeEmote)
    ensures AddMissingEmotes([], [e]) == [e]
  {
    assert EmoteIds([]) == {};
    assert AddMissingEmotes([e], []) == [e];
  }

  lemma CacheSingle(a: EmoteAlias)
    ensures CacheAlias([], a) == [a] && CacheAlias([a], a) == [a]
  {
    assert AliasIds([]) == {};
    assert AliasIds([a]) == {a.id};
  }

  /** The second run over the same store, starting from what the first one left. */
  lemma ReconcileAgain(e: EeveeEmote, a: EmoteAlias)
    requires e.aliases == [] && a.emoteId == e.id
    ensures Reconcile(Catalog([e.(aliases := [a])], [a]), Catalog([e], [a])).catalog.emotes == [e.(aliases := [a, a])]
  {
    var e1 := e.(aliases := [a]);
    var e2 := e.(aliases := [a, a]);
    SameSingleEmote(e1, e);
    CacheSingle(a);
    AttachSingle(e1, [a], a);
    assert e1.(aliases := e1.aliases + [a]) == e2;
    ReconcileUnfold(Catalog([e1], [a]), Catalog([e], [a]), [e1], Catalog([e2], [a]));
    SameSingleEmote(e2, e);
    DetachStaleNone(Catalog([e2], [a]), [a]);
  }

  /** A run whose first two passes are known and do not fault. */
  lemma ReconcileUnfold(c: Catalog, store: Catalog, added: seq<EeveeEmote>, attached: Catalog)
    requires AddMissingEmotes(c.emotes, store.emotes) == added
    requires AttachAliases(Catalog(added, c.aliases), store.aliases) == Outcome(attached, false)
    ensures Reconcile(c, store) == Outcome(DetachStale(Catalog(PruneEmotes(attached.emotes, store.emotes), attached.aliases), store.aliases), false)
  {
  }

  /** Running the reconciliation again attaches every stored alias once more: the cached emote
      then lists the same alias twice. */
  lemma ReconcileReattaches()
    ensures var e := EeveeEmote(1, 0, 0, "pog", false, "", "", []);
            var a := EmoteAlias(10, 1, 42, "p");
            var store := Catalog([e], [a]);
            var once := Reconcile(Catalog([], []), store).catalog;
            var twice := Reconcile(once, store).catalog;
            && once.emotes == [e.(aliases := [a])]
            && twice.emotes == [e.(aliases := [a, a])]
  {
    var e := EeveeEmote(1, 0, 0, "pog", false, "", "", []);
    var a := EmoteAlias(10, 1, 42, "p");
    ReconcileFromEmpty(e, a);
    ReconcileAgain(e, a);
  }

  // ---------------------------------------------------------------- queries over the cache

  /** The emote `AssociateEmoteAsync` returns: the first cached emote, in list order, that
      `TryAssociate` accepts. */
  function FirstAssociated(s: seq<EeveeEmote>, userId: nat, input: string): (r: Option<EeveeEmote>)
    ensures r.None? <==> forall e :: e in s ==> !TryAssociate(e, userId, input)
    ensures r.Some? ==> exists i :: 0 <= i < |s| && s[i] == r.value && TryAssociate(s[i], userId, input)
                          && forall j :: 0 <= j < i ==> !TryAssociate(s[j], userId, input)
  {
    FirstWhere(s, (e: EeveeEmote) => TryAssociate(e, userId, input))
  }

  /** `AssociateEmoteAliasAsync`: the first cached alias owned by `userId` whose text equals the
      input case-insensitively (the input is not reduced from `:name:` form here). */
  function FirstOwnedAlias(aliases: seq<EmoteAlias>, userId: nat, input: string): (r: Option<EmoteAlias>)
    ensures r.None? <==> forall a :: a in aliases ==> !(a.ownerId == userId && EqualsCaseInsensitive(a.alias, input))
    ensures r.Some? ==> r.value in aliases && r.value.ownerId == userId && EqualsCaseInsensitive(r.value.alias, input)
    ensures r.Some? ==> exists i :: 0 <= i < |aliases| && aliases[i] == r.value
                          && forall j :: 0 <= j < i ==> !(aliases[j].ownerId == userId && EqualsCaseInsensitive(aliases[j].alias, input))
  {
    FirstWhere(aliases, (a: EmoteAlias) => a.ownerId == userId && EqualsCaseInsensitive(a.alias, input))
  }

  /** `EmoteExistsAsync(userId, emoteId, input)`: some cached emote has the id or accepts the input. */
  function EmoteExists(s: seq<EeveeEmote>, userId: nat, emoteId: nat, input: string): (b: bool)
    ensures b <==> emoteId in EmoteIds(s) || exists e :: e in s && TryAssociate(e, userId, input)
  {
    FirstWhere(s, (e: EeveeEmote) => e.id == emoteId || TryAssociate(e, userId, input)).Some?
  }

  /** The filter `y => y.OwnerId == userId`. */
  function OwnerIs(userId: nat): EmoteAlias -> bool {
    (a: EmoteAlias) => a.ownerId == userId
  }

  /** `Aliases.Count(y => y.OwnerId == userId)`: the number of aliases `userId` owns. */
  function OwnedAliasCount(aliases: seq<EmoteAlias>, userId: nat): (n: nat)
    ensures n == |Filter(aliases, OwnerIs(userId))|
    ensures n <= |aliases|
    ensures n == 0 <==> forall a :: a in aliases ==> a.ownerId != userId
  {
    if aliases == [] then 0
    else
      assert forall a :: a in aliases <==> a == aliases[0] || a in aliases[1..];
      (if aliases[0].ownerId == userId then 1 else 0) + OwnedAliasCount(aliases[1..], userId)
  }

  /** `GetEmotesAsync(userId)`: the cached emotes ordered by how many aliases `userId` owns on
      each, then re-ordered so that the animated ones come first. */
  function GetEmotes(emotes: seq<EeveeEmote>, userId: nat): (r: seq<EeveeEmote>)
    ensures multiset(r) == multiset(emotes)
    ensures forall i, j :: 0 <= i < j < |r| && r[j].isAnimated ==> r[i].isAnimated
  {
    var byCount := SortDesc(emotes, (e: EeveeEmote) => OwnedAliasCount(e.aliases, userId));
    var r := SortDesc(byCount, (e: EeveeEmote) => if e.isAnimated then 1 else 0);
    assert SortedDesc(r, (e: EeveeEmote) => if e.isAnimated then 1 else 0);
    r
  }

  /** The search filter of `GetEmotesAsync(userId, input)`: the name or the text of ANY alias,
      whoever owns it, contains the text case-insensitively. */
  predicate MatchesText(e: EeveeEmote, text: string) {
    ContainsCaseInsensitive(e.name, text) || exists a :: a in e.aliases && ContainsCaseInsensitive(a.alias, text)
  }

  /** The filter of `GetEmotesAsync(userId, input)` over the ordered emotes. */
  function Matching(text: string): EeveeEmote -> bool {
    (e: EeveeEmote) => MatchesText(e, text)
  }

  /** Animated emotes come before the others. */
  function AnimatedFirst(): (EeveeEmote, EeveeEmote) -> bool {
    (x: EeveeEmote, y: EeveeEmote) => y.isAnimated ==> x.isAnimated
  }

  /** `GetEmotesAsync(userId, input)`: the emotes whose name or some alias contains the
      (`:name:`-reduced) input, kept in the order `GetEmotesAsync(userId)` gives them, so the
      animated ones still come first. */
  function GetEmotesMatching(emotes: seq<EeveeEmote>, userId: nat, input: string): (r: seq<EeveeEmote>)
    ensures |r| <= |emotes|
    ensures forall e :: e in r <==> e in emotes && MatchesText(e, NormalizeInput(input))
    ensures r == Filter(GetEmotes(emotes, userId), Matching(NormalizeInput(input)))
    ensures forall i, j :: 0 <= i < j < |r| && r[j].isAnimated ==> r[i].isAnimated
  {
    var text := NormalizeInput(input);
    var ordered := GetEmotes(emotes, userId);
    SameMembers(ordered, emotes);
    FilterAnimatedFirst(ordered, Matching(text));
    Filter(ordered, Matching(text))
  }

  lemma SameMembers(s: seq<EeveeEmote>, t: seq<EeveeEmote>)
    requires multiset(s) == multiset(t)
    ensures |s| == |t| && forall e :: e in s <==> e in t
  {
    assert |s| == |multiset(s)|;
    assert forall e :: e in s <==> e in multiset(s);
  }

  lemma FilterAnimatedFirst(s: seq<EeveeEmote>, p: EeveeEmote -> bool)
    requires forall i, j :: 0 <= i < j < |s| && s[j].isAnimated ==> s[i].isAnimated
    ensures var r := Filter(s, p); forall i, j :: 0 <= i < j < |r| && r[j].isAnimated ==> r[i].isAnimated
  {
    FilterKeepsOrder(s, p, AnimatedFirst());
  }

  /** Every emote that resolution would accept for the input is also in the search result. */
  lemma AssociatedEmotesAreListed(emotes: seq<EeveeEmote>, userId: nat, input: string, e: EeveeEmote)
    requires e in emotes && TryAssociate(e, userId, input)
    ensures e in GetEmotesMatching(emotes, userId, input)
  {
    var text := NormalizeInput(input);
    if EqualsCaseInsensitive(e.name, text) {
      EqualsImpliesContains(e.name, text);
    } else {
      var a :| a in e.aliases && a.ownerId == userId && EqualsCaseInsensitive(a.alias, text);
      EqualsImpliesContains(a.alias, text);
    }
  }

  // ---------------------------------------------------------------- the objects

  /** The persistent store (`DatabaseContext`): its whitelist and blacklist, and the two emote
      tables. Its initial contents are whatever the database holds. */
  class DatabaseContext {
    var whitelist: map<nat, bool>
    var blacklist: set<nat>
    var emotes: seq<EeveeEmote>
    var aliases: seq<EmoteAlias>

    constructor (whitelist: map<nat, bool>, blacklist: set<nat>, emotes: seq<EeveeEmote>, aliases: seq<EmoteAlias>)
      ensures this.whitelist == whitelist && this.blacklist == blacklist
      ensures this.emotes == emotes && this.aliases == aliases
    {
      this.whitelist := whitelist;
      this.blacklist := blacklist;
      this.emotes := emotes;
      this.aliases := aliases;
    }

    function Users(): Ledger
      reads this
    {
      Ledger(whitelist, blacklist)
    }

    function Tables(): Catalog
      reads this
    {
      Catalog(emotes, aliases)
    }
  }

  /** `RuntimeDBCache`: the in-memory copy of the emote tables. */
  class RuntimeCache {
    var emotes: seq<EeveeEmote>
    var aliases: seq<EmoteAlias>

    constructor ()
      ensures emotes == [] && aliases == []
    {
      emotes := [];
      aliases := [];
    }

    function Contents(): Catalog
      reads this
    {
      Catalog(emotes, aliases)
    }

    /** `InitAsync(dbContext)`. `faulted` reports that the task faulted: on the dereference of
        a missing emote, after which the later passes do not run, or in the last pass once the
        first stale alias is gone. */
    method InitAsync(db: DatabaseContext) returns (faulted: bool)
      modifies this
      ensures Outcome(Contents(), faulted) == ReconcileAsWritten(old(Contents()), db.Tables())
    {
      AddMissingEmotesFrom(db);
      faulted := AttachStoredAliases(db);
      if !faulted {
        faulted := DropStale(db);
      }
    }

    /** The first pass: `ForEachAsync` over the stored emotes. */
    method AddMissingEmotesFrom(db: DatabaseContext)
      modifies this`emotes
      ensures emotes == AddMissingEmotes(old(emotes), db.emotes)
      ensures aliases == old(aliases)
    {
      var incoming := db.emotes;
      var cached := emotes;
      var i := 0;
      while i < |incoming|
        invariant 0 <= i <= |incoming|
        invariant AddMissingEmotes(cached, incoming[i..]) == AddMissingEmotes(old(emotes), incoming)
      {
        var em := incoming[i];
        AddMissingStep(cached, incoming[i..]);
        assert incoming[i..][1..] == incoming[i + 1..];
        if em.id !in EmoteIds(cached) {
          cached := cached + [em];
        }
        i := i + 1;
      }
      assert incoming[i..] == [];
      emotes := cached;
    }

    /** The second pass: `ForEachAsync` over the stored aliases, ending at the first fault. */
    method AttachStoredAliases(db: DatabaseContext) returns (faulted: bool)
      modifies this
      ensures Outcome(Contents(), faulted) == AttachAliases(old(Contents()), db.aliases)
    {
      var k := 0;
      while k < |db.aliases|
        invariant 0 <= k <= |db.aliases|
        invariant AttachAliases(Contents(), db.aliases[k..]) == AttachAliases(old(Contents()), db.aliases)
      {
        assert db.aliases[k..][0] == db.aliases[k] && db.aliases[k..][1..] == db.aliases[k + 1..];
        var stepFaulted := AttachStoredAlias(db.aliases[k]);
        if stepFaulted {
          return true;
        }
        k := k + 1;
      }
      return false;
    }

    /** The body of that `ForEachAsync` for one stored alias. */
    method AttachStoredAlias(al: EmoteAlias) returns (faulted: bool)
      modifies this
      ensures Outcome(Contents(), faulted) == AttachOne(old(Contents()), al)
    {
      if al.id !in AliasIds(aliases) {
        aliases := aliases + [al];
      }
      var at := IndexOfEmote(emotes, al.emoteId);
      AttachOneCases(old(Contents()), al);
      if at.None? {
        return true;
      }
      emotes := emotes[at.value := emotes[at.value].(aliases := emotes[at.value].aliases + [al])];
      return false;
    }

    /** The third and fourth passes: drop the emotes the store lacks, then scan `Aliases` for
        one the store lacks; the first found leaves `Aliases` and, one emote at a time, each
        emote's list, and the next step of the enumeration faults. */
    method DropStale(db: DatabaseContext) returns (faulted: bool)
      modifies this
      ensures Outcome(Contents(), faulted) == DetachFirstStale(Catalog(PruneEmotes(old(emotes), db.emotes), old(aliases)), db.aliases)
    {
      emotes := Filter(emotes, IdIn(EmoteIds(db.emotes)));
      var stored := AliasIds(db.aliases);
      var i := 0;
      while i < |aliases|
        invariant 0 <= i <= |aliases|
        invariant FirstWhere(aliases[i..], AliasIdNotIn(stored)) == FirstWhere(aliases, AliasIdNotIn(stored))
      {
        var al := aliases[i];
        assert aliases[i..][0] == al && aliases[i..][1..] == aliases[i + 1..];
        if al.id !in stored {
          var es := DetachEach(emotes, {al.id});
          emotes, aliases := es, Filter(aliases, AliasIdIsNot(al.id));
          return true;
        }
        i := i + 1;
      }
      return false;
    }
  }

  /** The fourth pass's `ForEach` over the emotes: each emote's alias list loses the stale ids,
      one emote at a time. */
  method DetachEach(pruned: seq<EeveeEmote>, stale: set<nat>) returns (es: seq<EeveeEmote>)
    ensures es == DetachFromEmotes(pruned, stale)
  {
    es := pruned;
    var j := 0;
    while j < |es|
      invariant 0 <= j <= |es| == |pruned|
      invariant forall m :: 0 <= m < j ==> es[m] == pruned[m].(aliases := Filter(pruned[m].aliases, AliasIdNotIn(stale)))
      invariant forall m :: j <= m < |es| ==> es[m] == pruned[m]
    {
      es := es[j := es[j].(aliases := Filter(es[j].aliases, AliasIdNotIn(stale)))];
      j := j + 1;
    }
  }

  /** Resolution of one input against a list of emotes, as a function value. */
  function Resolver(emotes: seq<EeveeEmote>, userId: nat): string -> Option<EeveeEmote> {
    (input: string) => FirstAssociated(emotes, userId, input)
  }

  /** `DatabaseRepository`: the store, the cache it reconciles on construction, and the
      operations over both. */
  class DatabaseRepository {
    const db: DatabaseContext
    const cache: RuntimeCache

    /** The constructor starts `InitAsync` and does not observe its fault. */
    constructor (db: DatabaseContext, cache: RuntimeCache)
      modifies cache
      ensures this.db == db && this.cache == cache
      ensures cache.Contents() == ReconcileAsWritten(old(cache.Contents()), db.Tables()).catalog
    {
      this.db := db;
      this.cache := cache;
      new;
      var _ := cache.InitAsync(db);
    }

    method WhitelistAddAsync(u: nat)
      modifies db
      ensures db.Users() == WhitelistAdd(old(db.Users()), u)
      ensures db.Tables() == old(db.Tables())
    {
      if u !in db.whitelist {
        db.whitelist := db.whitelist[u := |db.whitelist| == 0];
      }
      db.blacklist := db.blacklist - {u};
    }

    method WhitelistRemoveAsync(u: nat)
      modifies db
      ensures db.Users() == WhitelistRemove(old(db.Users()), u)
      ensures db.Tables() == old(db.Tables())
    {
      db.whitelist := db.whitelist - {u};
    }

    /** `ChangeOwnerAsync(targetId, callerId)`: a self-claim while there is no owner stores an
        owner entry only when the claimant has no whitelist entry yet (an existing entry is
        written back unchanged); otherwise the caller's and the target's flags are toggled.
        `faulted` is the dereference of a missing caller entry. */
    method ChangeOwnerAsync(targetId: nat, callerId: nat) returns (faulted: bool)
      modifies db
      ensures faulted <==> ChangeOwnerAsWritten(old(db.Users()), targetId, callerId).None?
      ensures !faulted ==> db.Users() == ChangeOwnerAsWritten(old(db.Users()), targetId, callerId).value
      ensures faulted ==> db.Users() == old(db.Users())
      ensures db.Tables() == old(db.Tables())
    {
      if targetId == callerId && NoOwner(db.Users()) {
        if targetId !in db.whitelist {
          db.whitelist := db.whitelist[targetId := true];
        }
        return false;
      }
      if callerId !in db.whitelist {
        return true;
      }
      db.whitelist := db.whitelist[callerId := !db.whitelist[callerId]];
      var target := if targetId in db.whitelist then db.whitelist[targetId] else false;
      db.whitelist := db.whitelist[targetId := !target];
      faulted := false;
    }

    method BlacklistAddAsync(u: nat)
      modifies db
      ensures db.Users() == BlacklistAdd(old(db.Users()), u)
      ensures db.Tables() == old(db.Tables())
    {
      if u !in db.blacklist {
        db.blacklist := db.blacklist + {u};
      }
      db.whitelist := db.whitelist - {u};
    }

    method BlacklistRemoveAsync(u: nat)
      modifies db
      ensures db.Users() == BlacklistRemove(old(db.Users()), u)
      ensures db.Tables() == old(db.Tables())
    {
      db.blacklist := db.blacklist - {u};
    }

    method DeleteEmoteAliasAsync(alias: EmoteAlias)
      modifies db
      ensures db.Tables() == DeleteAlias(old(db.Tables()), alias.id)
      ensures db.Users() == old(db.Users())
    {
      db.aliases := Filter(db.aliases, AliasIdIsNot(alias.id));
    }

    /** The store only: the cache keeps the emote until the next reconciliation. */
    method DeleteEmoteAsync(emote: EeveeEmote)
      modifies db
      ensures db.Tables() == DeleteEmote(old(db.Tables()), emote.id)
      ensures db.Users() == old(db.Users())
    {
      db.emotes := Filter(db.emotes, IdIsNot(emote.id));
      db.aliases := Filter(db.aliases, EmoteIdIsNot(emote.id));
    }

    method AddEmoteAsync(emote: EeveeEmote)
      modifies db
      ensures db.emotes == old(db.emotes) + [emote] && db.aliases == old(db.aliases)
      ensures db.Users() == old(db.Users())
    {
      db.emotes := db.emotes + [emote];
    }

    method AddAliasAsync(alias: EmoteAlias)
      modifies db
      ensures db.aliases == old(db.aliases) + [alias] && db.emotes == old(db.emotes)
      ensures db.Users() == old(db.Users())
    {
      db.aliases := db.aliases + [alias];
    }

    /** `AssociateEmoteAsync(userId, input)`: scans the cached emotes in order and returns the
        first that accepts the input. */
    method AssociateEmoteAsync(userId: nat, input: string) returns (r: Option<EeveeEmote>)
      ensures r == FirstAssociated(cache.emotes, userId, input)
    {
      var i := 0;
      while i < |cache.emotes|
        invariant 0 <= i <= |cache.emotes|
        invariant FirstAssociated(cache.emotes[i..], userId, input) == FirstAssociated(cache.emotes, userId, input)
      {
        var em := cache.emotes[i];
        assert cache.emotes[i..][0] == em && cache.emotes[i..][1..] == cache.emotes[i + 1..];
        if TryAssociate(em, userId, input) {
          return Some(em);
        }
        i := i + 1;
      }
      return None;
    }

    /** `IsEmoteAssociatedAsync`: some cached emote accepts the input. */
    method IsEmoteAssociatedAsync(userId: nat, input: string) returns (b: bool)
      ensures b <==> exists e :: e in cache.emotes && TryAssociate(e, userId, input)
    {
      var r := AssociateEmoteAsync(userId, input);
      b := r.Some?;
    }

    /** `AssociateMultipleEmotesAsync`: one resolution per input, in input order. */
    method AssociateMultipleEmotesAsync(userId: nat, inputs: seq<string>) returns (r: seq<Option<EeveeEmote>>)
      ensures |r| == |inputs|
      ensures forall i :: 0 <= i < |inputs| ==> r[i] == FirstAssociated(cache.emotes, userId, inputs[i])
    {
      var resolve := Resolver(cache.emotes, userId);
      r := [];
      var i := 0;
      while i < |inputs|
        invariant 0 <= i <= |inputs| && |r| == i
        invariant forall k :: 0 <= k < i ==> r[k] == resolve(inputs[k])
      {
        var em := AssociateEmoteAsync(userId, inputs[i]);
        MapAppend(r, inputs, resolve, i);
        r := r + [em];
        i := i + 1;
      }
    }
  }
}

=== FILE: restriction_commands.dfy ===
/** The legacy whitelist commands (RestrictionCommands.cs): `whitelist add` and `whitelist del`
    over the document collection "whitelist", and the order `whitelist list` shows it in. The
    collection is the sequence of its documents in the order a full scan returns them. */
module RestrictionCommands {
  import opened Wrappers
  import opened Sequences
  import opened LegacyWhitelist

  datatype Reply =
    | Success
    | CannotWhitelistBot      // "You can't whitelist ... for itself"
    | OnlyWhitelisted         // "Only Whitelisted users can do that!"
    | OnlyOwner               // "Only the Owner can dewhiten other members"

  /** A command's reply together with the collection it leaves. */
  datatype Response = Response(reply: Reply, whitelist: seq<DbWhitelistUser>)


  /** `whitelist.FirstOrDefault(x => x.Id == id)`. */
  /** The filter `x => x.Id != id` left by `RemoveAll(x => x.Id == id)`. */
  function IdIsNot(id: nat): DbWhitelistUser -> bool {
    (x: DbWhitelistUser) => x.id != id
  }

  function FindUser(wl: seq<DbWhitelistUser>, id: nat): (r: Option<DbWhitelistUser>)
    ensures r.None? <==> forall u :: u in wl ==> u.id != id
    ensures r.Some? ==> r.value in wl && r.value.id == id
  {
    FirstWhere(wl, (u: DbWhitelistUser) => u.id == id)
  }

  predicate Listed(wl: seq<DbWhitelistUser>, id: nat) {
    exists u :: u in wl && u.id == id
  }

  /** No two documents share an id. */
  predicate UniqueIds(wl: seq<DbWhitelistUser>) {
    forall i, j :: 0 <= i < j < |wl| ==> wl[i].id != wl[j].id
  }

  /** At most one document carries the owner flag. */
  predicate SingleOwner(wl: seq<DbWhitelistUser>) {
    forall i, j :: 0 <= i < |wl| && 0 <= j < |wl| && wl[i].isOwner && wl[j].isOwner ==> i == j
  }

  /** `WhitenUserCommand(u)`: the target defaults to the caller; the bot's own id is refused;
      only a listed caller, or anyone while the list is empty, may add; a target already listed
      is left as it is; a new entry is the owner exactly when the list was empty. */
  function Whiten(wl: seq<DbWhitelistUser>, clientId: nat, callerId: nat, target: Option<nat>): (r: Response)
    ensures var u := target.GetOr(callerId);
            && (u == clientId ==> r == Response(CannotWhitelistBot, wl))
            && (u != clientId && !Listed(wl, callerId) && wl != [] ==> r == Response(OnlyWhitelisted, wl))
            && (u != clientId && (Listed(wl, callerId) || wl == []) ==> r.reply == Success)
            && (r.reply == Success && Listed(wl, u) ==> r.whitelist == wl)
            && (r.reply == Success && !Listed(wl, u) ==> r.whitelist == wl + [DbWhitelistUser(u, wl == [])])
  {
    var u := target.GetOr(callerId);
    if u == clientId then Response(CannotWhitelistBot, wl)
    else if FindUser(wl, callerId).Some? || |wl| < 1 then
      if FindUser(wl, u).None? then
        Response(Success, wl + [EncapsulateToDb(CreateObj(u, |wl| < 1))])
      else Response(Success, wl)
    else Response(OnlyWhitelisted, wl)
  }

  /** `DeWhitenUserCommand(u)`: the target defaults to the caller; the caller must be listed; a
      target that is not listed is a success with no change; otherwise the target's documents go
      when the caller removes themself or is the owner, and the request is refused else. */
  function DeWhiten(wl: seq<DbWhitelistUser>, callerId: nat, target: Option<nat>): (r: Response)
    ensures var u := target.GetOr(callerId);
            && (!Listed(wl, callerId) ==> r == Response(OnlyWhitelisted, wl))
            && (Listed(wl, callerId) && !Listed(wl, u) ==> r == Response(Success, wl))
            && (r.whitelist != wl ==> r.reply == Success && Listed(wl, callerId) && Listed(wl, u))
            && (r.reply == OnlyOwner ==> u != callerId && r.whitelist == wl)
            && (Listed(wl, callerId) && Listed(wl, u) ==>
                  (r.reply == Success <==> u == callerId || FindUser(wl, callerId).value.isOwner))
            && (forall x :: x in r.whitelist <==> x in wl && (r.reply != Success || x.id != u))
            && (r.reply == Success && Listed(wl, callerId) && Listed(wl, u) ==> r.whitelist == Filter(wl, IdIsNot(u)))
  {
    var u := target.GetOr(callerId);
    match FindUser(wl, callerId)
    case None => Response(OnlyWhitelisted, wl)
    case Some(caller) =>
      match FindUser(wl, u)
      case None => Response(Success, wl)
      case Some(t) =>
        if caller.id == t.id || caller.isOwner then
          Response(Success, Filter(wl, IdIsNot(t.id)))
        else Response(OnlyOwner, wl)
  }

  /** Both commands keep the ids unique and at most one owner. */
  lemma CommandsPreserveInvariant(wl: seq<DbWhitelistUser>, clientId: nat, callerId: nat, target: Option<nat>)
    requires UniqueIds(wl) && SingleOwner(wl)
    ensures var r := Whiten(wl, clientId, callerId, target).whitelist;
            UniqueIds(r) && SingleOwner(r)
    ensures var r := DeWhiten(wl, callerId, target).whitelist;
            UniqueIds(r) && SingleOwner(r)
  {
    WhitenKeepsInvariant(wl, clientId, callerId, target);
    DeWhitenKeepsInvariant(wl, callerId, target);
  }

  lemma WhitenKeepsInvariant(wl: seq<DbWhitelistUser>, clientId: nat, callerId: nat, target: Option<nat>)
    requires UniqueIds(wl) && SingleOwner(wl)
    ensures var r := Whiten(wl, clientId, callerId, target).whitelist;
            UniqueIds(r) && SingleOwner(r)
  {
    var u := target.GetOr(callerId);
    var r := Whiten(wl, clientId, callerId, target).whitelist;
    if r != wl {
      assert !Listed(wl, u);
      forall i | 0 <= i < |wl|
        ensures wl[i].id != u
      {
        assert wl[i] in wl;
      }
      if wl != [] {
        assert !r[|wl|].isOwner;
      }
    }
  }

  lemma DeWhitenKeepsInvariant(wl: seq<DbWhitelistUser>, callerId: nat, target: Option<nat>)
    requires UniqueIds(wl) && SingleOwner(wl)
    ensures var r := DeWhiten(wl, callerId, target).whitelist;
            UniqueIds(r) && SingleOwner(r)
  {
    var u := target.GetOr(callerId);
    if DeWhiten(wl, callerId, target).whitelist != wl {
      FilterKeepsInvariant(wl, IdIsNot(u));
    }
  }

  lemma {:induction false} FilterKeepsInvariant(wl: seq<DbWhitelistUser>, p: DbWhitelistUser -> bool)
    requires UniqueIds(wl) && SingleOwner(wl)
    ensures UniqueIds(Filter(wl, p)) && SingleOwner(Filter(wl, p))
  {
    if wl != [] {
      FilterKeepsInvariant(wl[1..], p);
      var rest := Filter(wl[1..], p);
      forall x | x in rest
        ensures x.id != wl[0].id && (wl[0].isOwner ==> !x.isOwner)
      {
        var k :| 0 <= k < |wl[1..]| && wl[1..][k] == x;
        assert wl[k + 1] == x;
      }
    }
  }

  /** An empty whitelist is bootstrapped by its first `add`, whoever calls it: the new entry is
      the only one and it is the owner. */
  lemma FirstAddBootstraps(clientId: nat, callerId: nat, target: Option<nat>)
    requires target.GetOr(callerId) != clientId
    ensures Whiten([], clientId, callerId, target) == Response(Success, [DbWhitelistUser(target.GetOr(callerId), true)])
  {
  }

  /** `ShowWhitelistCommand`'s order: the same entries, the owner first. */
  function ShowOrder(wl: seq<DbWhitelistUser>): (r: seq<DbWhitelistUser>)
    ensures multiset(r) == multiset(wl)
    ensures forall i, j :: 0 <= i < j < |r| && r[j].isOwner ==> r[i].isOwner
  {
    var r := SortDesc(wl, (u: DbWhitelistUser) => if u.isOwner then 1 else 0);
    assert SortedDesc(r, (u: DbWhitelistUser) => if u.isOwner then 1 else 0);
    r
  }

  /** The command module, holding the "whitelist" collection and the bot's own id. */
  class WhitelistCommands {
    var whitelist: seq<DbWhitelistUser>
    const clientId: nat

    constructor (clientId: nat, whitelist: seq<DbWhitelistUser>)
      ensures this.clientId == clientId && this.whitelist == whitelist
    {
      this.clientId := clientId;
      this.whitelist := whitelist;
    }

    /** `whitelist add [user]`: inserts a document only when `Whiten` says so. */
    method WhitenUserCommand(callerId: nat, target: Option<nat>) returns (reply: Reply)
      modifies this
      ensures Response(reply, whitelist) == Whiten(old(whitelist), clientId, callerId, target)
    {
      var u := target.GetOr(callerId);
      if u == clientId {
        return CannotWhitelistBot;
      }
      var currUser := FindUser(whitelist, callerId);
      if currUser.Some? || |whitelist| < 1 {
        var tUser := FindUser(whitelist, u);
        if tUser.None? {
          var entry := EncapsulateToDb(CreateObj(u, |whitelist| < 1));
          whitelist := whitelist + [entry];
        }
        reply := Success;
      } else {
        reply := OnlyWhitelisted;
      }
    }

    /** `whitelist del [user]`: deletes the target's documents only when `DeWhiten` says so. */
    method DeWhitenUserCommand(callerId: nat, target: Option<nat>) returns (reply: Reply)
      modifies this
      ensures Response(reply, whitelist) == DeWhiten(old(whitelist), callerId, target)
    {
      var u := target.GetOr(callerId);
      var currUser := FindUser(whitelist, callerId);
      if currUser.None? {
        return OnlyWhitelisted;
      }
      var tUser := FindUser(whitelist, u);
      if tUser.None? {
        return Success;
      }
      if currUser.value.id == tUser.value.id || currUser.value.isOwner {
        whitelist := Filter(whitelist, IdIsNot(tUser.value.id));
        reply := Success;
      } else {
        reply := OnlyOwner;
      }
    }
  }
}

=== FILE: sequences.dfy ===
/** The LINQ shapes the code leans on: `Where`/`RemoveAll` (a filter that keeps order) and
    `OrderByDescending` (a sort on an integer key). */
module Sequences {
  import opened Wrappers

  /** `s.Where(p)`; `RemoveAll(x => !p(x))` leaves the same list. */
  function Filter<T(!new)>(s: seq<T>, p: T -> bool): (r: seq<T>)
    ensures |r| <= |s|
    ensures forall x :: x in r <==> x in s && p(x)
    ensures (forall i :: 0 <= i < |s| ==> p(s[i])) ==> r == s
  {
    if s == [] then []
    else
      var rest := Filter(s[1..], p);
      assert forall x :: x in s <==> x == s[0] || x in s[1..];
      if p(s[0]) then [s[0]] + rest else rest
  }

  /** Filtering keeps the relative order of the elements it keeps: a relation that holds
      between every earlier and later element of `s` holds between those of the result. */
  lemma {:induction false} FilterKeepsOrder<T(!new)>(s: seq<T>, p: T -> bool, before: (T, T) -> bool)
    requires forall i, j :: 0 <= i < j < |s| ==> before(s[i], s[j])
    ensures forall i, j :: 0 <= i < j < |Filter(s, p)| ==> before(Filter(s, p)[i], Filter(s, p)[j])
  {
    if s != [] {
      var tail := s[1..];
      forall i, j | 0 <= i < j < |tail|
        ensures before(tail[i], tail[j])
      {
        assert tail[i] == s[i + 1] && tail[j] == s[j + 1];
      }
      FilterKeepsOrder(tail, p, before);
      var rest := Filter(tail, p);
      if p(s[0]) {
        forall x | x in rest
          ensures before(s[0], x)
        {
          var k :| 0 <= k < |tail| && tail[k] == x;
          assert s[k + 1] == x;
        }
        ConsKeepsOrder(s[0], rest, before);
        assert Filter(s, p) == [s[0]] + rest;
      } else {
        assert Filter(s, p) == rest;
      }
    }
  }

  lemma ConsKeepsOrder<T>(h: T, rest: seq<T>, before: (T, T) -> bool)
    requires forall x :: x in rest ==> before(h, x)
    requires forall i, j :: 0 <= i < j < |rest| ==> before(rest[i], rest[j])
    ensures forall i, j :: 0 <= i < j < |[h] + rest| ==> before(([h] + rest)[i], ([h] + rest)[j])
  {
    var r := [h] + rest;
    forall i, j | 0 <= i < j < |r|
      ensures before(r[i], r[j])
    {
      assert r[j] == rest[j - 1];
      if i == 0 {
        assert rest[j - 1] in rest;
      } else {
        assert r[i] == rest[i - 1];
      }
    }
  }

  /** Two filters in a row keep what passes both. */
  lemma {:induction false} FilterFilter<T(!new)>(s: seq<T>, p: T -> bool, q: T -> bool, both: T -> bool)
    requires forall x :: both(x) == (p(x) && q(x))
    ensures Filter(Filter(s, p), q) == Filter(s, both)
  {
    if s != [] {
      FilterFilter(s[1..], p, q, both);
      var rest := Filter(s[1..], p);
      if p(s[0]) {
        assert Filter(s, p) == [s[0]] + rest;
        assert ([s[0]] + rest)[1..] == rest;
      }
    }
  }

  /** A list holding `f` of the first `i` elements of `xs`, extended by `f` of the next one. */
  lemma MapAppend<T, U>(r: seq<U>, xs: seq<T>, f: T -> U, i: nat)
    requires i < |xs| && |r| == i
    requires forall k :: 0 <= k < i ==> r[k] == f(xs[k])
    ensures forall k :: 0 <= k < i + 1 ==> (r + [f(xs[i])])[k] == f(xs[k])
  {
  }

  /** `s.FirstOrDefault(p)`: the first element satisfying `p`, or nothing when none does. */
  function FirstWhere<T>(s: seq<T>, p: T -> bool): (r: Option<T>)
    ensures r.None? <==> forall i :: 0 <= i < |s| ==> !p(s[i])
    ensures r.Some? ==> exists i :: 0 <= i < |s| && s[i] == r.value && p(s[i]) && forall j :: 0 <= j < i ==> !p(s[j])
  {
    if s == [] then None
    else if p(s[0]) then Some(s[0])
    else
      var rest := FirstWhere(s[1..], p);
      FirstWhereStep(s, p, rest);
      rest
  }

  /** The first match in the tail is the first match of a list whose head does not match. */
  lemma FirstWhereStep<T>(s: seq<T>, p: T -> bool, rest: Option<T>)
    requires s != [] && !p(s[0])
    requires rest.None? <==> forall i :: 0 <= i < |s[1..]| ==> !p(s[1..][i])
    requires rest.Some? ==> exists i :: 0 <= i < |s[1..]| && s[1..][i] == rest.value && p(s[1..][i]) && forall j :: 0 <= j < i ==> !p(s[1..][j])
    ensures rest.None? <==> forall i :: 0 <= i < |s| ==> !p(s[i])
    ensures rest.Some? ==> exists i :: 0 <= i < |s| && s[i] == rest.value && p(s[i]) && forall j :: 0 <= j < i ==> !p(s[j])
  {
    assert forall i :: 1 <= i < |s| ==> s[i] == s[1..][i - 1];
    if rest.Some? {
      var i :| 0 <= i < |s[1..]| && s[1..][i] == rest.value && p(s[1..][i]) && forall j :: 0 <= j < i ==> !p(s[1..][j]);
      assert s[i + 1] == rest.value && p(s[i + 1]);
      assert forall j :: 0 <= j < i + 1 ==> !p(s[j]);
    }
  }

  /** Any first match is the one `FirstWhere` returns. */
  lemma FirstWhereIsFirst<T>(s: seq<T>, p: T -> bool)
    ensures forall k :: 0 <= k < |s| && p(s[k]) && (forall j :: 0 <= j < k ==> !p(s[j])) ==> FirstWhere(s, p) == Some(s[k])
  {
    forall k | 0 <= k < |s| && p(s[k]) && (forall j :: 0 <= j < k ==> !p(s[j]))
      ensures FirstWhere(s, p) == Some(s[k])
    {
      var i :| 0 <= i < |s| && s[i] == FirstWhere(s, p).value && p(s[i]) && forall j :: 0 <= j < i ==> !p(s[j]);
      assert !(i < k) && !(k < i);
    }
  }

  /** Keys never increase from left to right. */
  predicate SortedDesc<T>(s: seq<T>, key: T -> int) {
    forall i, j :: 0 <= i < j < |s| ==> key(s[i]) >= key(s[j])
  }

  /** Puts `x` in front of the first element whose key is not larger than its own, so that
      among equal keys `x` comes first. */
  function Insert<T>(x: T, s: seq<T>, key: T -> int): (r: seq<T>)
    ensures multiset(r) == multiset(s) + multiset{x}
  {
    if s == [] || key(s[0]) <= key(x) then [x] + s
    else
      assert s == [s[0]] + s[1..];
      [s[0]] + Insert(x, s[1..], key)
  }

  /** Inserting an element no larger than a bound into elements no larger than it keeps the bound. */
  lemma {:induction false} InsertBounded<T>(x: T, s: seq<T>, key: T -> int, b: int)
    requires key(x) <= b
    requires forall i :: 0 <= i < |s| ==> key(s[i]) <= b
    ensures forall i :: 0 <= i < |Insert(x, s, key)| ==> key(Insert(x, s, key)[i]) <= b
  {
    if s != [] && key(s[0]) > key(x) {
      InsertBounded(x, s[1..], key, b);
      var rest := Insert(x, s[1..], key);
      assert Insert(x, s, key) == [s[0]] + rest;
      forall i | 0 < i < |Insert(x, s, key)|
        ensures key(Insert(x, s, key)[i]) <= b
      {
        assert Insert(x, s, key)[i] == rest[i - 1];
      }
    }
  }

  /** Inserting into a sequence sorted by descending key keeps it sorted. */
  lemma {:induction false} InsertSorted<T>(x: T, s: seq<T>, key: T -> int)
    requires SortedDesc(s, key)
    ensures SortedDesc(Insert(x, s, key), key)
  {
    if s != [] && key(s[0]) > key(x) {
      var rest := Insert(x, s[1..], key);
      InsertSorted(x, s[1..], key);
      InsertBounded(x, s[1..], key, key(s[0]));
      var r := [s[0]] + rest;
      forall i, j | 0 <= i < j < |r|
        ensures key(r[i]) >= key(r[j])
      {
        if i == 0 {
          assert r[j] == rest[j - 1];
        } else {
          assert r[i] == rest[i - 1] && r[j] == rest[j - 1];
        }
      }
    }
  }

  /** `s.OrderByDescending(key)`: a permutation of `s` whose keys never increase. */
  function SortDesc<T>(s: seq<T>, key: T -> int): (r: seq<T>)
    ensures multiset(r) == multiset(s)
    ensures SortedDesc(r, key)
  {
    if s == [] then []
    else
      assert s == [s[0]] + s[1..];
      InsertSorted(s[0], SortDesc(s[1..], key), key);
      Insert(s[0], SortDesc(s[1..], key), key)
  }
}

=== FILE: text.dfy ===
/** String helpers the bot relies on but whose code is not part of this model
    (`ToLower`, `EqualsCaseInsensitive`, `ContainsCaseInsensitive`, `Count`, `Between`,
    `Replace` and `ulong.ToString`). Each is given an explicit semantics here:
    case folding is ASCII lower-casing, and numbers are rendered in decimal. */
module Text {
  import opened Wrappers
  import opened Sequences

  /** ASCII lower-casing of one character; every other character is left alone. */
  function LowerChar(c: char): (r: char)
    ensures !('A' <= r <= 'Z')
    ensures r != c ==> 'A' <= c <= 'Z'
  {
    if 'A' <= c <= 'Z' then (c as int + 32) as char else c
  }

  /** `s.ToLower()`. */
  function Lower(s: string): (r: string)
    ensures |r| == |s|
    ensures forall i {:trigger r[i]} :: 0 <= i < |s| ==> r[i] == LowerChar(s[i])
    ensures forall i :: 0 <= i < |r| ==> !('A' <= r[i] <= 'Z')
  {
    seq(|s|, i requires 0 <= i < |s| => LowerChar(s[i]))
  }

  lemma LowerIdempotent(s: string)
    ensures Lower(Lower(s)) == Lower(s)
  {
    assert forall i :: 0 <= i < |s| ==> Lower(Lower(s))[i] == Lower(s)[i];
  }

  /** `s.Length`: the number of UTF-16 code units, so a character outside the Basic Multilingual
      Plane (a surrogate pair) counts twice. */
  function Utf16Length(s: string): (n: nat)
    ensures |s| <= n <= 2 * |s|
    ensures n == |s| <==> forall i :: 0 <= i < |s| ==> s[i] as int < 0x1_0000
  {
    if s == [] then 0
    else
      var rest := Utf16Length(s[1..]);
      assert forall i :: 1 <= i < |s| ==> s[i] == s[1..][i - 1];
      (if s[0] as int < 0x1_0000 then 1 else 2) + rest
  }

  /** One emoji outside the Basic Multilingual Plane is two code units long. */
  lemma Utf16LengthOfEmoji()
    ensures |"\U{1F600}"| == 1 && Utf16Length("\U{1F600}") == 2
  {
    assert "\U{1F600}"[1..] == [];
  }

  /** `a.EqualsCaseInsensitive(b)` and `a.ToLower() == b.ToLower()`. */
  predicate EqualsCaseInsensitive(a: string, b: string) {
    Lower(a) == Lower(b)
  }

  /** `sub` occurs as a contiguous piece of `s`. */
  predicate ContainsSubstring(s: string, sub: string)
    decreases |s|
  {
    sub <= s || (|s| > 0 && ContainsSubstring(s[1..], sub))
  }

  /** `s.ContainsCaseInsensitive(sub)`. */
  predicate ContainsCaseInsensitive(s: string, sub: string) {
    ContainsSubstring(Lower(s), Lower(sub))
  }

  /** Equal texts contain each other, so every exact case-insensitive match is also a containment match. */
  lemma EqualsImpliesContains(s: string, sub: string)
    requires EqualsCaseInsensitive(s, sub)
    ensures ContainsCaseInsensitive(s, sub)
  {
  }

  /** `s.Count(x => x == c)`. */
  function CountChar(s: string, c: char): (n: nat)
    ensures n <= |s|
    ensures n == 0 <==> c !in s
  {
    if s == [] then 0 else (if s[0] == c then 1 else 0) + CountChar(s[1..], c)
  }

  lemma {:induction false} CountCharConcat(a: string, b: string, c: char)
    ensures CountChar(a + b, c) == CountChar(a, c) + CountChar(b, c)
  {
    if a == [] {
      assert a + b == b;
    } else {
      assert (a + b)[1..] == a[1..] + b;
      CountCharConcat(a[1..], b, c);
    }
  }

  /** Position of the first `c` in `s` (`IndexOf`). */
  function IndexOf(s: string, c: char): (r: Option<nat>)
    ensures r.Some? ==> r.value < |s| && s[r.value] == c && c !in s[..r.value]
    ensures r.None? ==> c !in s
  {
    if s == [] then None
    else if s[0] == c then Some(0)
    else match IndexOf(s[1..], c)
      case None => None
      case Some(k) =>
        assert s[..k + 1] == [s[0]] + s[1..][..k];
        Some(k + 1)
  }

  /** An occurrence of `c` with none before it is the one `IndexOf` finds. */
  lemma IndexOfAt(s: string, c: char, k: nat)
    requires k < |s| && s[k] == c && c !in s[..k]
    ensures IndexOf(s, c) == Some(k)
  {
    assert s[..k + 1][k] == c;
    var v := IndexOf(s, c).value;
    forall j | 0 <= j < k
      ensures s[j] != c
    {
      assert s[..k][j] == s[j];
    }
    forall j | 0 <= j < v
      ensures s[j] != c
    {
      assert s[..v][j] == s[j];
    }
  }

  /** Two texts free of `c` that each run up to an occurrence of `c` at the start of `t` agree. */
  lemma SamePrefixBeforeSeparator(t: string, x: string, y: string, c: char)
    requires c !in x && c !in y
    requires |x| < |t| && t[..|x|] == x && t[|x|] == c
    requires |y| < |t| && t[..|y|] == y && t[|y|] == c
    ensures x == y
  {
    forall j | 0 <= j < |x|
      ensures t[j] != c
    {
      assert t[j] == x[j];
    }
    forall j | 0 <= j < |y|
      ensures t[j] != c
    {
      assert t[j] == y[j];
    }
  }

  /** `s.Between(c, 1)`: the text between the first and the second occurrence of `c`. */
  function Between(s: string, c: char): (r: string)
    requires CountChar(s, c) >= 2
    ensures c !in r
    ensures var i := IndexOf(s, c).value;
              i + 1 + |r| < |s| && s[i + 1..i + 1 + |r|] == r && s[i + 1 + |r|] == c
  {
    var i := IndexOf(s, c).value;
    assert s == s[..i] + [s[i]] + s[i + 1..];
    CountCharConcat(s[..i] + [s[i]], s[i + 1..], c);
    CountCharConcat(s[..i], [s[i]], c);
    var rest := s[i + 1..];
    var j := IndexOf(rest, c).value;
    rest[..j]
  }

  function IsNot(c: char): char -> bool {
    (x: char) => x != c
  }

  /** `s.Replace(c.ToString(), string.Empty)`: the characters other than `c`, in their order. */
  function Remove(s: string, c: char): (r: string)
    ensures c !in r
    ensures |r| == |s| - CountChar(s, c)
    ensures forall x :: x != c ==> (x in r <==> x in s)
    ensures r == Filter(s, IsNot(c))
  {
    if s == [] then [] else (if s[0] == c then [] else [s[0]]) + Remove(s[1..], c)
  }

  /** Removing a character that does not occur changes nothing. */
  lemma {:induction false} RemoveAbsent(s: string, c: char)
    requires c !in s
    ensures Remove(s, c) == s
  {
    if s != [] {
      assert s[0] != c;
      RemoveAbsent(s[1..], c);
      assert s == [s[0]] + s[1..];
    }
  }

  lemma {:induction false} RemoveIdempotent(s: string, c: char)
    ensures Remove(Remove(s, c), c) == Remove(s, c)
  {
    if s != [] {
      RemoveIdempotent(s[1..], c);
      var t := Remove(s, c);
      if s[0] != c {
        assert t == [s[0]] + Remove(s[1..], c);
        assert t[1..] == Remove(s[1..], c);
      } else {
        assert t == Remove(s[1..], c);
      }
    }
  }

  predicate IsDigit(ch: char) {
    '0' <= ch <= '9'
  }

  predicate AllDigits(s: string) {
    forall i :: 0 <= i < |s| ==> IsDigit(s[i])
  }

  function DigitChar(d: nat): (ch: char)
    requires d < 10
    ensures IsDigit(ch)
  {
    ('0' as int + d) as char
  }

  function DigitValue(ch: char): nat {
    if IsDigit(ch) then ch as int - '0' as int else 0
  }

  /** Decimal rendering of an id (`ulong.ToString()`). */
  function NatToString(n: nat): (r: string)
    ensures |r| >= 1 && AllDigits(r)
    ensures r[0] == '0' ==> n == 0 && |r| == 1
  {
    if n < 10 then [DigitChar(n)] else NatToString(n / 10) + [DigitChar(n % 10)]
  }

  /** Reads a run of decimal digits back as a number. */
  function ParseDecimal(s: string): nat
  {
    if s == [] then 0 else ParseDecimal(s[..|s| - 1]) * 10 + DigitValue(s[|s| - 1])
  }

  /** The decimal rendering is read back as the same number. */
  lemma {:induction false} ParseNatToString(n: nat)
    ensures ParseDecimal(NatToString(n)) == n
  {
    if n >= 10 {
      var p := NatToString(n / 10);
      var d := DigitChar(n % 10);
      assert NatToString(n) == p + [d];
      assert (p + [d])[..|p|] == p;
      ParseNatToString(n / 10);
    }
  }

  /** Distinct ids render as distinct texts. */
  lemma NatToStringInjective(a: nat, b: nat)
    ensures NatToString(a) == NatToString(b) ==> a == b
  {
    ParseNatToString(a);
    ParseNatToString(b);
  }
}

=== FILE: whitelist_user.dfy ===
/** The current generation's whitelist entity (WhitelistUser.cs): an object whose owner flag
    is flipped in place. */
module WhitelistUsers {
  import opened Text

  class WhitelistUser {
    var id: nat
    var isOwner: bool

    /** The parameterless constructor. */
    constructor Default()
      ensures id == 0 && !isOwner
    {
      id := 0;
      isOwner := false;
    }

    /** `WhitelistUser(id, isOwner = false)`. */
    constructor (id: nat, isOwner: bool := false)
      ensures this.id == id && this.isOwner == isOwner
    {
      this.id := id;
      this.isOwner := isOwner;
    }

    /** `ToString`: the decimal rendering of the id, which reads back as the id. */
    function ToString(): (r: string)
      reads this
      ensures |r| >= 1 && AllDigits(r)
      ensures r[0] == '0' ==> |r| == 1
      ensures ParseDecimal(r) == id
    {
      ParseNatToString(id);
      NatToString(id)
    }

    /** `ToggleIsOwner`: negates the owner flag and leaves the id alone. */
    method ToggleIsOwner()
      modifies this
      ensures isOwner == !old(isOwner)
      ensures id == old(id)
    {
      isOwner := !isOwner;
    }
  }

  /** Toggling twice restores the original flag. */
  method ToggleTwice(u: WhitelistUser)
    modifies u
    ensures u.isOwner == old(u.isOwner) && u.id == old(u.id)
  {
    u.ToggleIsOwner();
    u.ToggleIsOwner();
  }
}

=== FILE: wrappers.dfy ===
/** Optional values: the model's stand-in for a C# reference that may be null
    (`FirstOrDefault` returning `default`, an optional command argument). */
module Wrappers {

  datatype Option<+T> = None | Some(value: T) {

    /** The value, or `default` when there is none (C#'s `x ?? default`). */
    function GetOr(default: T): T {
      match this
      case Some(v) => v
      case None => default
    }
  }
}
